=== FILE: README.md ===
# FastFileExplorer core, modelled in Dafny

This project models the logic at the heart of FastFileExplorer, a WinForms file explorer for Windows, and proves properties of it. Each part becomes an immutable datatype with pure functions (or short methods with loops) over it:

- **File index** (`Indexer`): a 16-way partitioned, case-insensitive map from path to file record, the set of directories already crawled, batching, and the term search.
- **Search engine** (`Search`): the filters, the relevance score, the cap on results and the file-system fallback.
- **Directory cache** (`Cache`): snapshots and their timestamps, stale-while-revalidate reads, the single refresh slot, bulk eviction, invalidation and the watched directory.
- **Native enumerator** (`Enumerator`): the Win32 find stream as a sequence of entries, and the file system as a tree. It covers entry filtering, path joining, 64-bit size composition, the depth bound and cancellation.
- **Validators and encoders**:
  - `PathSecurity` for paths, file names and search queries.
  - `Discord` for JSON escaping, the 8-byte IPC frame, nonces and the connection flags.
  - `BatchRename` for the comparison-aware `Replace` and the rename modes.
  - `MainForm` for `TruncateString`, `GetUniqueFileName` and the status line.
  - `Icons` and `FileList.GetFileType` for the extension tables.
- **UI state machines**:
  - `Tabs`: the tab list.
  - `Breadcrumbs`: the history stacks and crumbs.
  - `QuickAccess`: the pinned and recent lists and their settings file.
  - `DualPane`: the pane modes.
  - `FileList`: the item list's filter, sort and column toggle.
  - `Palette`: the command palette.
  - `NavPanel`: the navigation panel's hit test.

The shared modules are:

- `Common` and `Strings`: ASCII case mapping, trimming, splitting and `Replace`.
- `StringLemmas`: what `Trim()` keeps and what `Split` loses.
- `PathText`: `System.IO.Path` with .NET Framework Windows rules.
- `Sorting`: ordering by a comparison, plus a filter.

The clock, the file system, the platform's invalid-character sets, `Path.GetFullPath`, volume labels and pipe outcomes are all parameters.

Two operations model their exception as `None`: `TruncateString`, which throws for a short `maxLength`, and `GetUniqueFileName`, which throws when `Path.Combine` receives the null directory of a root path. Other exceptions are listed under "Left out".

Behaviour that the model keeps as written:

- A name that ends in '.' (as in "foo.") loses that dot in the rename preview. `GetFileNameWithoutExtension` drops the dot and `GetExtension` returns "".
- `AddTab` has no fallback for an empty title, while `UpdateTabPath` has one.
- The Discord nonce is incremented with `Interlocked.Increment`, so it wraps at `int.MaxValue`. The ordering lemmas therefore assume the nonce is below the maximum.
- The handshake embeds the client id without escaping it.
- Turning `ShowHiddenFiles` on does not bring back hidden items that an earlier filter removed from the list.
- The Up key with nothing selected starts from index 1, so it selects index 0.

## Model

| member | source | states |
|---|---|---|
| Indexer.HashOf | Fastest_FileExplorer/Fastest_FileExplorer/Core/FileIndexer.cs:78-83 | The 31-based hash over at most the first 64 lower-cased characters stays a signed 32-bit value, as the unchecked int arithmetic of the source does |
| Indexer.PartitionIndex | Fastest_FileExplorer/Fastest_FileExplorer/Core/FileIndexer.cs:74-86 | The partition index always lies in 0..15 |
| Indexer.HashIgnoresCase | Fastest_FileExplorer/Fastest_FileExplorer/Core/FileIndexer.cs:78-83 | Strings equal after lower-casing hash alike |
| Indexer.PartitionIgnoresCase | Fastest_FileExplorer/Fastest_FileExplorer/Core/FileIndexer.cs:74-86 | Two paths whose first 64 characters agree after lower-casing share a partition |
| Indexer.SameKeySamePartition | Fastest_FileExplorer/Fastest_FileExplorer/Core/FileIndexer.cs:74-86 | Paths equal ignoring case, the dictionaries' key equality, always land in the same partition |
| Indexer.SkipDirectoryIff | Fastest_FileExplorer/Fastest_FileExplorer/Core/FileIndexer.cs:313-340 | A directory is skipped exactly when its name is empty, starts with '$' or '.', or equals one of the six system folder names ignoring case |
| Indexer.CrawlerExtension | Fastest_FileExplorer/Fastest_FileExplorer/Core/FileIndexer.cs:283-288 | The crawler's extension is non-empty exactly when the last '.' is neither the first nor the last character, and is then the lower-cased suffix from that dot |
| Indexer.InternExtension | Fastest_FileExplorer/Fastest_FileExplorer/Core/FileIndexer.cs:89-93 | Interning returns the lower-cased extension and only ever adds cache entries that map a key to its lower-cased form |
| Indexer.GloballyUnique | Fastest_FileExplorer/Fastest_FileExplorer/Core/FileIndexer.cs:74-86 | In a well-formed index no two records anywhere have paths equal ignoring case |
| Indexer.IndexedInOwnPartition | Fastest_FileExplorer/Fastest_FileExplorer/Core/FileIndexer.cs:74-86 | A path is indexed exactly when its own partition holds it |
| Indexer.AddFile | Fastest_FileExplorer/Fastest_FileExplorer/Core/FileIndexer.cs:253-258 | TryAdd inserts a record only when its path is absent, reports whether it did, and never overwrites |
| Indexer.AddAll | Fastest_FileExplorer/Fastest_FileExplorer/Core/FileIndexer.cs:248-263 | Adding a batch grows the index by exactly the number of new insertions, at most the batch size |
| Indexer.AddAllAppends | Fastest_FileExplorer/Fastest_FileExplorer/Core/FileIndexer.cs:248-263 | Adding a batch only appends to partitions; every appended record came from the batch |
| Indexer.AddAllIndexes | Fastest_FileExplorer/Fastest_FileExplorer/Core/FileIndexer.cs:248-263 | After adding a batch every path in it is indexed |
| Indexer.NewIndex | Fastest_FileExplorer/Fastest_FileExplorer/Core/FileIndexer.cs:38-71 | A fresh index is well formed: 16 empty partitions, no processed directories, zero counters |
| Indexer.ProgressAfter | Fastest_FileExplorer/Fastest_FileExplorer/Core/FileIndexer.cs:265-268 | A progress report happens exactly when the running total is a positive multiple of 500,000, and reports that total |
| Indexer.FlushBatch | Fastest_FileExplorer/Fastest_FileExplorer/Core/FileIndexer.cs:248-269 | Flushing keeps the index well formed, advances the total by exactly the new insertions, indexes every file of the batch and overwrites nothing |
| Indexer.FileRecord | Fastest_FileExplorer/Fastest_FileExplorer/Core/FileIndexer.cs:283-299 | The record built for a found file carries exactly the event's path, name, size and times, its lower-cased name and the crawler extension, and the extension table stays well formed |
| Indexer.Absorb | Fastest_FileExplorer/Fastest_FileExplorer/Core/FileIndexer.cs:279-309 | The enumerator callbacks only append to the batch and to the directory queue |
| Indexer.AbsorbSound | Fastest_FileExplorer/Fastest_FileExplorer/Core/FileIndexer.cs:279-309 | Every record appended is the one built from a file event of the directory (same path, name, size, times, lower-cased name and crawler extension), and every queued path is a subdirectory event whose name is not on the skip list |
| Indexer.AbsorbFilesComplete | Fastest_FileExplorer/Fastest_FileExplorer/Core/FileIndexer.cs:279-301 | Conversely, every file event of the directory has its record among the appended ones |
| Indexer.AbsorbDirsComplete | Fastest_FileExplorer/Fastest_FileExplorer/Core/FileIndexer.cs:302-308 | Conversely, every subdirectory event not on the skip list is queued |
| Indexer.AbsorbOne | Fastest_FileExplorer/Fastest_FileExplorer/Core/FileIndexer.cs:281-308 | One callback appends the file record for a file event, the path for a kept subdirectory event, and nothing else |
| Indexer.ProcessDirectory | Fastest_FileExplorer/Fastest_FileExplorer/Core/FileIndexer.cs:272-310 | A directory is processed at most once: its key enters the visited set only when it was absent and the token was not cancelled, and DirectoriesProcessed grows by at most one |
| Indexer.ProcessAtMostOnce | Fastest_FileExplorer/Fastest_FileExplorer/Core/FileIndexer.cs:275-277 | Processing an already visited directory changes nothing: no enumeration and no count |
| Indexer.ProcessCountsOnce | Fastest_FileExplorer/Fastest_FileExplorer/Core/FileIndexer.cs:275-277 | Processing a new directory adds it to the visited set and counts it once |
| Indexer.SubdirsAreQueued | Fastest_FileExplorer/Fastest_FileExplorer/Core/FileIndexer.cs:161-169 | Seeding and the workers share the directory callback: what seeding keeps of a listing is exactly what a worker queues for it |
| Indexer.SeedDirectory | Fastest_FileExplorer/Fastest_FileExplorer/Core/FileIndexer.cs:155-172 | As written, seeding a directory claims it in the visited set without counting it, changes nothing else in the index, and queues the subdirectories it keeps |
| Indexer.SeedLevel | Fastest_FileExplorer/Fastest_FileExplorer/Core/FileIndexer.cs:149-175 | A seeded level claims each of its directories in the visited set and leaves the rest of the index alone |
| Indexer.SeedDeep | Fastest_FileExplorer/Fastest_FileExplorer/Core/FileIndexer.cs:145-177 | Seeding only grows the visited set: no file is recorded and DirectoriesProcessed does not move; with depth > 0 every directory of the first level is claimed |
| Indexer.Seed | Fastest_FileExplorer/Fastest_FileExplorer/Core/FileIndexer.cs:112-120 | StartFullIndexAsync queues the drive roots and seeds two levels; the index stays well formed |
| Indexer.SeededDirectoriesSkipped | Fastest_FileExplorer/Fastest_FileExplorer/Core/FileIndexer.cs:157 | As written, a drive root or a subdirectory it keeps is already claimed when a worker dequeues it, so processing it changes nothing: its files never reach a batch |
| Indexer.SeededRootFileMissed | Fastest_FileExplorer/Fastest_FileExplorer/Core/FileIndexer.cs:157 | For a drive "C:\\" holding a.txt, the worker processing the drive after seeding leaves the batch empty |
| Indexer.SeedDirectoryFixed | Fastest_FileExplorer/Fastest_FileExplorer/Core/FileIndexer.cs:155-172 | The corrected seed keeps its own seen set and leaves the index untouched |
| Indexer.SeedDeepFixed | Fastest_FileExplorer/Fastest_FileExplorer/Core/FileIndexer.cs:145-177 | The corrected seeding of any depth leaves the index untouched |
| Indexer.SeedFixed | Fastest_FileExplorer/Fastest_FileExplorer/Core/FileIndexer.cs:112-120 | The corrected two-level seeding leaves the index as it was |
| Indexer.SeededRootIndexed | Fastest_FileExplorer/Fastest_FileExplorer/Core/FileIndexer.cs:272-309 | With the corrected seeding the worker still visits a new drive root: it is counted once, claimed, and every file of its listing gets its record |
| Indexer.WorkerStep | Fastest_FileExplorer/Fastest_FileExplorer/Core/FileIndexer.cs:193-210 | One worker step (pop a directory, process it, flush a full batch) keeps the crawler valid and never shrinks the visited set or the total |
| Indexer.WorkerExit | Fastest_FileExplorer/Fastest_FileExplorer/Core/FileIndexer.cs:234-237 | A leaving worker flushes what is left, so every batched file ends up indexed |
| Indexer.MatchesTerms | Fastest_FileExplorer/Fastest_FileExplorer/Core/FileIndexer.cs:431-443 | The loop answers true exactly when every term occurs in the lower-cased name or, ignoring case, in the full path |
| Indexer.Matching | Fastest_FileExplorer/Fastest_FileExplorer/Core/FileIndexer.cs:422-427 | The filter keeps exactly the indexed files matching every term |
| Indexer.Terms | Fastest_FileExplorer/Fastest_FileExplorer/Core/FileIndexer.cs:419-420 | The terms are non-empty and space-free, and laid end to end they are the lower-cased query with its spaces removed |
| Indexer.TermsAreSegments | Fastest_FileExplorer/Fastest_FileExplorer/Core/FileIndexer.cs:419-420 | The terms are the space-separated segments of the lower-cased query, in order, with empty ones dropped; the segments joined with spaces give the query back |
| Indexer.Search | Fastest_FileExplorer/Fastest_FileExplorer/Core/FileIndexer.cs:414-428 | A blank query yields nothing; otherwise at most maxResults indexed files, all matching every term, and fewer only when no further match exists |
| Indexer.ClearIndex | Fastest_FileExplorer/Fastest_FileExplorer/Core/FileIndexer.cs:467-476 | Clearing empties every partition and the visited set, zeroes both counters, leaves no path indexed and keeps the extension cache |
| Search.NewQuery | Fastest_FileExplorer/Fastest_FileExplorer/Core/SearchEngine.cs:263-276 | A new query searches subdirectories, caps results at 10,000 and has no filters |
| Search.PassesFiltersIff | Fastest_FileExplorer/Fastest_FileExplorer/Core/SearchEngine.cs:194-217 | A file passes exactly when its size and time lie in the inclusive bounds given and a non-empty extension list names its extension, with or without a leading '.', ignoring case |
| Search.NameRank | Fastest_FileExplorer/Fastest_FileExplorer/Core/SearchEngine.cs:223-228 | The name bonus tiers: exact match, prefix, substring, in that order of strength |
| Search.RelevanceScore | Fastest_FileExplorer/Fastest_FileExplorer/Core/SearchEngine.cs:219-240 | The score lies in 0..155 |
| Search.ScoreFollowsNameRank | Fastest_FileExplorer/Fastest_FileExplorer/Core/SearchEngine.cs:223-228 | With the other factors fixed, a stronger name match scores strictly higher |
| Search.ScoreComponents | Fastest_FileExplorer/Fastest_FileExplorer/Core/SearchEngine.cs:219-240 | The score is the name bonus plus 40 when every term is in the name, 10 for a name shorter than 20 characters and 5 for a change within 30 days |
| Search.IndexResult | Fastest_FileExplorer/Fastest_FileExplorer/Core/SearchEngine.cs:122-131 | An index result is never a directory and carries the file's path |
| Search.CandidateLimit | Fastest_FileExplorer/Fastest_FileExplorer/Core/SearchEngine.cs:112 | The corrected candidate count: at least MaxResults and within int range |
| Search.CandidateLimitWraps | Fastest_FileExplorer/Fastest_FileExplorer/Core/SearchEngine.cs:112 | As written, MaxResults * 2 wraps to a negative count for MaxResults of 2^30 and above |
| Search.CandidateLimitCoversCap | Fastest_FileExplorer/Fastest_FileExplorer/Core/SearchEngine.cs:112-131 | With the corrected count the index is asked for enough candidates to fill MaxResults whenever that many matches exist |
| Search.Candidates | Fastest_FileExplorer/Fastest_FileExplorer/Core/SearchEngine.cs:112 | The candidates are indexed files, no more than the corrected candidate count (see the first finding) |
| Search.CandidatesAsWrittenBelowWrap | Fastest_FileExplorer/Fastest_FileExplorer/Core/SearchEngine.cs:112 | For MaxResults between -2^30 and 2^30 the corrected and the written counts agree, so the candidates are the ones the source asks for |
| Search.CollectIndexed | Fastest_FileExplorer/Fastest_FileExplorer/Core/SearchEngine.cs:41-47 | The collecting loop yields a prefix of the filtered, scored candidates, all of them when never cancelled |
| Search.IndexResultsSound | Fastest_FileExplorer/Fastest_FileExplorer/Core/SearchEngine.cs:114-131 | Every index result comes from a candidate that passes the filters, with the candidate's relevance score |
| Search.FsResult | Fastest_FileExplorer/Fastest_FileExplorer/Core/SearchEngine.cs:181-189 | A file-system result has relevance 50 and is not a directory |
| Search.CollectFs | Fastest_FileExplorer/Fastest_FileExplorer/Core/SearchEngine.cs:49-58 | The fallback adds at most the room left under MaxResults, each a present file passing the filters with relevance 50 |
| Search.CancelCurrentSearch | Fastest_FileExplorer/Fastest_FileExplorer/Core/SearchEngine.cs:255-260 | Cancelling cancels the current source, if any, and clears it |
| Search.StartSearch | Fastest_FileExplorer/Fastest_FileExplorer/Core/SearchEngine.cs:28-29 | Starting a search cancels the previous source and installs a fresh one |
| Search.StartSearchKeepsValid | Fastest_FileExplorer/Fastest_FileExplorer/Core/SearchEngine.cs:28-29 | After starting a search the current source is the only uncancelled one |
| Search.SearchAsync | Fastest_FileExplorer/Fastest_FileExplorer/Core/SearchEngine.cs:26-68 | SearchAsync returns at most MaxResults results |
| Search.SearchAsyncSources | Fastest_FileExplorer/Fastest_FileExplorer/Core/SearchEngine.cs:39-64 | The index is consulted only when something is indexed, and the fallback only when results are short and a search path is given; each fallback result is a present, filter-passing file of the listing |
| Search.Realtime | Fastest_FileExplorer/Fastest_FileExplorer/Core/SearchEngine.cs:81-88 | The callback runs at most MaxResults times, on a prefix of the index results |
| Search.RealtimeCancelledFirst | Fastest_FileExplorer/Fastest_FileExplorer/Core/SearchEngine.cs:83 | A token already cancelled at the first check gets no callback at all |
| Search.RealtimeStopsOnCancel | Fastest_FileExplorer/Fastest_FileExplorer/Core/SearchEngine.cs:81-88 | Cancelling sooner only cuts the callback sequence short: the callbacks made are a prefix of those a later cancellation allows |
| Search.SearchRealtime | Fastest_FileExplorer/Fastest_FileExplorer/Core/SearchEngine.cs:70-91 | SearchRealtimeAsync reports at most MaxResults results and none when nothing is indexed |
| Cache.NormalizePath | Fastest_FileExplorer/Fastest_FileExplorer/Core/FileSystemCache.cs:283-286 | Normalising drops exactly the trailing '\\' and '/' characters, so the result never ends in one |
| Cache.NormalizeIdempotent | Fastest_FileExplorer/Fastest_FileExplorer/Core/FileSystemCache.cs:283-286 | Normalising twice is normalising once |
| Cache.OldestKeys | Fastest_FileExplorer/Fastest_FileExplorer/Core/FileSystemCache.cs:178-187 | The eviction picks min(n, size) keys, none newer than any key kept |
| Cache.UpdateCache | Fastest_FileExplorer/Fastest_FileExplorer/Core/FileSystemCache.cs:174-202 | Storing a snapshot evicts 2,500 oldest entries only when more than 10,000 are cached, keeps at most 10,001 entries, and leaves the new one present, stamped now; every other entry it keeps is an old one with its old stamp, and below the limit nothing else changes |
| Cache.LoadDirectory | Fastest_FileExplorer/Fastest_FileExplorer/Core/FileSystemCache.cs:98-172 | Only an existing directory's listing is cached, stamped now, and returned as it was read, with the rest of the cache kept as `UpdateCache` keeps it; a missing directory or a malformed path is reported as absent and leaves the cache as it was; AccessDenied is never set |
| Cache.LoadRefused | Fastest_FileExplorer/Fastest_FileExplorer/Core/FileSystemCache.cs:110-161 | A directory whose listing is refused is swallowed by the inner catches: it is reported as existing and empty, not as access denied, and that empty snapshot is cached |
| Cache.StaleMonotone | Fastest_FileExplorer/Fastest_FileExplorer/Core/FileSystemCache.cs:69-76 | A snapshot stale at one time is stale at every later time |
| Cache.FreshAfterLoad | Fastest_FileExplorer/Fastest_FileExplorer/Core/FileSystemCache.cs:69-76 | A listing just loaded is stale exactly when more than five minutes have passed since it was stamped |
| Cache.GetDirectoryContentsAsync | Fastest_FileExplorer/Fastest_FileExplorer/Core/FileSystemCache.cs:30-47 | An empty path yields the empty snapshot; a hit without forceRefresh returns the cached data without loading and starts a refresh exactly when the entry is stale (older than 5 minutes) and the gate is free; a miss or forced refresh loads the normalised path, starts no refresh, and caches the listing only when the directory exists, keeping every other entry except the oldest evicted above 10,000 |
| Cache.GetDirectoryContents | Fastest_FileExplorer/Fastest_FileExplorer/Core/FileSystemCache.cs:49-62 | The synchronous read returns a hit as it is and leaves the cache alone; a miss or forced refresh loads, caching only an existing directory's listing and keeping every other entry except the oldest evicted above 10,000 |
| Cache.StartRefresh | Fastest_FileExplorer/Fastest_FileExplorer/Core/FileSystemCache.cs:78-82 | The single-slot gate is taken exactly when it is free |
| Cache.FinishRefresh | Fastest_FileExplorer/Fastest_FileExplorer/Core/FileSystemCache.cs:83-90 | Finishing a refresh releases the gate; for an existing directory the entry under its key is the fresh listing, stamped now, every other entry is an old one unchanged, and below the limit nothing else changes; otherwise only the gate changes |
| Cache.RefreshWhileHeldIsNoop | Fastest_FileExplorer/Fastest_FileExplorer/Core/FileSystemCache.cs:80 | A refresh while the gate is held loads nothing |
| Cache.InvalidateCache | Fastest_FileExplorer/Fastest_FileExplorer/Core/FileSystemCache.cs:258-264 | Invalidation removes exactly the normalised path from both maps and keeps every other entry |
| Cache.ClearCache | Fastest_FileExplorer/Fastest_FileExplorer/Core/FileSystemCache.cs:266-270 | Clearing empties both maps |
| Cache.StopWatching | Fastest_FileExplorer/Fastest_FileExplorer/Core/FileSystemCache.cs:272-281 | Stopping drops the watch and keeps the cached data |
| Cache.WatchDirectory | Fastest_FileExplorer/Fastest_FileExplorer/Core/FileSystemCache.cs:216-244 | Watching the watched path, an empty path or a missing directory is a no-op; otherwise the old watch stops first |
| Cache.WatchIdempotent | Fastest_FileExplorer/Fastest_FileExplorer/Core/FileSystemCache.cs:216-244 | Watching the same directory twice is watching it once |
| Cache.OnFileSystemChanged | Fastest_FileExplorer/Fastest_FileExplorer/Core/FileSystemCache.cs:246-250 | A change event removes the parent directory's entry and leaves other entries as they were |
| Enumerator.ComposeSize | Fastest_FileExplorer/Fastest_FileExplorer/Core/NativeFileEnumerator.cs:90 | The two 32-bit halves compose to a signed 64-bit size, non-negative exactly when the high half is below 2^31 |
| Enumerator.SizeHalvesRoundTrip | Fastest_FileExplorer/Fastest_FileExplorer/Core/NativeFileEnumerator.cs:90 | Splitting a non-negative 64-bit size into halves and composing them gives the size back |
| Enumerator.JoinPath | Fastest_FileExplorer/Fastest_FileExplorer/Core/NativeFileEnumerator.cs:79 | A full path is the directory with trailing '\\' trimmed, one '\\', then the name |
| Enumerator.ScanFlat | Fastest_FileExplorer/Fastest_FileExplorer/Core/NativeFileEnumerator.cs:71-97 | Each callback comes from an entry that is not '.' or '..', a directory only when it is not a reparse point, with the composed size; each is let through by an uncancelled poll |
| Enumerator.EnumerateDirectory | Fastest_FileExplorer/Fastest_FileExplorer/Core/NativeFileEnumerator.cs:52-101 | An empty path or an unopenable directory yields no callback; '.' and '..' are never reported |
| Enumerator.ScanFlatIsPrefix | Fastest_FileExplorer/Fastest_FileExplorer/Core/NativeFileEnumerator.cs:71-97 | The callbacks are those of the entries before the first cancelled poll, and the loop stops early exactly when a poll saw cancellation |
| Enumerator.ScanFiles | Fastest_FileExplorer/Fastest_FileExplorer/Core/NativeFileEnumerator.cs:135-165 | The recursive walk's find loop reports only files, each under its joined path |
| Enumerator.EnumerateRecursive | Fastest_FileExplorer/Fastest_FileExplorer/Core/NativeFileEnumerator.cs:113-175 | A walk deeper than maxDepth yields nothing, only files are reported, and no callback follows a cancelled poll |
| Enumerator.Descend | Fastest_FileExplorer/Fastest_FileExplorer/Core/NativeFileEnumerator.cs:170-174 | The descent into collected subdirectories reports only files, each after an uncancelled poll |
| Enumerator.EnumerateFilesRecursive | Fastest_FileExplorer/Fastest_FileExplorer/Core/NativeFileEnumerator.cs:103-111 | Every callback of the whole walk follows an uncancelled poll, in poll order |
| Enumerator.DepthBound | Fastest_FileExplorer/Fastest_FileExplorer/Core/NativeFileEnumerator.cs:121 | Nothing below maxDepth influences the walk: pruning the tree there changes no callback |
| Enumerator.DescendDepthBound | Fastest_FileExplorer/Fastest_FileExplorer/Core/NativeFileEnumerator.cs:170-174 | The same depth bound for the descent loop |
| Enumerator.ScanFilesUncancelled | Fastest_FileExplorer/Fastest_FileExplorer/Core/NativeFileEnumerator.cs:135-165 | Without cancellation the find loop reports exactly the directory's files |
| Enumerator.UncancelledWalk | Fastest_FileExplorer/Fastest_FileExplorer/Core/NativeFileEnumerator.cs:113-175 | Without cancellation the walk reports a directory's files before any subdirectory's, skipping hidden-and-system and rejected directories |
| Enumerator.UncancelledDescend | Fastest_FileExplorer/Fastest_FileExplorer/Core/NativeFileEnumerator.cs:170-174 | Without cancellation the descent visits the collected subdirectories in order |
| PathSecurity.IsValidPathIff | Fastest_FileExplorer/Fastest_FileExplorer/Core/PathSecurity.cs:13-31 | A path is valid exactly when it is not blank, at most 260 characters, free of invalid characters and free of "..", "\\\\?\\" and "\\\\." |
| PathSecurity.RemoveChars | Fastest_FileExplorer/Fastest_FileExplorer/Core/PathSecurity.cs:54-57 | The removal loop leaves exactly the characters of the input that are not in the set, in order; a clean input comes back unchanged |
| PathSecurity.Without | Fastest_FileExplorer/Fastest_FileExplorer/Core/PathSecurity.cs:54-57 | Reference filter: its characters are those of the input outside the set |
| PathSecurity.RemoveCharWithout | Fastest_FileExplorer/Fastest_FileExplorer/Core/PathSecurity.cs:54-57 | Each pass of the loop filters by one more character |
| PathSecurity.StripDots | Fastest_FileExplorer/Fastest_FileExplorer/Core/PathSecurity.cs:59-62 | Reference for the ".." loop: the result contains no "..", adds no character, and a path without ".." is unchanged |
| PathSecurity.DotsShrink | Fastest_FileExplorer/Fastest_FileExplorer/Core/PathSecurity.cs:59-62 | Each pass of the ".." loop shortens the path and adds no character, so the loop ends |
| PathSecurity.SanitizePath | Fastest_FileExplorer/Fastest_FileExplorer/Core/PathSecurity.cs:47-65 | The sanitised path is the trimmed input filtered of invalid characters, then stripped of ".." until none is left; a trimmed path that is already clean comes back unchanged; an empty input stays empty |
| PathSecurity.ReplaceCharsWithUnderscore | Fastest_FileExplorer/Fastest_FileExplorer/Core/PathSecurity.cs:74-77 | Each invalid character becomes '_' and every other character stays |
| PathSecurity.SanitizeFileName | Fastest_FileExplorer/Fastest_FileExplorer/Core/PathSecurity.cs:67-83 | The sanitised name is the trimmed input with each invalid character turned into '_', cut to 255 characters; a trimmed valid name comes back unchanged, and a non-blank result passes IsValidFileName |
| PathSecurity.SanitizeSearchQuery | Fastest_FileExplorer/Fastest_FileExplorer/Core/PathSecurity.cs:177-193 | The sanitised query is the trimmed input filtered of invalid characters, cut to 500; it is always safe, and a trimmed safe query comes back unchanged |
| PathSecurity.IsValidFileName | Fastest_FileExplorer/Fastest_FileExplorer/Core/PathSecurity.cs:33-45 | A name is valid exactly when it is not blank, at most 255 characters, and free of invalid file-name characters |
| PathSecurity.IsSearchQuerySafe | Fastest_FileExplorer/Fastest_FileExplorer/Core/PathSecurity.cs:163-175 | A query is safe exactly when it has at most 500 characters and no invalid path character; the empty query needs no case of its own |
| Discord.EscapeJson | Fastest_FileExplorer/Fastest_FileExplorer/Core/DiscordRpcClient.cs:131-149 | Escaping maps empty to empty and at most doubles the length |
| Discord.UnescapeEscape | Fastest_FileExplorer/Fastest_FileExplorer/Core/DiscordRpcClient.cs:131-149 | Decoding the five escapes recovers the input |
| Discord.EscapeHasNoRawControls | Fastest_FileExplorer/Fastest_FileExplorer/Core/DiscordRpcClient.cs:131-149 | The output has no raw newline, CR or tab, and every '"' in it is escaped |
| Discord.EscapeIdentity | Fastest_FileExplorer/Fastest_FileExplorer/Core/DiscordRpcClient.cs:131-149 | A string with none of the five special characters is copied unchanged |
| Discord.Int32BytesRoundTrip | Fastest_FileExplorer/Fastest_FileExplorer/Core/DiscordRpcClient.cs:160-161 | Reading four little-endian bytes back gives the int32 written |
| Discord.Frame | Fastest_FileExplorer/Fastest_FileExplorer/Core/DiscordRpcClient.cs:157-162 | A frame is 8 + n bytes: the opcode, then n, then the payload |
| Discord.ReadResponse | Fastest_FileExplorer/Fastest_FileExplorer/Core/DiscordRpcClient.cs:169-188 | A header shorter than 8 bytes yields nothing; otherwise the payload length comes from bytes 4 to 7 |
| Discord.ReadResponseOfFrame | Fastest_FileExplorer/Fastest_FileExplorer/Core/DiscordRpcClient.cs:157-178 | Reading a frame the client wrote gives back its payload |
| Discord.NewClient | Fastest_FileExplorer/Fastest_FileExplorer/Core/DiscordRpcClient.cs:26-30 | A new client is disconnected, undisposed, at nonce 0 with nothing sent |
| Discord.ActivityOf | Fastest_FileExplorer/Fastest_FileExplorer/Core/DiscordRpcClient.cs:90-103 | Each text field decodes back to the presence value or its default and holds no raw newline, CR or tab; the start time is the given one when asked for and absent otherwise |
| Discord.ActivityOfInjective | Fastest_FileExplorer/Fastest_FileExplorer/Core/DiscordRpcClient.cs:90-103 | Two presences give the same activity exactly when they agree on every field after defaults and on whether the time is shown |
| Discord.SendPacket | Fastest_FileExplorer/Fastest_FileExplorer/Core/DiscordRpcClient.cs:151-167 | A packet is sent exactly when the pipe is open and the write succeeds; nothing else changes |
| Discord.NextNonce | Fastest_FileExplorer/Fastest_FileExplorer/Core/DiscordRpcClient.cs:87 | Below int.MaxValue the next nonce is one more |
| Discord.ClearPresence | Fastest_FileExplorer/Fastest_FileExplorer/Core/DiscordRpcClient.cs:116-129 | Clearing while disconnected changes nothing and never changes the connection flags |
| Discord.Disconnect | Fastest_FileExplorer/Fastest_FileExplorer/Core/DiscordRpcClient.cs:190-207 | After Disconnect the client is not connected; a connected client drops its pipe and logs the notice |
| Discord.SetPresence | Fastest_FileExplorer/Fastest_FileExplorer/Core/DiscordRpcClient.cs:80-114 | Setting presence while disconnected changes nothing; a failed write disconnects |
| Discord.Dispose | Fastest_FileExplorer/Fastest_FileExplorer/Core/DiscordRpcClient.cs:209-214 | Dispose leaves the client disposed and disconnected |
| Discord.DisposeIdempotent | Fastest_FileExplorer/Fastest_FileExplorer/Core/DiscordRpcClient.cs:209-214 | Disposing twice is disposing once |
| Discord.ConnectAsWrittenDisagrees | Fastest_FileExplorer/Fastest_FileExplorer/Core/DiscordRpcClient.cs:32-71 | As written, a failed handshake write leaves the client marked connected while Connect reports failure |
| Discord.ConnectFromAsWritten | Fastest_FileExplorer/Fastest_FileExplorer/Core/DiscordRpcClient.cs:36-70 | The loop as written: reporting success implies the connected flag, and an already set flag stays set |
| Discord.ConnectAsWritten | Fastest_FileExplorer/Fastest_FileExplorer/Core/DiscordRpcClient.cs:32-71 | Connect as written: true at once when already connected, and success implies IsConnected (the converse fails, see ConnectAsWrittenDisagrees) |
| Discord.ConnectFrom | Fastest_FileExplorer/Fastest_FileExplorer/Core/DiscordRpcClient.cs:36-70 | The corrected loop: Connect reports success exactly when the client ends up connected, over an open pipe, with the handshake sent |
| Discord.Connect | Fastest_FileExplorer/Fastest_FileExplorer/Core/DiscordRpcClient.cs:32-71 | The corrected Connect (second finding): returns true at once when already connected, and its result agrees with IsConnected |
| Discord.ConnectAgreesWithoutHandshakeFailure | Fastest_FileExplorer/Fastest_FileExplorer/Core/DiscordRpcClient.cs:36-70 | Unless a handshake write fails, the corrected loop behaves as written |
| Discord.SetPresenceKeepsOrder | Fastest_FileExplorer/Fastest_FileExplorer/Core/DiscordRpcClient.cs:87 | Every sent SetPresence payload carries a nonce above all earlier ones, while the nonce is below int.MaxValue |
| Discord.ClearPresenceKeepsOrder | Fastest_FileExplorer/Fastest_FileExplorer/Core/DiscordRpcClient.cs:123 | The same for ClearPresence, while the nonce is below int.MaxValue |
| Discord.DisconnectKeepsOrder | Fastest_FileExplorer/Fastest_FileExplorer/Core/DiscordRpcClient.cs:190-207 | The same for the clear that Disconnect sends, while the nonce is below int.MaxValue |
| Discord.ConnectKeepsOrder | Fastest_FileExplorer/Fastest_FileExplorer/Core/DiscordRpcClient.cs:32-71 | Connecting sends only the handshake and keeps the nonces ordered |
| Tabs.EmptyValid | Fastest_FileExplorer/Fastest_FileExplorer/UI/TabManager.cs:32-63 | A new tab list satisfies the selection invariant |
| Tabs.SelectTab | Fastest_FileExplorer/Fastest_FileExplorer/UI/TabManager.cs:99-107 | An out-of-range index changes nothing; otherwise that tab is selected, and the invariant is kept |
| Tabs.AddTab | Fastest_FileExplorer/Fastest_FileExplorer/UI/TabManager.cs:65-83 | The tab is appended and selected when asked or when it is the only tab; otherwise the selection stays |
| Tabs.UpdateTabPath | Fastest_FileExplorer/Fastest_FileExplorer/UI/TabManager.cs:85-97 | Out-of-range indices change nothing; otherwise only that tab's path and title change, and a non-empty path never gets an empty title |
| Tabs.CloseTab | Fastest_FileExplorer/Fastest_FileExplorer/UI/TabManager.cs:109-128 | Closing is a no-op out of range or on the last tab; otherwise it removes exactly that tab and keeps the invariant |
| Tabs.CloseTabKeepsOthers | Fastest_FileExplorer/Fastest_FileExplorer/UI/TabManager.cs:109-128 | The other tabs keep their order, and a different selected tab stays selected |
| Tabs.CloseAllTabsExcept | Fastest_FileExplorer/Fastest_FileExplorer/UI/TabManager.cs:130-141 | Only the former i-th tab remains, selected at 0 |
| Tabs.MovePositions | Fastest_FileExplorer/Fastest_FileExplorer/UI/TabManager.cs:316-325 | Remove-then-insert moves each element to its computed position |
| Tabs.DragTo | Fastest_FileExplorer/Fastest_FileExplorer/UI/TabManager.cs:313-328 | A drag moves the dragged tab to the hovered position and keeps the invariant |
| Tabs.DragKeepsSelectedTab | Fastest_FileExplorer/Fastest_FileExplorer/UI/TabManager.cs:313-328 | After a drag the previously selected tab is still selected |
| Tabs.SelectedTab | Fastest_FileExplorer/Fastest_FileExplorer/UI/TabManager.cs:30 | There is a selected tab exactly when the list is not empty |
| Breadcrumbs.Normalize | Fastest_FileExplorer/Fastest_FileExplorer/UI/BreadcrumbBar.cs:127-130 | The stored path never ends in '\\' except as a drive root; a bare drive "X:" is stored as "X:\\"; and it agrees with the full path once trailing '\\' are trimmed from both |
| Breadcrumbs.NormalizeExamples | Fastest_FileExplorer/Fastest_FileExplorer/UI/BreadcrumbBar.cs:127-130 | "C:" and "C:\\" are stored as "C:\\", and "C:\\Users\\" as "C:\\Users" |
| Breadcrumbs.NormalizeIdempotent | Fastest_FileExplorer/Fastest_FileExplorer/UI/BreadcrumbBar.cs:127-130 | Normalising a stored path changes nothing |
| Breadcrumbs.CrumbsFrom | Fastest_FileExplorer/Fastest_FileExplorer/UI/BreadcrumbBar.cs:150-187 | One crumb per non-empty segment, showing the segment or, for a leading drive, its name |
| Breadcrumbs.CrumbsChain | Fastest_FileExplorer/Fastest_FileExplorer/UI/BreadcrumbBar.cs:161-186 | A leading "X:" crumb has path "X:\\" and each later crumb's path combines the previous path with its segment |
| Breadcrumbs.ChainedAt | Fastest_FileExplorer/Fastest_FileExplorer/UI/BreadcrumbBar.cs:176-184 | In the chain, crumb k is segment k under the path of crumb k - 1 |
| Breadcrumbs.ButtonsFor | Fastest_FileExplorer/Fastest_FileExplorer/UI/BreadcrumbBar.cs:211-214 | Back and forward are enabled exactly when their stack is not empty |
| Breadcrumbs.InitialValid | Fastest_FileExplorer/Fastest_FileExplorer/UI/BreadcrumbBar.cs:53-65 | The initial bar is consistent: empty stacks with back and forward disabled |
| Breadcrumbs.InitialUpEnabled | Fastest_FileExplorer/Fastest_FileExplorer/UI/BreadcrumbBar.cs:63-65 | The up button starts enabled, although there is no path yet and the first navigation would compute it as disabled |
| Breadcrumbs.NavigateTo | Fastest_FileExplorer/Fastest_FileExplorer/UI/BreadcrumbBar.cs:123-148 | Empty paths are ignored; moving to a different path with history pushes the old one and clears forward; otherwise history stays |
| Breadcrumbs.GoBack | Fastest_FileExplorer/Fastest_FileExplorer/UI/BreadcrumbBar.cs:219-227 | A no-op on an empty back stack; otherwise the current path goes on the forward stack and the top of the back stack becomes current |
| Breadcrumbs.GoForward | Fastest_FileExplorer/Fastest_FileExplorer/UI/BreadcrumbBar.cs:229-237 | The mirror image of GoBack |
| Breadcrumbs.GoBackValid | Fastest_FileExplorer/Fastest_FileExplorer/UI/BreadcrumbBar.cs:219-227 | Going back keeps buttons and crumbs in step with the state |
| Breadcrumbs.BackThenForward | Fastest_FileExplorer/Fastest_FileExplorer/UI/BreadcrumbBar.cs:219-237 | For normalised paths, back then forward restores the current path and both stacks |
| QuickAccess.RemoveMatching | Fastest_FileExplorer/Fastest_FileExplorer/UI/QuickAccessPanel.cs:132 | Removal drops exactly the entries equal to the path ignoring case |
| QuickAccess.RemoveMatchingKeepsOrder | Fastest_FileExplorer/Fastest_FileExplorer/UI/QuickAccessPanel.cs:132 | Survivors keep their relative order |
| QuickAccess.AddRecentFolder | Fastest_FileExplorer/Fastest_FileExplorer/UI/QuickAccessPanel.cs:127-151 | An empty or missing folder is ignored; otherwise the path comes first, without case-insensitive duplicates, and the list holds at most 15 |
| QuickAccess.AddRecentKeepsOrder | Fastest_FileExplorer/Fastest_FileExplorer/UI/QuickAccessPanel.cs:127-151 | The other recent entries keep their relative order |
| QuickAccess.PinFolder | Fastest_FileExplorer/Fastest_FileExplorer/UI/QuickAccessPanel.cs:153-168 | Pinning appends an existing folder not yet pinned and never creates a case-insensitive duplicate |
| QuickAccess.UnpinFolder | Fastest_FileExplorer/Fastest_FileExplorer/UI/QuickAccessPanel.cs:170-180 | After unpinning, the path is not pinned and every other pin stays |
| QuickAccess.UnpinKeepsOrder | Fastest_FileExplorer/Fastest_FileExplorer/UI/QuickAccessPanel.cs:170-175 | The remaining pins keep their order |
| QuickAccess.DefaultPins | Fastest_FileExplorer/Fastest_FileExplorer/UI/QuickAccessPanel.cs:100-125 | Default pins are added only when nothing is pinned; then the pins are the defaults in order, each existing default as often as it is listed and nothing else |
| QuickAccess.DefaultPinsAll | Fastest_FileExplorer/Fastest_FileExplorer/UI/QuickAccessPanel.cs:114-123 | With nothing pinned, every existing default ends up pinned |
| QuickAccess.SaveSettings | Fastest_FileExplorer/Fastest_FileExplorer/UI/QuickAccessPanel.cs:362-378 | The file is "[PINNED]", the pins, "[RECENT]", the recent folders |
| QuickAccess.LoadFrom | Fastest_FileExplorer/Fastest_FileExplorer/UI/QuickAccessPanel.cs:334-356 | Loading only appends to both lists |
| QuickAccess.LoadSaveRoundTrip | Fastest_FileExplorer/Fastest_FileExplorer/UI/QuickAccessPanel.cs:327-378 | Loading what was saved restores both lists when every path exists and none is blank or a header |
| QuickAccess.LoadBeforeHeader | Fastest_FileExplorer/Fastest_FileExplorer/UI/QuickAccessPanel.cs:334-356 | Lines before any header are read as recent folders |
| BatchRename.IndexOfMatchFirst | Fastest_FileExplorer/Fastest_FileExplorer/UI/BatchRenameDialog.cs:471 | The search finds the first match at or after the start, or reports none |
| BatchRename.ReplaceComparison | Fastest_FileExplorer/Fastest_FileExplorer/UI/BatchRenameDialog.cs:462-480 | An empty oldValue returns the input; otherwise the loop replaces the non-overlapping matches left to right |
| BatchRename.ReplaceComparisonFacts | Fastest_FileExplorer/Fastest_FileExplorer/UI/BatchRenameDialog.cs:462-480 | With no match the input is returned for either comparison, and k replacements change the length by k times the length difference; that the ordinal case is the ordinary Replace holds by definition |
| BatchRename.SanitizeName | Fastest_FileExplorer/Fastest_FileExplorer/UI/BatchRenameDialog.cs:397-405 | The sanitised stem is one slice of the name with each invalid character replaced by '_'; every dropped character is white space; no invalid character and no surrounding white space is left |
| BatchRename.SanitizeStable | Fastest_FileExplorer/Fastest_FileExplorer/UI/BatchRenameDialog.cs:397-405 | A trimmed name free of invalid characters is left as it is |
| BatchRename.NewStem | Fastest_FileExplorer/Fastest_FileExplorer/UI/BatchRenameDialog.cs:273-342 | Prefix gives pattern + stem, suffix stem + pattern, find/replace and remove use the comparison-aware Replace, and a mode that throws keeps the stem |
| BatchRename.ChangeCaseKeywords | Fastest_FileExplorer/Fastest_FileExplorer/UI/BatchRenameDialog.cs:324-332 | "upper" and "lower" (ignoring case) upper- or lower-case the stem, "title" title-cases the lower-cased stem, and unknown keywords keep it |
| BatchRename.NewName | Fastest_FileExplorer/Fastest_FileExplorer/UI/BatchRenameDialog.cs:344 | The proposed name is the sanitised new stem followed by the original extension |
| BatchRename.NoModeKeepsName | Fastest_FileExplorer/Fastest_FileExplorer/UI/BatchRenameDialog.cs:262-344 | With no effective mode a clean plain file name maps to itself |
| BatchRename.CountChanged | Fastest_FileExplorer/Fastest_FileExplorer/UI/BatchRenameDialog.cs:349-365 | The count is positive exactly when some item's name changes |
| BatchRename.UpdatePreview | Fastest_FileExplorer/Fastest_FileExplorer/UI/BatchRenameDialog.cs:250-366 | Apply is enabled exactly when some proposed name differs from the original |
| BatchRename.Apply | Fastest_FileExplorer/Fastest_FileExplorer/UI/BatchRenameDialog.cs:407-442 | Each changed item yields exactly one move or one error, and each move comes from a changed item |
| BatchRename.ApplyConflictSkipped | Fastest_FileExplorer/Fastest_FileExplorer/UI/BatchRenameDialog.cs:416-423 | A target that exists at a different path is reported and not moved |
| BatchRename.ApplyMoves | Fastest_FileExplorer/Fastest_FileExplorer/UI/BatchRenameDialog.cs:412-427 | A changed item with a free target is moved there |
| FileList.KeyCompareSwap | Fastest_FileExplorer/Fastest_FileExplorer/UI/VirtualFileListView.cs:160-178 | Each column's key comparison is antisymmetric |
| FileList.KeyCompareTransitive | Fastest_FileExplorer/Fastest_FileExplorer/UI/VirtualFileListView.cs:160-178 | Each column's key comparison is transitive |
| FileList.OrderIsPreorder | Fastest_FileExplorer/Fastest_FileExplorer/UI/VirtualFileListView.cs:155-178 | The sort comparator is a total preorder, for every column and direction |
| FileList.FilterAndSort | Fastest_FileExplorer/Fastest_FileExplorer/UI/VirtualFileListView.cs:148-180 | With hidden files off no hidden item remains; every other item is kept as often as it occurred; the result is sorted by the comparator |
| FileList.DirectoriesFirst | Fastest_FileExplorer/Fastest_FileExplorer/UI/VirtualFileListView.cs:155-158 | Every directory precedes every file, whatever the column or direction |
| FileList.GroupsOrderedByKey | Fastest_FileExplorer/Fastest_FileExplorer/UI/VirtualFileListView.cs:160-178 | Within each group items are ordered by the column's key, ascending or reversed |
| FileList.SetItems | Fastest_FileExplorer/Fastest_FileExplorer/UI/VirtualFileListView.cs:98-114 | Setting items leaves a sorted list without unwanted hidden items |
| FileList.AddItems | Fastest_FileExplorer/Fastest_FileExplorer/UI/VirtualFileListView.cs:116-129 | Adding keeps every visible item, old and new, with its multiplicity |
| FileList.RefreshKeepsItems | Fastest_FileExplorer/Fastest_FileExplorer/UI/VirtualFileListView.cs:148-180 | Re-sorting a valid list keeps its items when hidden files are not newly turned off |
| FileList.SetShowHidden | Fastest_FileExplorer/Fastest_FileExplorer/UI/VirtualFileListView.cs:58-66 | Turning hidden files on keeps the list's items: hidden items removed earlier do not come back |
| FileList.ColumnClick | Fastest_FileExplorer/Fastest_FileExplorer/UI/VirtualFileListView.cs:273-287 | The same column toggles the direction, another column sorts ascending, and the items are kept |
| FileList.ColumnClickTwice | Fastest_FileExplorer/Fastest_FileExplorer/UI/VirtualFileListView.cs:273-287 | Clicking the same column twice restores the direction |
| FileList.GetItemAt | Fastest_FileExplorer/Fastest_FileExplorer/UI/VirtualFileListView.cs:339-344 | An item comes back exactly for an in-range index |
| FileList.GetSelectedItems | Fastest_FileExplorer/Fastest_FileExplorer/UI/VirtualFileListView.cs:346-355 | Out-of-range indices are dropped; in-range ones give their items in order |
| FileList.GetFileType | Fastest_FileExplorer/Fastest_FileExplorer/UI/VirtualFileListView.cs:357-364 | "File" exactly for an empty extension; otherwise an upper-case key followed by " File" |
| FileList.GetFileTypeNormalises | Fastest_FileExplorer/Fastest_FileExplorer/UI/VirtualFileListView.cs:361-363 | The type ignores case and leading dots |
| Palette.OrderIsPreorder | Fastest_FileExplorer/Fastest_FileExplorer/UI/CommandPalette.cs:228-229 | The ordering is a total preorder |
| Palette.Results | Fastest_FileExplorer/Fastest_FileExplorer/UI/CommandPalette.cs:214-230 | An empty query lists all commands in order; otherwise exactly the commands whose name, description or category contains the query, each as often as listed, sorted |
| Palette.PrefixMatchesFirst | Fastest_FileExplorer/Fastest_FileExplorer/UI/CommandPalette.cs:228-229 | Prefix matches come before the rest, and equal-rank commands are ordered by name |
| Palette.Refresh | Fastest_FileExplorer/Fastest_FileExplorer/UI/CommandPalette.cs:214-251 | The first result is selected when there is one |
| Palette.Down | Fastest_FileExplorer/Fastest_FileExplorer/UI/CommandPalette.cs:270-280 | Down moves to min(i+1, n-1), or 0 when nothing is selected, and stays in the list |
| Palette.Up | Fastest_FileExplorer/Fastest_FileExplorer/UI/CommandPalette.cs:281-291 | Up moves to max(i-1, 0), 0 when nothing is selected, and stays in the list |
| Palette.UpDownInverse | Fastest_FileExplorer/Fastest_FileExplorer/UI/CommandPalette.cs:270-291 | Up undoes Down and Down undoes Up away from the ends |
| Palette.ExecuteSelected | Fastest_FileExplorer/Fastest_FileExplorer/UI/CommandPalette.cs:304-315 | A command runs exactly when one is selected, and it is the selected one |
| Palette.EnterAfterRefresh | Fastest_FileExplorer/Fastest_FileExplorer/UI/CommandPalette.cs:214-315 | After a refresh with results, Enter runs the first result |
| DualPane.InitialValid | Fastest_FileExplorer/Fastest_FileExplorer/UI/DualPaneManager.cs:23-30 | The manager starts in single-pane mode with the left pane active |
| DualPane.SetActivePane | Fastest_FileExplorer/Fastest_FileExplorer/UI/DualPaneManager.cs:103-114 | Indices outside 0..1, and pane 1 in single-pane mode, are ignored; a change raises one event |
| DualPane.SetDualPaneMode | Fastest_FileExplorer/Fastest_FileExplorer/UI/DualPaneManager.cs:124-135 | Entering dual-pane mode shows the right pane at half width and requests its path; a no-op in dual mode |
| DualPane.SetSinglePaneMode | Fastest_FileExplorer/Fastest_FileExplorer/UI/DualPaneManager.cs:137-152 | Leaving dual-pane mode hides the right pane and makes pane 0 active |
| DualPane.ToggleDualPane | Fastest_FileExplorer/Fastest_FileExplorer/UI/DualPaneManager.cs:116-122 | Toggling flips the mode and keeps the invariant |
| DualPane.ModeSettersIdempotent | Fastest_FileExplorer/Fastest_FileExplorer/UI/DualPaneManager.cs:116-152 | Both mode setters are idempotent, and toggling twice restores the mode |
| DualPane.SwapPanes | Fastest_FileExplorer/Fastest_FileExplorer/UI/DualPaneManager.cs:164-170 | Swapping is a no-op in single-pane mode and flips the active pane in dual mode |
| DualPane.SwapTwice | Fastest_FileExplorer/Fastest_FileExplorer/UI/DualPaneManager.cs:164-170 | Swapping twice restores the active pane |
| DualPane.Resize | Fastest_FileExplorer/Fastest_FileExplorer/UI/DualPaneManager.cs:172-180 | A resize only resets a right pane narrower than 100 to half the width |
| DualPane.PanelsDiffer | Fastest_FileExplorer/Fastest_FileExplorer/UI/DualPaneManager.cs:154-162 | The active and inactive panels always differ |
| NavPanel.Top | Fastest_FileExplorer/Fastest_FileExplorer/UI/NavigationPanel.cs:268-279 | Item i starts at least 28 pixels per earlier item below the scroll offset plus padding |
| NavPanel.BandsDisjoint | Fastest_FileExplorer/Fastest_FileExplorer/UI/NavigationPanel.cs:266-282 | No y lies in two item bands |
| NavPanel.ItemIndexAt | Fastest_FileExplorer/Fastest_FileExplorer/UI/NavigationPanel.cs:266-282 | The result is -1..n-1, the item whose band holds y, and -1 exactly when no band does |
| NavPanel.SelectPath | Fastest_FileExplorer/Fastest_FileExplorer/UI/NavigationPanel.cs:284-298 | The first item whose path matches ignoring case is selected, or -1 |
| NavPanel.Click | Fastest_FileExplorer/Fastest_FileExplorer/UI/NavigationPanel.cs:249-264 | A click selects an item and reports its path only for a non-header, enabled item with a non-empty path; anything else changes nothing |
| Icons.IconForKeyFile | Fastest_FileExplorer/Fastest_FileExplorer/UI/Theme.cs:235-316 | The switch reaches `default` exactly when no case names the key |
| Icons.GetFileIcon | Fastest_FileExplorer/Fastest_FileExplorer/UI/Theme.cs:228-317 | The file icon is returned exactly for an empty extension or one whose key no case names |
| Icons.GetFileIconNormalises | Fastest_FileExplorer/Fastest_FileExplorer/UI/Theme.cs:233 | Matching ignores case and leading dots |
| Icons.ImageGroup | Fastest_FileExplorer/Fastest_FileExplorer/UI/Theme.cs:237-245 | Every image extension, also upper-cased with a leading dot, gets the image icon |
| Icons.VideoGroup | Fastest_FileExplorer/Fastest_FileExplorer/UI/Theme.cs:247-254 | Every video extension gets the video icon |
| Icons.ArchiveGroup | Fastest_FileExplorer/Fastest_FileExplorer/UI/Theme.cs:265-271 | Every archive extension gets the archive icon |
| Icons.PdfGroup | Fastest_FileExplorer/Fastest_FileExplorer/UI/Theme.cs:295-296 | pdf gets the PDF icon |
| Icons.AudioGroup | Fastest_FileExplorer/Fastest_FileExplorer/UI/Theme.cs:256-263 | Every audio extension gets the audio icon |
| Icons.CodeGroup | Fastest_FileExplorer/Fastest_FileExplorer/UI/Theme.cs:273-287 | Every code extension gets the code icon |
| Icons.TextGroup | Fastest_FileExplorer/Fastest_FileExplorer/UI/Theme.cs:289-293 | Every text extension gets the text icon |
| Icons.ExcelGroup | Fastest_FileExplorer/Fastest_FileExplorer/UI/Theme.cs:298-301 | Every spreadsheet extension gets the Excel icon |
| Icons.WordGroup | Fastest_FileExplorer/Fastest_FileExplorer/UI/Theme.cs:303-305 | Every Word extension gets the Word icon |
| Icons.ExeGroup | Fastest_FileExplorer/Fastest_FileExplorer/UI/Theme.cs:307-312 | Every executable extension, exe among them, gets the executable icon |
| MainForm.Truncate | Fastest_FileExplorer/Fastest_FileExplorer/Form1.cs:89-93 | Empty strings and strings within max stay; a longer one becomes exactly max characters ending in "..." when max >= 3; it throws otherwise |
| MainForm.TruncateIdempotent | Fastest_FileExplorer/Fastest_FileExplorer/Form1.cs:89-93 | Truncating twice is truncating once |
| MainForm.DecimalStringValue | Fastest_FileExplorer/Fastest_FileExplorer/Form1.cs:574 | The decimal digits read back as the counter |
| MainForm.Status | Fastest_FileExplorer/Fastest_FileExplorer/Form1.cs:825-834 | "Empty folder" exactly when both counts are 0; with both counts positive the folder part, ", ", then the file part; with one count positive that part alone; the text ends in 's' exactly when the last part's count is not 1 |
| MainForm.GroupedDigits | Fastest_FileExplorer/Fastest_FileExplorer/Form1.cs:829-831 | The "N0" text with its commas removed is the plain decimal text of the count |
| MainForm.GroupedValue | Fastest_FileExplorer/Fastest_FileExplorer/Form1.cs:829-831 | The "N0" text with its commas removed reads back as the count |
| MainForm.DecimalThousands | Fastest_FileExplorer/Fastest_FileExplorer/Form1.cs:829-831 | Above the first group, the decimal text of q·1000 + m is that of q followed by m in three digits |
| MainForm.CountPartShape | Fastest_FileExplorer/Fastest_FileExplorer/Form1.cs:829-831 | A count part starts with the grouped count and the word and ends in 's' exactly when the count is not 1 |
| MainForm.GetUniqueFileName | Fastest_FileExplorer/Fastest_FileExplorer/Form1.cs:561-579 | A free path comes back as is; otherwise the first free "name (k)ext" for k = 1..999, or the 999th when all are taken |
| MainForm.FirstSettled | Fastest_FileExplorer/Fastest_FileExplorer/Form1.cs:569-576 | The counter stops at the first free candidate below 999, every earlier candidate being taken, or at 999 |

## Left out

- Concurrency is left out: the worker pool, spin/sleep backoff, the idle-exit heuristic, `Parallel.ForEach` seeding, `Interlocked`, `SemaphoreSlim` and async/await. Each becomes one sequential step. PLINQ and `ConcurrentBag` orders are modelled as partition-then-insertion order, which is one admissible order.
- `IndexDirectoryAsync`, `GetFilesInDirectory`, `StopIndexing` and `Dispose` of the indexer are left out: they orchestrate tasks around the modelled steps. `StartFullIndexAsync` is modelled only as far as it queues the drive roots and seeds two levels (`Indexer.Seed`); the drive list is an input and the workers are the modelled `WorkerStep`.
- Indexer.Valid: states `DirectoriesProcessed <= |visited set|`, not equality, because seeding claims directories without counting them (third finding).
- Win32 calls (`FindFirstFileW`, `FindNextFileW`, `FindClose`), `FILETIME` conversion, `DriveInfo`, `DirectoryInfo` and `FileSystemWatcher` are left out. Their results are inputs: find entries, listings, read outcomes and change events.
- Named-pipe I/O is replaced by the outcome of each attempt and each write. The JSON text around escaped strings, the UTF-8 encoding and short pipe reads are not modelled.
- Regex search, the regex rename modes, `ProcessTemplate` and `ToTitleCase` are foreign library semantics. A computed mode carries its outcome as a parameter, or its exception as `None`.
- Case mapping covers ASCII letters only; other characters are left unchanged. Culture-sensitive comparisons are modelled ordinally: the palette's `ThenBy(c => c.Name)`, `pattern.ToLower()` in change-case mode, and the one-argument `StartsWith` that gives the prefix bonus in the search score (SearchEngine.cs:225, `Search.NameRank` and `Search.RelevanceScore`) and in the palette rank (CommandPalette.cs:228, `Palette.Rank`).
- Strings are sequences of Unicode scalar values, while .NET strings count UTF-16 code units. For text outside the Basic Multilingual Plane the lengths and cuts therefore differ: the length bonus of the relevance score, the 260, 255 and 500 limits and the `Substring` cuts of `PathSecurity`, the 64-character window of the partition hash, and the cut of `TruncateString`. Ordinal comparison orders such text by scalar value, not by code unit.
- `ToString("N0")` is modelled in the invariant culture: ',' between groups of three.
- `PathSecurity.NormalizePath`, `IsPathWithinBounds`, `IsRootPath` and `CanAccessPath` are left out, because they depend on `Path.GetFullPath` and the platform.
- Exceptions that `Path.Combine` or `Path.GetFileName` throw on invalid characters are not modelled. Only the null-directory case of `GetUniqueFileName` is.
- PathText.GetDirectoryName: .NET Framework normalises the path before it looks for the root, turning `/` into `\` and collapsing doubled separators; the model works on the text as given. So `C:/a/b` gives `C:/a` here and `C:\a` in .NET, and `C:\a\\b` gives `C:\a\` here and `C:\a` in .NET. Extended `\\?\` roots are not recognised; `\\server\share` roots are.
- Form1's file operations (paste, `CopyDirectory`, delete, rename), `Process.Start` and the clipboard are left out.
- Drawing, hover state, view modes and painting handlers are left out, and so are `SearchBox`, `PreviewPanel`, `ToastNotification` and `Theme` styling.
- `Theme.FormatFileSize`, `FormatDate` and drive usage percentages are left out, because they use floating point or the wall clock.
- Event handlers are not modelled. `ProgressChanged` is returned as an optional total, `DualPane` and the Discord client record the events they raise as a sequence, and `SearchCompleted`, `DirectoryChanged` and `PathSelected` subscribers are left out.
- `QuickAccessItem.Name` and `LastAccessed` are left out; they only affect display. The up button's `Directory.GetParent` is modelled by `Path.GetDirectoryName` of the full path, which agrees with it on paths in normal form: only `\` separators, no doubled separator and no `\\?\` prefix. `GetFullPath` already puts the stored path in that form.
- The search engine's file-system fallback takes its file list as an input. `Directory.EnumerateFiles` and its exceptions are not modelled.
- FileList.FilterAndSort: `List.Sort` is unstable, so the contract fixes the multiset and sortedness but not the order among equal items.
- Palette.Results: the ordering is stated for the stable `OrderByDescending`/`ThenBy` through the sortedness and multiset of the result. The order of commands with equal rank and equal name is not stated.
- Breadcrumbs.NavigateTo: the exceptions `Path.GetFullPath` throws on an invalid path (BreadcrumbBar.cs:127) are not modelled; `Path.GetFullPath` is a total parameter, so every non-empty path navigates.
- Search.Candidates: built from the corrected `CandidateLimit`, not from the wrapping `MaxResults * 2` (first finding). For MaxResults between -2^30 and 2^30 the two agree (`Search.CandidatesAsWrittenBelowWrap`).
- Search.SearchAsync: asks the index through `Search.Candidates`, so it uses the corrected candidate count rather than the wrapping `MaxResults * 2`; the two agree for MaxResults between -2^30 and 2^30.
- Search.SearchRealtime: the same as `Search.SearchAsync`: it streams from `Search.Candidates` with the corrected candidate count.
- Cache.LoadDirectory: the `UnauthorizedAccessException` catch that sets `AccessDenied` (FileSystemCache.cs:163-166) is not reachable from the modelled reads: a refused listing is swallowed by the inner catches (`Cache.LoadRefused`), and `DirectoryInfo.Exists` answers false rather than throwing.
- Enumerator.ComposeSize: in the source, a set top bit of the high half gives a negative `long`, and the reported size is then that negative value. The contract says so instead of promising high·2^32 + low.

## Findings

| source | as written | input that shows it | evidently intended | confidence | as-written member | corrected member |
|---|---|---|---|---|---|---|
| Fastest_FileExplorer/Fastest_FileExplorer/Core/SearchEngine.cs:112 | The index is asked for `query.MaxResults * 2` candidates in 32-bit arithmetic, which wraps | `MaxResults = 1073741824` (2^30) or `int.MaxValue`: the count becomes negative, so `Take` yields no indexed result | Ask for at least `MaxResults` candidates, saturating at `int.MaxValue` | not executed | Search.CandidateLimitWraps | Search.CandidateLimitCoversCap |
| Fastest_FileExplorer/Fastest_FileExplorer/Core/DiscordRpcClient.cs:44-66 | `_isConnected` is set before `Handshake()`. A handshake write that throws is caught and the loop moves on, leaving the flag set | One pipe that connects but whose handshake write fails: `Connect` returns false while `IsConnected` is true | Set the flag only after a successful handshake, so that `Connect`'s result agrees with `IsConnected` | not executed | Discord.ConnectAsWrittenDisagrees | Discord.Connect |
| Fastest_FileExplorer/Fastest_FileExplorer/Core/FileIndexer.cs:157 | `SeedDirectoriesDeep` claims each drive root and each first-level subdirectory in `_processedDirs`, the set `ProcessDirectoryFast` uses to skip visited directories, without counting or indexing it | A fixed drive `C:\` holding `a.txt`: after seeding, the worker that dequeues `C:\` returns at once, so `a.txt` is never indexed and `C:\` is never counted in `DirectoriesProcessed` | Seed with a seen set of its own, so that the workers still visit, count and index the seeded directories | not executed | Indexer.SeededDirectoriesSkipped | Indexer.SeededRootIndexed |

=== FILE: BatchRename.dfy ===
/** BatchRenameDialog: the comparison-aware `Replace` extension, the
    non-regex rename modes of the preview, and which files `Apply` moves.

    The regex modes, the number/date templates and title casing are foreign
    library semantics: their outcome (or the exception they throw) is a
    parameter of the mode. The file system is the set of lower-cased paths
    that exist. */
module BatchRename {
  import opened Common
  import opened Strings
  import opened StringLemmas
  import PathText

  // ---------------------------------------------------------------------
  // StringExtensions.Replace
  // ---------------------------------------------------------------------

  /** `IndexOf(value, startIndex, comparison)`. */
  function IndexOfMatch(s: string, pat: string, k: nat, ignoreCase: bool): (r: Option<nat>)
    ensures r.Some? ==> k <= r.value && r.value + |pat| <= |s|
    decreases |s| - k
  {
    if k + |pat| > |s| then None
    else if MatchesAt(s, pat, k, ignoreCase) then Some(k)
    else IndexOfMatch(s, pat, k + 1, ignoreCase)
  }

  /** `IndexOf` finds the first match at or after `k`, and reports none
      exactly when there is none. */
  lemma {:induction false} IndexOfMatchFirst(s: string, pat: string, k: nat, ignoreCase: bool)
    ensures var r := IndexOfMatch(s, pat, k, ignoreCase);
      && (r.Some? ==> MatchesAt(s, pat, r.value, ignoreCase))
      && (r.Some? ==> forall j | k <= j < r.value :: !MatchesAt(s, pat, j, ignoreCase))
      && (r.None? ==> forall j | k <= j :: !MatchesAt(s, pat, j, ignoreCase))
    decreases |s| - k
  {
    if k + |pat| <= |s| && !MatchesAt(s, pat, k, ignoreCase) {
      IndexOfMatchFirst(s, pat, k + 1, ignoreCase);
    }
  }

  lemma MatchesAtSuffix(s: string, pat: string, k: nat, i: nat, ignoreCase: bool)
    requires k <= |s|
    ensures MatchesAt(s[k..], pat, i, ignoreCase) <==> MatchesAt(s, pat, k + i, ignoreCase)
  {
    if i + |pat| <= |s| - k {
      assert s[k..][i..i + |pat|] == s[k + i..k + i + |pat|];
    }
  }

  /** At a match, `ReplaceRef` substitutes and carries on after it. */
  lemma ReplaceRefAtMatch(s: string, pat: string, repl: string, ignoreCase: bool, f: nat)
    requires pat != [] && MatchesAt(s, pat, f, ignoreCase)
    ensures ReplaceRef(s[f..], pat, repl, ignoreCase) == repl + ReplaceRef(s[f + |pat|..], pat, repl, ignoreCase)
  {
    MatchesAtSuffix(s, pat, f, 0, ignoreCase);
    assert s[f..][|pat|..] == s[f + |pat|..];
  }

  /** Where no match starts but one still fits, `ReplaceRef` copies one
      character. */
  lemma ReplaceRefAtMiss(s: string, pat: string, repl: string, ignoreCase: bool, k: nat)
    requires pat != [] && k + |pat| <= |s| && !MatchesAt(s, pat, k, ignoreCase)
    ensures ReplaceRef(s[k..], pat, repl, ignoreCase) == [s[k]] + ReplaceRef(s[k + 1..], pat, repl, ignoreCase)
  {
    MatchesAtSuffix(s, pat, k, 0, ignoreCase);
    assert s[k..][1..] == s[k + 1..];
  }

  /** Up to the first match at or after `k`, `ReplaceRef` copies; at the
      match it substitutes and carries on after it. */
  lemma {:induction false} ReplaceRefStep(s: string, pat: string, repl: string, ignoreCase: bool, k: nat, f: nat)
    requires pat != [] && k <= f
    requires MatchesAt(s, pat, f, ignoreCase)
    requires forall j | k <= j < f :: !MatchesAt(s, pat, j, ignoreCase)
    ensures ReplaceRef(s[k..], pat, repl, ignoreCase)
         == s[k..f] + repl + ReplaceRef(s[f + |pat|..], pat, repl, ignoreCase)
    decreases f - k
  {
    if k == f {
      ReplaceRefAtMatch(s, pat, repl, ignoreCase, f);
    } else {
      ReplaceRefAtMiss(s, pat, repl, ignoreCase, k);
      ReplaceRefStep(s, pat, repl, ignoreCase, k + 1, f);
      assert s[k..f] == [s[k]] + s[k + 1..f];
    }
  }

  lemma ReplaceRefTail(s: string, pat: string, repl: string, ignoreCase: bool, k: nat)
    requires pat != [] && k <= |s|
    requires forall j | k <= j :: !MatchesAt(s, pat, j, ignoreCase)
    ensures ReplaceRef(s[k..], pat, repl, ignoreCase) == s[k..]
  {
    forall i | 0 <= i
      ensures !MatchesAt(s[k..], pat, i, ignoreCase)
    {
      MatchesAtSuffix(s, pat, k, i, ignoreCase);
    }
    ReplaceNoMatch(s[k..], pat, repl, ignoreCase);
  }

  /** One iteration of the `Replace` loop keeps what is built so far plus
      the replacement of the rest equal to the replacement of the whole. */
  lemma ReplaceLoopStep(str: string, pat: string, repl: string, ignoreCase: bool, result: string, start: nat, f: nat)
    requires pat != [] && start <= f
    requires MatchesAt(str, pat, f, ignoreCase)
    requires forall j | start <= j < f :: !MatchesAt(str, pat, j, ignoreCase)
    requires result + ReplaceRef(str[start..], pat, repl, ignoreCase) == ReplaceRef(str, pat, repl, ignoreCase)
    ensures (result + str[start..f] + repl) + ReplaceRef(str[f + |pat|..], pat, repl, ignoreCase)
         == ReplaceRef(str, pat, repl, ignoreCase)
  {
    ReplaceRefStep(str, pat, repl, ignoreCase, start, f);
    var tail := ReplaceRef(str[f + |pat|..], pat, repl, ignoreCase);
    assert result + (str[start..f] + repl + tail) == (result + str[start..f] + repl) + tail;
  }

  /** The loop invariant of `StringExtensions.Replace`: what is built so
      far, followed by the replacement of the rest, is the replacement of
      the whole. */
  predicate Built(str: string, pat: string, repl: string, ignoreCase: bool, result: string, start: nat)
    requires pat != []
  {
    start <= |str| && result + ReplaceRef(str[start..], pat, repl, ignoreCase) == ReplaceRef(str, pat, repl, ignoreCase)
  }

  lemma BuiltStart(str: string, pat: string, repl: string, ignoreCase: bool)
    requires pat != []
    ensures Built(str, pat, repl, ignoreCase, "", 0)
  {
    assert str[0..] == str;
  }

  lemma BuiltStep(str: string, pat: string, repl: string, ignoreCase: bool, result: string, start: nat, f: nat)
    requires pat != [] && Built(str, pat, repl, ignoreCase, result, start)
    requires IndexOfMatch(str, pat, start, ignoreCase) == Some(f)
    ensures start <= f && Built(str, pat, repl, ignoreCase, result + str[start..f] + repl, f + |pat|)
  {
    IndexOfMatchFirst(str, pat, start, ignoreCase);
    ReplaceLoopStep(str, pat, repl, ignoreCase, result, start, f);
  }

  lemma BuiltDone(str: string, pat: string, repl: string, ignoreCase: bool, result: string, start: nat)
    requires pat != [] && Built(str, pat, repl, ignoreCase, result, start)
    requires IndexOfMatch(str, pat, start, ignoreCase).None?
    ensures result + str[start..] == ReplaceRef(str, pat, repl, ignoreCase)
  {
    IndexOfMatchFirst(str, pat, start, ignoreCase);
    ReplaceRefTail(str, pat, repl, ignoreCase, start);
  }

  /** `StringExtensions.Replace`: an empty `oldValue` returns the input;
      otherwise the matches found left to right, each search starting after
      the previous match, are replaced. */
  method ReplaceComparison(str: string, oldValue: string, newValue: string, ignoreCase: bool) returns (r: string)
    ensures oldValue == [] ==> r == str
    ensures oldValue != [] ==> r == ReplaceRef(str, oldValue, newValue, ignoreCase)
  {
    if oldValue == [] {
      return str;
    }
    var result := "";
    var start := 0;
    BuiltStart(str, oldValue, newValue, ignoreCase);
    while IndexOfMatch(str, oldValue, start, ignoreCase).Some?
      invariant Built(str, oldValue, newValue, ignoreCase, result, start)
      decreases |str| - start
    {
      var f := IndexOfMatch(str, oldValue, start, ignoreCase).value;
      BuiltStep(str, oldValue, newValue, ignoreCase, result, start, f);
      result := result + str[start..f] + newValue;
      start := f + |oldValue|;
    }
    BuiltDone(str, oldValue, newValue, ignoreCase, result, start);
    r := result + str[start..];
  }

  /** With ordinal comparison the extension is the ordinary `Replace` (the
      first clause holds by definition, since `Replace` is the ordinal
      instance of `ReplaceRef`); with either comparison it returns the input
      unchanged when nothing matches, and each replacement changes the
      length by `|newValue| - |oldValue|`. */
  lemma ReplaceComparisonFacts(str: string, oldValue: string, newValue: string, ignoreCase: bool)
    requires oldValue != []
    ensures ReplaceRef(str, oldValue, newValue, false) == Replace(str, oldValue, newValue)
    ensures (forall i | 0 <= i :: !MatchesAt(str, oldValue, i, ignoreCase)) ==>
      ReplaceRef(str, oldValue, newValue, ignoreCase) == str
    ensures |ReplaceRef(str, oldValue, newValue, ignoreCase)|
         == |str| + ReplaceCount(str, oldValue, ignoreCase) * (|newValue| - |oldValue|)
  {
    if forall i | 0 <= i :: !MatchesAt(str, oldValue, i, ignoreCase) {
      ReplaceNoMatch(str, oldValue, newValue, ignoreCase);
    }
    ReplaceLength(str, oldValue, newValue, ignoreCase);
  }

  // ---------------------------------------------------------------------
  // Preview
  // ---------------------------------------------------------------------

  /** Every invalid character becomes '_'. */
  function Underscore(s: string, invalid: seq<char>): (r: string)
    ensures |r| == |s|
    ensures forall i | 0 <= i < |s| :: r[i] == (if s[i] in invalid then '_' else s[i])
    decreases |invalid|
  {
    if invalid == [] then s
    else Underscore(MapChar(s, invalid[0], '_'), invalid[1..])
  }

  /** The dialog's `SanitizeFileName`: invalid characters become '_', then
      surrounding white space is trimmed. */
  function SanitizeName(name: string, invalid: seq<char>): (r: string)
    ensures '_' !in invalid ==> forall i | 0 <= i < |r| :: r[i] !in invalid
    ensures r != [] ==> !IsWhiteSpace(r[0]) && !IsWhiteSpace(r[|r| - 1])
    ensures var a := TrimmedLead(Underscore(name, invalid));
      && a + |r| <= |name|
      && (forall i | 0 <= i < |r| :: r[i] == (if name[a + i] in invalid then '_' else name[a + i]))
      && (forall i | 0 <= i < |name| && (i < a || a + |r| <= i) :: IsWhiteSpace(name[i]) && name[i] !in invalid)
  {
    UnderscoreClean(name, invalid);
    UnderscoreTrim(name, invalid);
    Trim(Underscore(name, invalid))
  }

  /** Trimming after the replacement keeps one slice of the name, each
      character in it replaced as `Underscore` does; every dropped
      character is white space, which no invalid-character list holds
      since '_' is not white space. */
  lemma UnderscoreTrim(name: string, invalid: seq<char>)
    ensures var u := Underscore(name, invalid);
      var a := TrimmedLead(u);
      && a + |Trim(u)| <= |name|
      && (forall i | 0 <= i < |Trim(u)| :: Trim(u)[i] == (if name[a + i] in invalid then '_' else name[a + i]))
      && (forall i | 0 <= i < |name| && (i < a || a + |Trim(u)| <= i) :: IsWhiteSpace(name[i]) && name[i] !in invalid)
  {
    var u := Underscore(name, invalid);
    TrimIsSlice(u);
    assert !IsWhiteSpace('_');
  }

  /** With '_' itself valid, no invalid character is left after the
      replacement. */
  lemma UnderscoreClean(s: string, invalid: seq<char>)
    ensures '_' !in invalid ==> forall x | x in Underscore(s, invalid) :: x !in invalid
  {
    var u := Underscore(s, invalid);
    forall x | x in u
      ensures '_' !in invalid ==> x !in invalid
    {
      var j :| 0 <= j < |u| && u[j] == x;
    }
  }

  /** A name that is already trimmed and free of invalid characters is
      left alone. */
  lemma SanitizeStable(name: string, invalid: seq<char>)
    requires forall i | 0 <= i < |name| :: name[i] !in invalid
    requires Trim(name) == name
    ensures SanitizeName(name, invalid) == name
  {
    assert Underscore(name, invalid) == name;
  }

  /** The rename modes. `Computed` stands for the modes whose result comes
      from foreign library code (regex, templates), with `None` when that
      code throws. */
  datatype Mode =
    | FindReplace(pattern: string, replacement: string, caseSensitive: bool)
    | AddPrefix(prefix: string)
    | AddSuffix(suffix: string)
    | RemoveText(text: string)
    | ChangeCase(keyword: string, titleCase: string -> string)
    | Computed(outcome: Option<string>)
    | NoMode

  /** The new stem a mode gives; a throwing mode keeps the stem. */
  function NewStem(stem: string, mode: Mode): (r: string)
    ensures mode.AddPrefix? ==> r == mode.prefix + stem
    ensures mode.AddSuffix? ==> r == stem + mode.suffix
    ensures mode.FindReplace? && mode.pattern != [] ==>
      r == ReplaceRef(stem, mode.pattern, mode.replacement, !mode.caseSensitive)
    ensures mode.RemoveText? && mode.text != [] ==> r == Replace(stem, mode.text, "")
    ensures mode.Computed? ==> r == if mode.outcome.Some? then mode.outcome.value else stem
    ensures mode.NoMode? || (mode.FindReplace? && mode.pattern == []) || (mode.RemoveText? && mode.text == []) ==> r == stem
  {
    match mode
    case FindReplace(pattern, replacement, caseSensitive) =>
      if pattern != [] then ReplaceRef(stem, pattern, replacement, !caseSensitive) else stem
    case AddPrefix(prefix) => prefix + stem
    case AddSuffix(suffix) => stem + suffix
    case RemoveText(text) => if text != [] then Replace(stem, text, "") else stem
    case ChangeCase(keyword, titleCase) =>
      if Lower(keyword) == "upper" then Upper(stem)
      else if Lower(keyword) == "lower" then Lower(stem)
      else if Lower(keyword) == "title" then titleCase(Lower(stem))
      else stem
    case Computed(outcome) => if outcome.Some? then outcome.value else stem
    case NoMode => stem
  }

  /** Change-case mode: the keywords are matched ignoring case, "title"
      hands the lower-cased stem to the culture's title-casing, and an
      unknown keyword keeps the stem. */
  lemma ChangeCaseKeywords(stem: string, keyword: string, titleCase: string -> string)
    ensures EqualsIgnoreCase(keyword, "upper") ==> NewStem(stem, ChangeCase(keyword, titleCase)) == Upper(stem)
    ensures EqualsIgnoreCase(keyword, "lower") ==> NewStem(stem, ChangeCase(keyword, titleCase)) == Lower(stem)
    ensures EqualsIgnoreCase(keyword, "title") ==> NewStem(stem, ChangeCase(keyword, titleCase)) == titleCase(Lower(stem))
    ensures !EqualsIgnoreCase(keyword, "upper") && !EqualsIgnoreCase(keyword, "lower") && !EqualsIgnoreCase(keyword, "title")
      ==> NewStem(stem, ChangeCase(keyword, titleCase)) == stem
  {
    assert Lower("upper") == "upper";
    assert Lower("lower") == "lower";
    assert Lower("title") == "title";
  }

  /** The name the preview proposes: the sanitised new stem, then the
      original extension. */
  function NewName(originalName: string, mode: Mode, invalid: seq<char>): (r: string)
    ensures var ext := PathText.GetExtension(originalName);
      |ext| <= |r| && r[|r| - |ext|..] == ext
  {
    var r := SanitizeName(NewStem(PathText.GetFileNameWithoutExtension(originalName), mode), invalid)
             + PathText.GetExtension(originalName);
    r
  }

  lemma NewNameParts(originalName: string, mode: Mode, invalid: seq<char>)
    ensures NewName(originalName, mode, invalid)
         == SanitizeName(NewStem(PathText.GetFileNameWithoutExtension(originalName), mode), invalid)
            + PathText.GetExtension(originalName)
  {
  }

  /** With no effective mode a clean stem passes through unchanged. */
  lemma NoModeKeepsStem(stem: string, invalid: seq<char>)
    requires forall i | 0 <= i < |stem| :: stem[i] !in invalid
    requires Trim(stem) == stem
    ensures SanitizeName(NewStem(stem, NoMode), invalid) == stem
  {
    SanitizeStable(stem, invalid);
  }

  /** With no effective mode, a plain file name maps to itself, unless it
      ends in '.': that dot belongs to neither the stem nor the extension, so
      the preview drops it. */
  lemma NoModeKeepsName(originalName: string, invalid: seq<char>)
    requires forall i | 0 <= i < |originalName| :: !PathText.IsNameBoundary(originalName[i])
    requires originalName == [] || originalName[|originalName| - 1] != '.'
    requires var stem := PathText.GetFileNameWithoutExtension(originalName);
      (forall i | 0 <= i < |stem| :: stem[i] !in invalid) && Trim(stem) == stem
    ensures NewName(originalName, NoMode, invalid) == originalName
  {
    var stem := PathText.GetFileNameWithoutExtension(originalName);
    NewNameParts(originalName, NoMode, invalid);
    NoModeKeepsStem(stem, invalid);
    NameOnly(originalName);
    PathText.StemAndExtension(originalName);
  }

  lemma NameOnly(p: string)
    requires forall i | 0 <= i < |p| :: !PathText.IsNameBoundary(p[i])
    ensures PathText.GetFileName(p) == p
  {
    var i := PathText.NameStart(p);
    if i > 0 {
      assert PathText.IsNameBoundary(p[i - 1]);
    }
  }

  datatype Item = Item(originalPath: string, originalName: string, newName: string)

  predicate Changed(it: Item) {
    it.originalName != it.newName
  }

  datatype Preview = Preview(items: seq<Item>, changedCount: nat, applyEnabled: bool)

  function CountChanged(items: seq<Item>): (n: nat)
    ensures n <= |items|
    ensures n > 0 <==> exists i | 0 <= i < |items| :: Changed(items[i])
  {
    if items == [] then 0
    else (if Changed(items[0]) then 1 else 0) + CountChanged(items[1..])
  }

  /** `UpdatePreview` for the modelled modes. */
  function UpdatePreview(items: seq<Item>, mode: Mode, invalid: seq<char>): (p: Preview)
    ensures |p.items| == |items|
    ensures forall i | 0 <= i < |items| ::
      p.items[i] == items[i].(newName := NewName(items[i].originalName, mode, invalid))
    ensures p.applyEnabled <==> exists i | 0 <= i < |p.items| :: Changed(p.items[i])
  {
    var renamed := seq(|items|, i requires 0 <= i < |items| =>
      items[i].(newName := NewName(items[i].originalName, mode, invalid)));
    var n := CountChanged(renamed);
    Preview(renamed, n, n > 0)
  }

  // ---------------------------------------------------------------------
  // Apply
  // ---------------------------------------------------------------------

  datatype RenameError = AlreadyExists(newName: string) | MoveFailed(originalName: string)

  datatype Applied = Applied(moves: seq<(string, string)>, errors: seq<RenameError>, files: set<string>)

  /** Whether a path exists, case-insensitively. */
  predicate FileExists(files: set<string>, path: string) {
    Lower(path) in files
  }

  /** `ApplyButton_Click` from item `i` on: unchanged items are skipped; a
      target that exists at a different path is an error; a root path (no
      directory) or a failing move is an error; otherwise the file moves. */
  function ApplyFrom(items: seq<Item>, i: nat, files: set<string>, moveFails: string -> bool): (r: Applied)
    requires i <= |items|
    ensures |r.moves| + |r.errors| == CountChanged(items[i..])
    ensures forall k | 0 <= k < |r.moves| :: exists j | i <= j < |items| ::
      Changed(items[j]) && r.moves[k].0 == items[j].originalPath
    decreases |items| - i
  {
    if i == |items| then Applied([], [], files)
    else
      var it := items[i];
      assert items[i..][1..] == items[i + 1..];
      if !Changed(it) then ApplyFrom(items, i + 1, files, moveFails)
      else
        var dir := PathText.GetDirectoryName(it.originalPath);
        if dir.None? then
          var rest := ApplyFrom(items, i + 1, files, moveFails);
          rest.(errors := [MoveFailed(it.originalName)] + rest.errors)
        else
          var newPath := PathText.Combine(dir.value, it.newName);
          if FileExists(files, newPath) && !EqualsIgnoreCase(newPath, it.originalPath) then
            var rest := ApplyFrom(items, i + 1, files, moveFails);
            rest.(errors := [AlreadyExists(it.newName)] + rest.errors)
          else if moveFails(it.originalPath) then
            var rest := ApplyFrom(items, i + 1, files, moveFails);
            rest.(errors := [MoveFailed(it.originalName)] + rest.errors)
          else
            var moved := files - {Lower(it.originalPath)} + {Lower(newPath)};
            var rest := ApplyFrom(items, i + 1, moved, moveFails);
            rest.(moves := [(it.originalPath, newPath)] + rest.moves)
  }

  function Apply(items: seq<Item>, files: set<string>, moveFails: string -> bool): (r: Applied)
    ensures |r.moves| + |r.errors| == CountChanged(items)
    ensures forall k | 0 <= k < |r.moves| :: exists j | 0 <= j < |items| ::
      Changed(items[j]) && r.moves[k].0 == items[j].originalPath
  {
    assert items[0..] == items;
    ApplyFrom(items, 0, files, moveFails)
  }

  /** An item whose target exists at a different path is reported and not
      moved; the rest of the run goes on with the file system unchanged. */
  lemma ApplyConflictSkipped(items: seq<Item>, i: nat, files: set<string>, moveFails: string -> bool)
    requires i < |items| && Changed(items[i])
    requires PathText.GetDirectoryName(items[i].originalPath).Some?
    requires var newPath := PathText.Combine(PathText.GetDirectoryName(items[i].originalPath).value, items[i].newName);
      FileExists(files, newPath) && !EqualsIgnoreCase(newPath, items[i].originalPath)
    ensures var r := ApplyFrom(items, i, files, moveFails);
      var rest := ApplyFrom(items, i + 1, files, moveFails);
      r.moves == rest.moves && r.errors == [AlreadyExists(items[i].newName)] + rest.errors
  {
  }

  /** A changed item whose target is free (or is the item itself) and whose
      move succeeds is moved first, and the file system then holds the new
      path instead of the old one. */
  lemma ApplyMoves(items: seq<Item>, i: nat, files: set<string>, moveFails: string -> bool)
    requires i < |items| && Changed(items[i]) && !moveFails(items[i].originalPath)
    requires PathText.GetDirectoryName(items[i].originalPath).Some?
    requires var newPath := PathText.Combine(PathText.GetDirectoryName(items[i].originalPath).value, items[i].newName);
      !FileExists(files, newPath) || EqualsIgnoreCase(newPath, items[i].originalPath)
    ensures var newPath := PathText.Combine(PathText.GetDirectoryName(items[i].originalPath).value, items[i].newName);
      var r := ApplyFrom(items, i, files, moveFails);
      r.moves[0] == (items[i].originalPath, newPath)
      && r.moves[1..] == ApplyFrom(items, i + 1, files - {Lower(items[i].originalPath)} + {Lower(newPath)}, moveFails).moves
  {
  }
}

=== FILE: Breadcrumbs.dfy ===
/** BreadcrumbBar: the current path, the back/forward history stacks, the
    enabled state of the navigation buttons, and the crumbs the current
    path is split into.

    `Path.GetFullPath` and the drive volume-label lookup are parameters. A stack
    is a sequence whose top is its last element. */
module Breadcrumbs {
  import opened Common
  import opened Strings
  import PathText

  datatype Crumb = Crumb(text: string, path: string, isDrive: bool)

  datatype Bar = Bar(
    current: string,
    back: seq<string>,
    forward: seq<string>,
    backEnabled: bool,
    forwardEnabled: bool,
    upEnabled: bool,
    crumbs: seq<Crumb>)

  /** The path `NavigateTo` stores: trailing '\' removed, except that a bare
      drive "X:" gets its '\' back. */
  function Normalize(full: string): (r: string)
    ensures (|r| == 3 && r[1] == ':' && r[2] == '\\') || |r| == 0 || r[|r| - 1] != '\\'
    ensures TrimEnd(r, {'\\'}) == TrimEnd(full, {'\\'})
    ensures IsDrivePart(TrimEnd(full, {'\\'})) ==> r == TrimEnd(full, {'\\'}) + "\\"
  {
    var t := TrimEnd(full, {'\\'});
    TrimEndStable(t, {'\\'});
    if |t| == 2 && t[1] == ':' then
      assert (t + "\\")[..|t|] == t;
      t + "\\"
    else t
  }

  /** A bare drive is stored as its root, with or without the '\' typed;
      any other path loses its trailing '\'. */
  lemma NormalizeExamples()
    ensures Normalize("C:") == "C:\\"
    ensures Normalize("C:\\") == "C:\\"
    ensures Normalize("C:\\Users\\") == "C:\\Users"
  {
    assert TrimEnd("C:", {'\\'}) == "C:";
    assert TrimEnd("C:\\", {'\\'}) == "C:";
    assert TrimEnd("C:\\Users\\", {'\\'}) == "C:\\Users";
  }

  /** Normalising a stored path changes nothing. */
  lemma NormalizeIdempotent(full: string)
    ensures Normalize(Normalize(full)) == Normalize(full)
  {
  }

  /** The crumb text of a drive: its volume label when it has one. */
  function DriveName(drive: string, volumeLabel: string -> string): string {
    var d := TrimEnd(drive, {'\\'});
    if volumeLabel(drive) != [] then volumeLabel(drive) + " (" + d + ")" else "Local Disk (" + d + ")"
  }

  predicate IsDrivePart(part: string) {
    |part| == 2 && part[1] == ':'
  }

  /** The crumbs for `parts[i..]`, with `prefix` the path of the crumb
      before them. */
  function CrumbsFrom(parts: seq<string>, i: nat, prefix: string, volumeLabel: string -> string): (r: seq<Crumb>)
    requires i <= |parts|
    ensures |r| == |parts| - i
    ensures forall k | 0 <= k < |r| :: r[k].text == parts[i + k] || (i + k == 0 && r[k].isDrive)
    decreases |parts| - i
  {
    if i == |parts| then []
    else if i == 0 && IsDrivePart(parts[0]) then
      var p := parts[0] + "\\";
      [Crumb(DriveName(p, volumeLabel), p, true)] + CrumbsFrom(parts, 1, p, volumeLabel)
    else
      var p := PathText.Combine(prefix, parts[i]);
      [Crumb(parts[i], p, false)] + CrumbsFrom(parts, i + 1, p, volumeLabel)
  }

  /** `UpdateBreadcrumbs`. */
  function CrumbsOf(current: string, volumeLabel: string -> string): seq<Crumb> {
    if current == [] then [] else CrumbsFrom(Split(current, '\\'), 0, "", volumeLabel)
  }

  /** Every crumb after the first has the path of the crumb before it
      combined with its own segment, `parts[i + k]` for crumb `k`. */
  predicate Chained(parts: seq<string>, i: nat, r: seq<Crumb>)
    requires i + |r| <= |parts|
    decreases |r|
  {
    |r| <= 1 ||
    (r[1] == Crumb(parts[i + 1], PathText.Combine(r[0].path, parts[i + 1]), false) && Chained(parts, i + 1, r[1..]))
  }

  /** In a chained run, crumb `k` is segment `i + k` under the path of
      crumb `k - 1`. */
  lemma {:induction false} ChainedAt(parts: seq<string>, i: nat, r: seq<Crumb>, k: nat)
    requires i + |r| <= |parts| && Chained(parts, i, r) && 1 <= k < |r|
    ensures r[k] == Crumb(parts[i + k], PathText.Combine(r[k - 1].path, parts[i + k]), false)
    decreases k
  {
    if k > 1 {
      ChainedAt(parts, i + 1, r[1..], k - 1);
      assert r[1..][k - 1] == r[k] && r[1..][k - 2] == r[k - 1];
    }
  }

  /** One crumb per non-empty segment. A leading "X:" becomes the drive
      crumb with path "X:\"; every later crumb's path is the previous
      crumb's path combined with the segment. */
  lemma {:induction false} CrumbsChain(parts: seq<string>, i: nat, prefix: string, volumeLabel: string -> string)
    requires i <= |parts|
    ensures var r := CrumbsFrom(parts, i, prefix, volumeLabel);
      && (i == 0 && |parts| > 0 && IsDrivePart(parts[0]) ==> r[0] == Crumb(DriveName(parts[0] + "\\", volumeLabel), parts[0] + "\\", true))
      && (i < |parts| && !(i == 0 && IsDrivePart(parts[0])) ==> r[0] == Crumb(parts[i], PathText.Combine(prefix, parts[i]), false))
      && Chained(parts, i, r)
    decreases |parts| - i
  {
    if i < |parts| {
      var p := if i == 0 && IsDrivePart(parts[0]) then parts[0] + "\\" else PathText.Combine(prefix, parts[i]);
      CrumbsChain(parts, i + 1, p, volumeLabel);
      var rest := CrumbsFrom(parts, i + 1, p, volumeLabel);
      var head := if i == 0 && IsDrivePart(parts[0]) then Crumb(DriveName(p, volumeLabel), p, true) else Crumb(parts[i], p, false);
      assert CrumbsFrom(parts, i, prefix, volumeLabel) == [head] + rest;
      assert ([head] + rest)[1..] == rest;
    }
  }

  function ButtonsFor(b: Bar, fullPath: string -> string): (r: Bar)
    ensures r.backEnabled <==> r.back != []
    ensures r.forwardEnabled <==> r.forward != []
    ensures r.(backEnabled := b.backEnabled, forwardEnabled := b.forwardEnabled, upEnabled := b.upEnabled) == b
  {
    b.(backEnabled := b.back != [],
       forwardEnabled := b.forward != [],
       upEnabled := b.current != [] && PathText.GetDirectoryName(fullPath(b.current)).Some?)
  }

  /** The buttons reflect the stacks, and the crumbs the current path. */
  predicate Valid(b: Bar, volumeLabel: string -> string) {
    && (b.backEnabled <==> b.back != [])
    && (b.forwardEnabled <==> b.forward != [])
    && b.crumbs == CrumbsOf(b.current, volumeLabel)
  }

  /** A new bar: no path and empty stacks. Back and forward start disabled;
      the up button starts enabled, because its state is first computed by
      the first navigation. */
  const Initial: Bar := Bar([], [], [], false, false, true, [])

  lemma InitialValid(volumeLabel: string -> string)
    ensures Valid(Initial, volumeLabel)
  {
  }

  /** Before the first navigation the up button is enabled although there
      is no path to go up from; recomputing the buttons would disable it. */
  lemma InitialUpEnabled(fullPath: string -> string)
    ensures Initial.upEnabled && Initial.current == []
    ensures !ButtonsFor(Initial, fullPath).upEnabled
  {
  }

  /** `NavigateTo`: empty paths are ignored. With history on, moving to a
      different path from a non-empty one pushes the old path and clears the
      forward stack. */
  function NavigateTo(b: Bar, path: string, addToHistory: bool, fullPath: string -> string, volumeLabel: string -> string): (r: Bar)
    ensures path == [] ==> r == b
    ensures path != [] ==> r.current == Normalize(fullPath(path)) && Valid(r, volumeLabel)
    ensures path != [] && addToHistory && b.current != [] && b.current != r.current ==>
      r.back == b.back + [b.current] && r.forward == []
    ensures path != [] && !(addToHistory && b.current != [] && b.current != r.current) ==>
      r.back == b.back && r.forward == b.forward
  {
    if path == [] then b
    else
      var p := Normalize(fullPath(path));
      var pushed :=
        if addToHistory && b.current != [] && b.current != p
        then b.(back := b.back + [b.current], forward := [])
        else b;
      ButtonsFor(pushed.(current := p, crumbs := CrumbsOf(p, volumeLabel)), fullPath)
  }

  /** `GoBack`: a no-op on an empty back stack; otherwise the current path
      goes on the forward stack and the popped path becomes current. */
  function GoBack(b: Bar, fullPath: string -> string, volumeLabel: string -> string): (r: Bar)
    ensures b.back == [] ==> r == b
    ensures b.back != [] ==>
      && r.back == b.back[..|b.back| - 1]
      && r.forward == b.forward + [b.current]
    ensures b.back != [] && b.back[|b.back| - 1] != [] ==> r.current == Normalize(fullPath(b.back[|b.back| - 1]))
  {
    if b.back == [] then b
    else
      var top := b.back[|b.back| - 1];
      var moved := b.(forward := b.forward + [b.current], back := b.back[..|b.back| - 1]);
      NavigateTo(moved, top, false, fullPath, volumeLabel)
  }

  /** `GoForward`: the mirror image of `GoBack`. */
  function GoForward(b: Bar, fullPath: string -> string, volumeLabel: string -> string): (r: Bar)
    ensures b.forward == [] ==> r == b
    ensures b.forward != [] ==>
      && r.forward == b.forward[..|b.forward| - 1]
      && r.back == b.back + [b.current]
    ensures b.forward != [] && b.forward[|b.forward| - 1] != [] ==> r.current == Normalize(fullPath(b.forward[|b.forward| - 1]))
  {
    if b.forward == [] then b
    else
      var top := b.forward[|b.forward| - 1];
      var moved := b.(back := b.back + [b.current], forward := b.forward[..|b.forward| - 1]);
      NavigateTo(moved, top, false, fullPath, volumeLabel)
  }

  /** A path `NavigateTo` would store unchanged. */
  predicate Settled(p: string, fullPath: string -> string) {
    p != [] && Normalize(fullPath(p)) == p
  }

  /** Every history step keeps the buttons and crumbs in step with the
      state (empty history entries are never pushed). */
  lemma GoBackValid(b: Bar, fullPath: string -> string, volumeLabel: string -> string)
    requires Valid(b, volumeLabel)
    requires forall k | 0 <= k < |b.back| :: b.back[k] != []
    ensures Valid(GoBack(b, fullPath, volumeLabel), volumeLabel)
  {
  }

  /** For settled paths, going back then forward restores the current path
      and both stacks. */
  lemma BackThenForward(b: Bar, fullPath: string -> string, volumeLabel: string -> string)
    requires Valid(b, volumeLabel) && b.back != []
    requires Settled(b.current, fullPath) && Settled(b.back[|b.back| - 1], fullPath)
    ensures GoForward(GoBack(b, fullPath, volumeLabel), fullPath, volumeLabel).current == b.current
    ensures GoForward(GoBack(b, fullPath, volumeLabel), fullPath, volumeLabel).back == b.back
    ensures GoForward(GoBack(b, fullPath, volumeLabel), fullPath, volumeLabel).forward == b.forward
  {
    var g := GoBack(b, fullPath, volumeLabel);
    assert g.current == b.back[|b.back| - 1];
    assert g.forward[|g.forward| - 1] == b.current;
    assert g.forward[..|g.forward| - 1] == b.forward;
    assert g.back + [g.current] == b.back;
  }
}

=== FILE: Cache.dfy ===
/** FileSystemCache: directory snapshots keyed by normalised path, their
    timestamps, the stale-while-revalidate read path, bulk eviction of the
    oldest entries, invalidation and the single watched directory.

    The two dictionaries compare keys ignoring case, so the model keys them
    by the lower-cased normalised path. The clock is a parameter, and the
    file system is an input: what reading a directory yields. */
module Cache {
  import opened Common
  import opened Strings
  import PathText

  const Expiration: int := 5 * TicksPerMinute
  const MaxCachedDirectories: nat := 10000
  /** `_maxCachedDirectories / 4`: how many entries one eviction removes. */
  const EvictionCount: nat := MaxCachedDirectories / 4

  const AttrHidden: bv32 := 0x2
  const AttrSystem: bv32 := 0x4

  /** `FileSystemItem`. */
  datatype Item = Item(
    name: string,
    fullPath: string,
    isDirectory: bool,
    size: int,
    extension: string,
    lastModified: Ticks,
    created: Ticks,
    attributes: bv32)
  {
    predicate IsHidden() { attributes & AttrHidden == AttrHidden }
    predicate IsSystem() { attributes & AttrSystem == AttrSystem }
  }

  /** `DirectoryContents` (and the `CachedDirectory` copy of it); `path`
      is `None` for `DirectoryContents.Empty`. */
  datatype Contents = Contents(
    path: Option<string>,
    directories: seq<Item>,
    files: seq<Item>,
    present: bool,
    accessDenied: bool)
  {
    /** `AllItems`: directories first. */
    function AllItems(): (r: seq<Item>)
      ensures |r| == TotalCount()
    {
      directories + files
    }

    function TotalCount(): nat {
      |directories| + |files|
    }
  }

  const EmptyContents: Contents := Contents(None, [], [], false, false)

  /** What reading a directory does. `Missing`: `DirectoryInfo.Exists` is
      false, which is also what it answers when checking the directory
      fails. `Failed`: an exception escapes before that, from the
      `DirectoryInfo` constructor on a malformed path. `Listed`: the items
      the two enumerations yielded. Both enumerations and each item's
      reading sit in `try { } catch { }` blocks, so a directory that refuses
      to be listed reads as `Listed([], [])`, an enumeration that fails
      half-way keeps what it yielded, and an item whose reading failed is
      left out. */
  datatype DirRead = Missing | Failed | Listed(directories: seq<Item>, files: seq<Item>)

  /** The cache: snapshots and timestamps by key, the refresh gate (`Some`
      while a refresh of that path runs) and the watched path. */
  datatype Cache = Cache(
    entries: map<string, Contents>,
    stamps: map<string, Ticks>,
    refreshing: Option<string>,
    watching: Option<string>)

  /** Both dictionaries always hold the same keys, and eviction keeps the
      count within one of the limit. */
  predicate Valid(c: Cache) {
    c.entries.Keys == c.stamps.Keys && |c.entries.Keys| <= MaxCachedDirectories + 1
  }

  const EmptyCache: Cache := Cache(map[], map[], None, None)

  // ----- keys and staleness -----

  /** `NormalizePath`: trailing '\' and '/' removed. */
  function NormalizePath(path: string): (r: string)
    ensures |r| <= |path| && r == path[..|r|]
    ensures |r| > 0 ==> !PathText.IsDirSep(r[|r| - 1])
    ensures forall i | |r| <= i < |path| :: PathText.IsDirSep(path[i])
  {
    TrimEnd(path, {'\\', '/'})
  }

  /** Normalising twice is normalising once. */
  lemma NormalizeIdempotent(path: string)
    ensures NormalizePath(NormalizePath(path)) == NormalizePath(path)
  {
  }

  /** The dictionary key of a path. */
  function Key(path: string): string {
    Lower(NormalizePath(path))
  }

  /** `IsCacheStale`: no timestamp, or older than five minutes (strictly). */
  predicate IsStale(c: Cache, key: string, now: Ticks) {
    key !in c.stamps || now - c.stamps[key] > Expiration
  }

  /** Staleness only grows with time: a snapshot stale now stays stale. */
  lemma StaleMonotone(c: Cache, key: string, now: Ticks, later: Ticks)
    requires now <= later && IsStale(c, key, now)
    ensures IsStale(c, key, later)
  {
  }

  /** A listing just loaded stays fresh for five minutes and goes stale
      after that. */
  lemma FreshAfterLoad(c: Cache, path: string, read: DirRead, now: Ticks, after: Cache, contents: Contents, later: Ticks)
    requires Loads(c, path, read, now, after, contents) && read.Listed?
    ensures IsStale(after, Lower(path), later) <==> later > now + Expiration
  {
  }

  // ----- eviction -----

  lemma {:induction false} MinKeyExists(s: set<string>, m: map<string, Ticks>)
    requires s != {} && s <= m.Keys
    ensures exists k | k in s :: forall j | j in s :: m[k] <= m[j]
    decreases |s|
  {
    var x :| x in s;
    if s != {x} {
      MinKeyExists(s - {x}, m);
      var k :| k in s - {x} && forall j | j in s - {x} :: m[k] <= m[j];
      if m[x] < m[k] {
        assert forall j | j in s :: m[x] <= m[j];
      } else {
        assert forall j | j in s :: m[k] <= m[j];
      }
    }
  }

  /** `OrderBy(timestamp).Take(n)`: `n` keys (or all) with no kept key
      older than a removed one. Ties are broken arbitrarily, as the
      dictionary's enumeration order is unspecified. */
  method OldestKeys(stamps: map<string, Ticks>, n: nat) returns (removed: set<string>)
    ensures removed <= stamps.Keys
    ensures |removed| == (if n <= |stamps.Keys| then n else |stamps.Keys|)
    ensures forall a, b | a in removed && b in stamps.Keys - removed :: stamps[a] <= stamps[b]
  {
    removed := {};
    var rest := stamps.Keys;
    while |removed| < n && rest != {}
      invariant removed <= stamps.Keys && rest == stamps.Keys - removed
      invariant |removed| <= n && |removed| + |rest| == |stamps.Keys|
      invariant forall a, b | a in removed && b in rest :: stamps[a] <= stamps[b]
      decreases |rest|
    {
      MinKeyExists(rest, stamps);
      var k :| k in rest && forall j | j in rest :: stamps[k] <= stamps[j];
      TakeOldest(stamps, removed, rest, k);
      removed := removed + {k};
      rest := rest - {k};
    }
  }

  /** Moving a key of minimal timestamp from the kept keys to the removed
      ones keeps every removed key no younger than a kept one. */
  lemma TakeOldest(stamps: map<string, Ticks>, removed: set<string>, rest: set<string>, k: string)
    requires removed <= stamps.Keys && rest == stamps.Keys - removed
    requires forall a, b | a in removed && b in rest :: stamps[a] <= stamps[b]
    requires k in rest && forall j | j in rest :: stamps[k] <= stamps[j]
    ensures removed + {k} <= stamps.Keys && rest - {k} == stamps.Keys - (removed + {k})
    ensures |removed + {k}| == |removed| + 1 && |rest - {k}| == |rest| - 1
    ensures forall a, b | a in removed + {k} && b in rest - {k} :: stamps[a] <= stamps[b]
  {
  }

  lemma RemoveKeysCount<V>(m: map<string, V>, s: set<string>)
    requires s <= m.Keys
    ensures (m - s).Keys == m.Keys - s
    ensures |(m - s).Keys| == |m.Keys| - |s|
  {
    assert m.Keys == (m.Keys - s) + s;
  }

  /** The 2,500 oldest entries of `c` were dropped before `key` was stored. */
  predicate EvictedOldest(c: Cache, key: string, snap: Contents, now: Ticks, after: Cache) {
    exists removed: set<string> ::
      && removed <= c.stamps.Keys && |removed| == EvictionCount
      && (forall a, b | a in removed && b in c.stamps.Keys - removed :: c.stamps[a] <= c.stamps[b])
      && after.entries == (c.entries - removed)[key := snap]
      && after.stamps == (c.stamps - removed)[key := now]
  }

  /** What storing a snapshot does to the cache: `key` maps to `snap`
      stamped `now`; every other entry is one `c` already had, with its
      stamp; below the limit nothing else changes, and above it exactly the
      oldest entries go. The refresh gate and the watch are untouched. */
  predicate Stored(c: Cache, key: string, snap: Contents, now: Ticks, after: Cache) {
    && key in after.entries && after.entries[key] == snap
    && key in after.stamps && after.stamps[key] == now
    && after.refreshing == c.refreshing && after.watching == c.watching
    && (forall k | k in after.entries && k != key :: k in c.entries && after.entries[k] == c.entries[k])
    && (forall k | k in after.stamps && k != key :: k in c.stamps && after.stamps[k] == c.stamps[k])
    && (|c.entries.Keys| <= MaxCachedDirectories ==>
          after.entries == c.entries[key := snap] && after.stamps == c.stamps[key := now])
    && (|c.entries.Keys| > MaxCachedDirectories ==> EvictedOldest(c, key, snap, now, after))
  }

  /** `UpdateCache`: when more than 10,000 directories are cached, drop the
      2,500 oldest first; then store the snapshot stamped `now`. */
  method UpdateCache(c: Cache, key: string, snap: Contents, now: Ticks) returns (r: Cache)
    requires Valid(c)
    ensures Valid(r)
    ensures key in r.entries && r.entries[key] == snap && r.stamps[key] == now
    ensures r.refreshing == c.refreshing && r.watching == c.watching
    ensures |c.entries.Keys| <= MaxCachedDirectories ==>
      r.entries == c.entries[key := snap] && r.stamps == c.stamps[key := now]
    ensures |c.entries.Keys| > MaxCachedDirectories ==> EvictedOldest(c, key, snap, now, r)
    ensures Stored(c, key, snap, now, r)
  {
    var entries, stamps := c.entries, c.stamps;
    if |c.entries.Keys| > MaxCachedDirectories {
      var removed := OldestKeys(c.stamps, EvictionCount);
      RemoveKeysCount(c.entries, removed);
      RemoveKeysCount(c.stamps, removed);
      entries, stamps := c.entries - removed, c.stamps - removed;
    }
    r := c.(entries := entries[key := snap], stamps := stamps[key := now]);
  }

  // ----- loading -----

  datatype Loaded = Loaded(cache: Cache, contents: Contents)

  /** What loading `path` does: the snapshot returned is that of `path`,
      present exactly for a listing, which is then stored under the path's
      key and stamped `now` as `Stored` describes; anything else leaves the
      cache alone. */
  predicate Loads(c: Cache, path: string, read: DirRead, now: Ticks, after: Cache, contents: Contents) {
    && contents.path == Some(path)
    && (contents.present <==> read.Listed?)
    && !contents.accessDenied
    && (!read.Listed? ==> after == c && contents.directories == [] && contents.files == [])
    && (read.Listed? ==>
          && contents.directories == read.directories && contents.files == read.files
          && Stored(c, Lower(path), contents, now, after))
  }

  /** `LoadDirectory`: the listing of an existing directory is cached,
      even an empty one whose listing was refused; a missing directory, or
      a path the constructor rejects, reads as not existing and is not
      cached. The `AccessDenied` flag is never set: the exceptions that
      would reach its `catch` are swallowed earlier. */
  method LoadDirectory(c: Cache, path: string, read: DirRead, now: Ticks) returns (r: Loaded)
    requires Valid(c)
    ensures Valid(r.cache)
    ensures Loads(c, path, read, now, r.cache, r.contents)
    ensures r.cache.refreshing == c.refreshing && r.cache.watching == c.watching
  {
    match read
      case Missing =>
        r := Loaded(c, Contents(Some(path), [], [], false, false));
      case Failed =>
        r := Loaded(c, Contents(Some(path), [], [], false, false));
      case Listed(dirs, files) =>
        var contents := Contents(Some(path), dirs, files, true, false);
        var c' := UpdateCache(c, Lower(path), contents, now);
        r := Loaded(c', contents);
  }

  /** A directory whose listing is refused is reported as existing and
      empty, not as access denied, and that snapshot is cached. */
  method LoadRefused(c: Cache, path: string, now: Ticks) returns (r: Loaded)
    requires Valid(c)
    ensures r.contents == Contents(Some(path), [], [], true, false)
    ensures Lower(path) in r.cache.entries && r.cache.entries[Lower(path)] == r.contents
  {
    r := LoadDirectory(c, path, Listed([], []), now);
  }

  /** The result of a read: the cache afterwards, the contents returned and
      whether a background refresh was started. */
  datatype Read = Read(cache: Cache, contents: Contents, refreshStarted: bool)

  /** `GetDirectoryContentsAsync`: an empty path gives the empty snapshot; a
      hit without `forceRefresh` returns the cached snapshot at once and
      starts a refresh only when it is stale; otherwise the directory is
      loaded. `read` is what reading the normalised path yields. */
  method GetDirectoryContentsAsync(c: Cache, path: string, forceRefresh: bool, read: DirRead, now: Ticks)
    returns (r: Read)
    requires Valid(c)
    ensures Valid(r.cache)
    ensures path == [] ==> r.contents == EmptyContents && r.cache == c && !r.refreshStarted
    ensures path != [] && !forceRefresh && Key(path) in c.entries ==>
      && r.contents == c.entries[Key(path)]
      && r.cache.entries == c.entries && r.cache.stamps == c.stamps
      && (r.refreshStarted <==> IsStale(c, Key(path), now) && c.refreshing.None?)
    ensures r.refreshStarted ==> r.cache.refreshing == Some(NormalizePath(path))
    ensures path != [] && (forceRefresh || Key(path) !in c.entries) ==>
      && !r.refreshStarted
      && Loads(c, NormalizePath(path), read, now, r.cache, r.contents)
  {
    if path == [] {
      return Read(c, EmptyContents, false);
    }
    var normalized := NormalizePath(path);
    if !forceRefresh && Lower(normalized) in c.entries {
      var cached := c.entries[Lower(normalized)];
      if IsStale(c, Lower(normalized), now) {
        var started := StartRefresh(c, normalized);
        return Read(started.0, cached, started.1);
      }
      return Read(c, cached, false);
    }
    var loaded := LoadDirectory(c, normalized, read, now);
    r := Read(loaded.cache, loaded.contents, false);
  }

  /** `GetDirectoryContents`: the synchronous variant, which never checks
      staleness. */
  method GetDirectoryContents(c: Cache, path: string, forceRefresh: bool, read: DirRead, now: Ticks)
    returns (r: Loaded)
    requires Valid(c)
    ensures Valid(r.cache)
    ensures path == [] ==> r.contents == EmptyContents && r.cache == c
    ensures path != [] && !forceRefresh && Key(path) in c.entries ==>
      r.contents == c.entries[Key(path)] && r.cache == c
    ensures path != [] && (forceRefresh || Key(path) !in c.entries) ==>
      Loads(c, NormalizePath(path), read, now, r.cache, r.contents)
  {
    if path == [] {
      return Loaded(c, EmptyContents);
    }
    var normalized := NormalizePath(path);
    if !forceRefresh && Lower(normalized) in c.entries {
      return Loaded(c, c.entries[Lower(normalized)]);
    }
    r := LoadDirectory(c, normalized, read, now);
  }

  /** The start of `RefreshCacheAsync`: `WaitAsync(0)` takes the
      single-slot gate only when it is free. */
  function StartRefresh(c: Cache, path: string): (r: (Cache, bool))
    ensures r.1 <==> c.refreshing.None?
    ensures r.1 ==> r.0 == c.(refreshing := Some(path))
    ensures !r.1 ==> r.0 == c
  {
    if c.refreshing.Some? then (c, false) else (c.(refreshing := Some(path)), true)
  }

  /** The end of `RefreshCacheAsync`: the load runs, caching the fresh
      listing of an existing directory, then the gate is released. */
  method FinishRefresh(c: Cache, read: DirRead, now: Ticks) returns (r: Cache)
    requires Valid(c) && c.refreshing.Some?
    ensures Valid(r) && r.refreshing.None?
    ensures read.Listed? ==>
      Lower(c.refreshing.value) in r.entries && r.stamps[Lower(c.refreshing.value)] == now
    ensures read.Listed? ==>
      r.entries[Lower(c.refreshing.value)] == Contents(Some(c.refreshing.value), read.directories, read.files, true, false)
    ensures read.Listed? ==>
      forall k | k in r.entries && k != Lower(c.refreshing.value) :: k in c.entries && r.entries[k] == c.entries[k]
    ensures read.Listed? && |c.entries.Keys| <= MaxCachedDirectories ==>
      r.entries == c.entries[Lower(c.refreshing.value) := Contents(Some(c.refreshing.value), read.directories, read.files, true, false)]
    ensures !read.Listed? ==> r == c.(refreshing := None)
    ensures r.watching == c.watching
  {
    var loaded := LoadDirectory(c, c.refreshing.value, read, now);
    r := loaded.cache.(refreshing := None);
  }

  /** A refresh requested while another holds the gate does nothing. */
  lemma RefreshWhileHeldIsNoop(c: Cache, path: string)
    requires c.refreshing.Some?
    ensures StartRefresh(c, path) == (c, false)
  {
  }

  // ----- invalidation and watching -----

  /** `InvalidateCache`: remove the normalised path from both dictionaries;
      `None` and the empty path change nothing. */
  function InvalidateCache(c: Cache, path: Option<string>): (r: Cache)
    requires Valid(c)
    ensures Valid(r)
    ensures r.refreshing == c.refreshing && r.watching == c.watching
    ensures path.None? || path.value == [] ==> r == c
    ensures path.Some? && path.value != [] ==>
      && r.entries.Keys == c.entries.Keys - {Key(path.value)}
      && r.stamps.Keys == c.stamps.Keys - {Key(path.value)}
      && (forall k | k in r.entries :: r.entries[k] == c.entries[k] && r.stamps[k] == c.stamps[k])
  {
    if path.None? || path.value == [] then c
    else
      var key := Key(path.value);
      assert |(c.entries - {key}).Keys| <= |c.entries.Keys| by {
        assert (c.entries - {key}).Keys <= c.entries.Keys;
        SubsetCard((c.entries - {key}).Keys, c.entries.Keys);
      }
      c.(entries := c.entries - {key}, stamps := c.stamps - {key})
  }

  lemma SubsetCard(a: set<string>, b: set<string>)
    requires a <= b
    ensures |a| <= |b|
  {
    assert b == a + (b - a);
  }

  /** `ClearCache`: both dictionaries emptied. */
  function ClearCache(c: Cache): (r: Cache)
    ensures Valid(r) && r.entries == map[] && r.stamps == map[]
    ensures r.refreshing == c.refreshing && r.watching == c.watching
  {
    c.(entries := map[], stamps := map[])
  }

  /** `StopWatching`. */
  function StopWatching(c: Cache): (r: Cache)
    ensures r.watching.None? && r.entries == c.entries && r.stamps == c.stamps
  {
    c.(watching := None)
  }

  /** `WatchDirectory`: nothing for an empty or missing directory or for the
      path already watched (compared ordinally); otherwise the old watch is
      stopped and, if the watcher can be created, the new path watched. */
  function WatchDirectory(c: Cache, path: string, exists_: bool, watcherCreated: bool): (r: Cache)
    ensures path == [] || !exists_ || c.watching == Some(path) ==> r == c
    ensures path != [] && exists_ && c.watching != Some(path) ==>
      r == StopWatching(c).(watching := if watcherCreated then Some(path) else None)
    ensures r.entries == c.entries && r.stamps == c.stamps
  {
    if path == [] || !exists_ then c
    else if c.watching == Some(path) then c
    else
      var stopped := StopWatching(c);
      if watcherCreated then stopped.(watching := Some(path)) else stopped
  }

  /** Watching the same path twice is watching it once. */
  lemma WatchIdempotent(c: Cache, path: string, exists_: bool)
    ensures WatchDirectory(WatchDirectory(c, path, exists_, true), path, exists_, true)
         == WatchDirectory(c, path, exists_, true)
  {
  }

  /** `OnFileSystemChanged` / `OnFileSystemRenamed`: invalidate the parent
      directory of the changed item. */
  function OnFileSystemChanged(c: Cache, fullPath: string): (r: Cache)
    requires Valid(c)
    ensures Valid(r)
    ensures PathText.GetDirectoryName(fullPath).Some? && PathText.GetDirectoryName(fullPath).value != [] ==>
      Key(PathText.GetDirectoryName(fullPath).value) !in r.entries
    ensures forall k | k in r.entries :: k in c.entries && r.entries[k] == c.entries[k]
  {
    InvalidateCache(c, PathText.GetDirectoryName(fullPath))
  }
}

=== FILE: Discord.dfy ===
/** DiscordRpcClient: JSON string escaping, the 8-byte IPC frame, nonce
    sequencing and the connected/disposed flag transitions.

    The named pipe is replaced by its observable outcomes: for `Connect`,
    what each of the ten pipe names does; for each write, whether it
    succeeds. Messages are kept as structured values; the JSON text around
    the escaped strings and the UTF-8 encoding are not modelled. */
module Discord {
  import opened Common

  // ---------------------------------------------------------------------
  // EscapeJson
  // ---------------------------------------------------------------------

  /** The escape of one character: backslash, quote, newline, carriage
      return and tab become two characters, everything else is copied. */
  function EscapeChar(c: char): string {
    match c
    case '\\' => "\\\\"
    case '"' => "\\\""
    case '\n' => "\\n"
    case '\r' => "\\r"
    case '\t' => "\\t"
    case _ => [c]
  }

  predicate NeedsEscape(c: char) {
    c == '\\' || c == '"' || c == '\n' || c == '\r' || c == '\t'
  }

  /** `EscapeJson`. */
  function EscapeJson(s: string): (r: string)
    ensures |s| <= |r| <= 2 * |s|
    ensures s == [] ==> r == []
    decreases |s|
  {
    if s == [] then [] else EscapeChar(s[0]) + EscapeJson(s[1..])
  }

  /** The character an escape code stands for. */
  function UnescapeCode(c: char): Option<char> {
    match c
    case '\\' => Some('\\')
    case '"' => Some('"')
    case 'n' => Some('\n')
    case 'r' => Some('\r')
    case 't' => Some('\t')
    case _ => None
  }

  /** Reads the five escapes back; any other backslash sequence, or a
      trailing backslash, is rejected. */
  function Unescape(e: string): (r: Option<string>)
    decreases |e|
  {
    if e == [] then Some([])
    else if e[0] == '\\' then
      if |e| < 2 then None
      else match UnescapeCode(e[1])
        case None => None
        case Some(c) =>
          match Unescape(e[2..])
          case None => None
          case Some(t) => Some([c] + t)
    else
      match Unescape(e[1..])
      case None => None
      case Some(t) => Some([e[0]] + t)
  }

  /** Unescaping one escaped character in front of `rest`. */
  lemma UnescapeStep(c: char, rest: string, t: string)
    requires Unescape(rest) == Some(t)
    ensures Unescape(EscapeChar(c) + rest) == Some([c] + t)
  {
    var e := EscapeChar(c) + rest;
    if NeedsEscape(c) {
      assert e[0] == '\\' && UnescapeCode(e[1]) == Some(c);
      assert e[2..] == rest;
    } else {
      assert e[0] == c && e[1..] == rest;
    }
  }

  /** Unescaping undoes escaping. */
  lemma {:induction false} UnescapeEscape(s: string)
    ensures Unescape(EscapeJson(s)) == Some(s)
    decreases |s|
  {
    if s != [] {
      UnescapeEscape(s[1..]);
      UnescapeStep(s[0], EscapeJson(s[1..]), s[1..]);
      assert s == [s[0]] + s[1..];
    }
  }

  /** The escaped text holds no raw newline, carriage return or tab, and
      every quote in it is preceded by a backslash. */
  lemma {:induction false} EscapeHasNoRawControls(s: string)
    ensures forall i | 0 <= i < |EscapeJson(s)| ::
      EscapeJson(s)[i] != '\n' && EscapeJson(s)[i] != '\r' && EscapeJson(s)[i] != '\t'
    ensures forall i | 0 <= i < |EscapeJson(s)| && EscapeJson(s)[i] == '"' ::
      0 < i && EscapeJson(s)[i - 1] == '\\'
    decreases |s|
  {
    if s != [] {
      EscapeHasNoRawControls(s[1..]);
      var head := EscapeChar(s[0]);
      var rest := EscapeJson(s[1..]);
      assert EscapeJson(s) == head + rest;
      forall i | 0 <= i < |head + rest| && (head + rest)[i] == '"'
        ensures 0 < i && (head + rest)[i - 1] == '\\'
      {
        if i >= |head| {
          assert rest[i - |head|] == '"';
        }
      }
    }
  }

  /** A string with nothing to escape is copied unchanged. */
  lemma {:induction false} EscapeIdentity(s: string)
    requires forall i | 0 <= i < |s| :: !NeedsEscape(s[i])
    ensures EscapeJson(s) == s
    decreases |s|
  {
    if s != [] {
      EscapeIdentity(s[1..]);
      assert s == [s[0]] + s[1..];
    }
  }

  // ---------------------------------------------------------------------
  // Frames
  // ---------------------------------------------------------------------

  /** `BitConverter.GetBytes(int)`: two's complement, little-endian. */
  function Int32Bytes(v: int32): (b: seq<byte>)
    ensures |b| == 4
  {
    var u := if v < 0 then v + 0x1_0000_0000 else v;
    [u % 0x100, u / 0x100 % 0x100, u / 0x1_0000 % 0x100, u / 0x100_0000]
  }

  /** `BitConverter.ToInt32(bytes, start)`. */
  function ToInt32(b: seq<byte>, start: nat): (v: int32)
    requires start + 4 <= |b|
  {
    var u := b[start] as int + 0x100 * b[start + 1] as int + 0x1_0000 * b[start + 2] as int + 0x100_0000 * b[start + 3] as int;
    if u < 0x8000_0000 then u else u - 0x1_0000_0000
  }

  lemma Int32BytesRoundTrip(v: int32, pre: seq<byte>, post: seq<byte>)
    ensures ToInt32(pre + Int32Bytes(v) + post, |pre|) == v
  {
    var u := if v < 0 then v + 0x1_0000_0000 else v;
    var b := Int32Bytes(v);
    var all := pre + b + post;
    assert all[|pre|..|pre| + 4] == b;
    var q1 := u / 0x100;
    var q2 := q1 / 0x100;
    assert u / 0x1_0000 == q2;
    assert u / 0x100_0000 == q2 / 0x100;
    assert q2 == q2 % 0x100 + 0x100 * (q2 / 0x100);
    assert q1 == q1 % 0x100 + 0x100 * q2;
    assert u == u % 0x100 + 0x100 * q1;
  }

  /** The packet `SendPacket` writes: the opcode and the payload length as
      little-endian `int`s, then the payload. */
  function Frame(opcode: int32, payload: seq<byte>): (f: seq<byte>)
    requires |payload| <= MaxInt32
    ensures |f| == 8 + |payload|
    ensures f[8..] == payload
    ensures ToInt32(f, 0) == opcode
    ensures ToInt32(f, 4) == |payload|
  {
    var f := Int32Bytes(opcode) + Int32Bytes(|payload|) + payload;
    Int32BytesRoundTrip(opcode, [], Int32Bytes(|payload|) + payload);
    assert f == [] + Int32Bytes(opcode) + (Int32Bytes(|payload|) + payload);
    Int32BytesRoundTrip(|payload|, Int32Bytes(opcode), payload);
    f
  }

  /** `ReadResponse` over the bytes the pipe delivers: fewer than eight
      header bytes, or a negative length (the array allocation throws and the
      exception is swallowed), give null. A short body leaves the rest of the
      buffer zero. */
  function ReadResponse(stream: seq<byte>): (r: Option<seq<byte>>)
    ensures |stream| < 8 ==> r.None?
    ensures r.Some? ==> |r.value| == ToInt32(stream, 4)
    ensures r.Some? && |stream| >= 8 + |r.value| ==> r.value == stream[8..8 + |r.value|]
  {
    if |stream| < 8 then None
    else
      var length := ToInt32(stream, 4);
      if length < 0 then None
      else if |stream| - 8 >= length then Some(stream[8..8 + length])
      else Some(stream[8..] + seq(length - (|stream| - 8), _ => 0))
  }

  /** `ReadResponse` recovers the payload of a frame `SendPacket` wrote,
      whatever follows it. */
  lemma ReadResponseOfFrame(opcode: int32, payload: seq<byte>, rest: seq<byte>)
    requires |payload| <= MaxInt32
    ensures ReadResponse(Frame(opcode, payload) + rest) == Some(payload)
  {
    var f := Frame(opcode, payload);
    var s := f + rest;
    assert s[..|f|] == f;
    assert s[4..8] == f[4..8];
    assert ToInt32(s, 4) == ToInt32(f, 4);
    assert s[8..8 + |payload|] == f[8..];
  }

  // ---------------------------------------------------------------------
  // Client state
  // ---------------------------------------------------------------------

  /** The fields of a `DiscordPresence`; null fields fall back to defaults. */
  datatype Presence = Presence(
    details: Option<string>,
    state: Option<string>,
    largeImageKey: Option<string>,
    largeImageText: Option<string>,
    smallImageKey: Option<string>,
    smallImageText: Option<string>,
    showTimestamp: bool)

  /** The activity object of `SET_ACTIVITY`, every string already escaped. */
  datatype Activity = Activity(
    details: string,
    state: string,
    largeImage: string,
    largeText: string,
    smallImage: string,
    smallText: string,
    start: Option<int>)

  datatype Message =
    | Handshake(version: int, clientId: string)
    | SetActivity(pid: int, activity: Option<Activity>, nonce: int32)

  datatype Packet = Packet(opcode: int32, message: Message)

  datatype Notice = ConnectedNotice | DisconnectedNotice | ErrorNotice

  /** `_pipe`: null, a connected stream, or a disposed one. */
  datatype Pipe = NoPipe | Open | Closed

  datatype Client = Client(
    clientId: string,
    connected: bool,
    disposed: bool,
    pipe: Pipe,
    nonce: int32,
    sent: seq<Packet>,
    notices: seq<Notice>)

  function NewClient(clientId: string): (c: Client)
    ensures !c.connected && !c.disposed && c.nonce == 0 && c.sent == []
  {
    Client(clientId, false, false, NoPipe, 0, [], [])
  }

  function OrElse(v: Option<string>, d: string): string {
    if v.Some? then v.value else d
  }

  /** An escaped field: it decodes to `v` and holds no raw newline,
      carriage return or tab that would break the JSON text. */
  predicate Carries(field: string, v: string) {
    && Unescape(field) == Some(v)
    && forall i | 0 <= i < |field| :: field[i] != '\n' && field[i] != '\r' && field[i] != '\t'
  }

  /** `EscapeJson` yields a field that carries its input. */
  lemma EscapeCarries(v: string)
    ensures Carries(EscapeJson(v), v)
  {
    UnescapeEscape(v);
    EscapeHasNoRawControls(v);
  }

  /** The activity `SetPresence` builds from a presence and the start time
      in Unix seconds: each text field carries the given value or its
      default, and the start time is sent exactly when asked for. */
  function ActivityOf(p: Presence, startSeconds: int): (a: Activity)
    ensures Carries(a.details, OrElse(p.details, "Browsing files"))
    ensures Carries(a.state, OrElse(p.state, ""))
    ensures Carries(a.largeImage, OrElse(p.largeImageKey, "file_explorer"))
    ensures Carries(a.largeText, OrElse(p.largeImageText, "Fastest File Explorer"))
    ensures Carries(a.smallImage, OrElse(p.smallImageKey, "Folder"))
    ensures Carries(a.smallText, OrElse(p.smallImageText, "Developed by PradaFit"))
    ensures p.showTimestamp ==> a.start == Some(startSeconds)
    ensures !p.showTimestamp ==> a.start.None?
  {
    EscapeCarries(OrElse(p.details, "Browsing files"));
    EscapeCarries(OrElse(p.state, ""));
    EscapeCarries(OrElse(p.largeImageKey, "file_explorer"));
    EscapeCarries(OrElse(p.largeImageText, "Fastest File Explorer"));
    EscapeCarries(OrElse(p.smallImageKey, "Folder"));
    EscapeCarries(OrElse(p.smallImageText, "Developed by PradaFit"));
    Activity(
      EscapeJson(OrElse(p.details, "Browsing files")),
      EscapeJson(OrElse(p.state, "")),
      EscapeJson(OrElse(p.largeImageKey, "file_explorer")),
      EscapeJson(OrElse(p.largeImageText, "Fastest File Explorer")),
      EscapeJson(OrElse(p.smallImageKey, "Folder")),
      EscapeJson(OrElse(p.smallImageText, "Developed by PradaFit")),
      if p.showTimestamp then Some(startSeconds) else None)
  }

  /** Two presences give the same activity exactly when they agree on every
      field once the defaults are filled in (and on the start time when it
      is shown): escaping loses nothing. */
  lemma ActivityOfInjective(p: Presence, q: Presence, startSeconds: int)
    ensures ActivityOf(p, startSeconds) == ActivityOf(q, startSeconds) <==>
      && OrElse(p.details, "Browsing files") == OrElse(q.details, "Browsing files")
      && OrElse(p.state, "") == OrElse(q.state, "")
      && OrElse(p.largeImageKey, "file_explorer") == OrElse(q.largeImageKey, "file_explorer")
      && OrElse(p.largeImageText, "Fastest File Explorer") == OrElse(q.largeImageText, "Fastest File Explorer")
      && OrElse(p.smallImageKey, "Folder") == OrElse(q.smallImageKey, "Folder")
      && OrElse(p.smallImageText, "Developed by PradaFit") == OrElse(q.smallImageText, "Developed by PradaFit")
      && p.showTimestamp == q.showTimestamp
  {
  }

  datatype Sent = Sent(client: Client, threw: bool)

  /** `SendPacket`: nothing happens without a connected pipe; otherwise the
      write either succeeds or throws. */
  function SendPacket(c: Client, p: Packet, writeOk: bool): (r: Sent)
    ensures r.threw ==> r.client == c
    ensures r.client.sent == c.sent || r.client.sent == c.sent + [p]
    ensures r.client.sent == c.sent + [p] <==> c.pipe == Open && writeOk
    ensures r.client.(sent := c.sent) == c
  {
    if c.pipe != Open then Sent(c, false)
    else if writeOk then Sent(c.(sent := c.sent + [p]), false)
    else Sent(c, true)
  }

  /** `Interlocked.Increment` on `_nonce`. */
  function NextNonce(c: Client): (n: int32)
    ensures c.nonce < MaxInt32 ==> n == c.nonce + 1
  {
    Wrap32(c.nonce + 1)
  }

  /** `ClearPresence`: a `SET_ACTIVITY` with a null activity and a fresh
      nonce; a failed write is swallowed. */
  function ClearPresence(c: Client, pid: int, writeOk: bool): (r: Client)
    ensures !c.connected || c.pipe == NoPipe ==> r == c
    ensures r.connected == c.connected && r.pipe == c.pipe && r.disposed == c.disposed
  {
    if !c.connected || c.pipe == NoPipe then c
    else
      var n := NextNonce(c);
      SendPacket(c.(nonce := n), Packet(1, SetActivity(pid, None, n)), writeOk).client
  }

  /** `Disconnect`: clears the presence, closes the pipe, and reports the
      disconnection, when connected. */
  function Disconnect(c: Client, pid: int, writeOk: bool): (r: Client)
    ensures !r.connected && r.disposed == c.disposed
    ensures !c.connected ==> r == c
    ensures c.connected ==> r.pipe == NoPipe && r.notices == c.notices + [DisconnectedNotice]
  {
    if !c.connected then c
    else
      var cleared := ClearPresence(c, pid, writeOk);
      cleared.(connected := false, pipe := NoPipe, notices := cleared.notices + [DisconnectedNotice])
  }

  /** `SetPresence`: a `SET_ACTIVITY` with a fresh nonce; a failed write
      reports an error and disconnects. */
  function SetPresence(c: Client, p: Presence, pid: int, startSeconds: int, writeOk: bool): (r: Client)
    ensures !c.connected || c.pipe == NoPipe ==> r == c
    ensures c.connected && c.pipe == Open && writeOk ==>
      r == c.(nonce := NextNonce(c), sent := c.sent + [Packet(1, SetActivity(pid, Some(ActivityOf(p, startSeconds)), NextNonce(c)))])
    ensures c.connected && c.pipe == Open && !writeOk ==> !r.connected && r.pipe == NoPipe
  {
    if !c.connected || c.pipe == NoPipe then c
    else
      var n := NextNonce(c);
      var s := SendPacket(c.(nonce := n), Packet(1, SetActivity(pid, Some(ActivityOf(p, startSeconds)), n)), writeOk);
      if s.threw then Disconnect(s.client.(notices := s.client.notices + [ErrorNotice]), pid, writeOk)
      else s.client
  }

  /** `Dispose`: marks the client disposed and disconnects, once. */
  function Dispose(c: Client, pid: int, writeOk: bool): (r: Client)
    ensures c.disposed ==> r == c
    ensures !c.disposed ==> r.disposed && !r.connected
  {
    if c.disposed then c
    else Disconnect(c.(disposed := true), pid, writeOk)
  }

  lemma DisposeIdempotent(c: Client, pid: int, writeOk: bool, pid2: int, writeOk2: bool)
    ensures Dispose(Dispose(c, pid, writeOk), pid2, writeOk2) == Dispose(c, pid, writeOk)
  {
  }

  // ---------------------------------------------------------------------
  // Connect
  // ---------------------------------------------------------------------

  const PipeCount: nat := 10

  /** What `discord-ipc-<k>` does when the client tries it. */
  datatype Attempt =
    | TimesOut
    | IoFails
    | OtherFails
    | Opens(handshakeWriteOk: bool)

  function AttemptAt(attempts: seq<Attempt>, k: nat): Attempt {
    if k < |attempts| then attempts[k] else TimesOut
  }

  datatype Connection = Connection(client: Client, ok: bool)

  /** The `Connect` loop as written, from pipe number `k`: the connected
      flag is set before the handshake, so a handshake whose write throws
      leaves it set while the loop moves on to the next pipe. */
  function ConnectFromAsWritten(c: Client, attempts: seq<Attempt>, k: nat): (r: Connection)
    ensures r.ok ==> r.client.connected
    ensures c.connected ==> r.client.connected
    decreases PipeCount - k
  {
    if k >= PipeCount then Connection(c, false)
    else match AttemptAt(attempts, k)
      case TimesOut => ConnectFromAsWritten(c.(pipe := Closed), attempts, k + 1)
      case IoFails => ConnectFromAsWritten(c.(pipe := Closed), attempts, k + 1)
      case OtherFails =>
        ConnectFromAsWritten(c.(pipe := Closed, notices := c.notices + [ErrorNotice]), attempts, k + 1)
      case Opens(writeOk) =>
        var live := c.(pipe := Open, connected := true);
        var hs := SendPacket(live, Packet(0, Handshake(1, c.clientId)), writeOk);
        if hs.threw then ConnectFromAsWritten(hs.client.(pipe := Closed), attempts, k + 1)
        else Connection(hs.client.(notices := hs.client.notices + [ConnectedNotice]), true)
  }

  /** As written, success implies the flag, but not conversely. */
  function ConnectAsWritten(c: Client, attempts: seq<Attempt>): (r: Connection)
    ensures c.connected ==> r == Connection(c, true)
    ensures r.ok ==> r.client.connected
  {
    if c.connected then Connection(c, true) else ConnectFromAsWritten(c, attempts, 0)
  }

  /** The pipe 0 handshake write fails and every other pipe times out:
      `Connect` reports failure, yet `IsConnected` is true, so every later
      `Connect` returns true without trying again. */
  lemma ConnectAsWrittenDisagrees()
    ensures var r := ConnectAsWritten(NewClient("id"), [Opens(false)]);
            !r.ok && r.client.connected
  {
  }

  /** `Connect` with the connected flag set only once the handshake has
      been written. */
  function ConnectFrom(c: Client, attempts: seq<Attempt>, k: nat): (r: Connection)
    requires !c.connected
    ensures r.ok <==> r.client.connected
    ensures r.ok ==> r.client.pipe == Open
    ensures r.client.sent == (if r.ok then c.sent + [Packet(0, Handshake(1, c.clientId))] else c.sent)
    ensures r.client.nonce == c.nonce && r.client.disposed == c.disposed
    ensures r.client.clientId == c.clientId
    decreases PipeCount - k
  {
    if k >= PipeCount then Connection(c, false)
    else match AttemptAt(attempts, k)
      case TimesOut => ConnectFrom(c.(pipe := Closed), attempts, k + 1)
      case IoFails => ConnectFrom(c.(pipe := Closed), attempts, k + 1)
      case OtherFails =>
        ConnectFrom(c.(pipe := Closed, notices := c.notices + [ErrorNotice]), attempts, k + 1)
      case Opens(writeOk) =>
        var hs := SendPacket(c.(pipe := Open), Packet(0, Handshake(1, c.clientId)), writeOk);
        if hs.threw then ConnectFrom(hs.client.(pipe := Closed), attempts, k + 1)
        else Connection(hs.client.(connected := true, notices := hs.client.notices + [ConnectedNotice]), true)
  }

  /** `Connect`: true at once when already connected. */
  function Connect(c: Client, attempts: seq<Attempt>): (r: Connection)
    ensures c.connected ==> r == Connection(c, true)
    ensures r.ok <==> r.client.connected
  {
    if c.connected then Connection(c, true) else ConnectFrom(c, attempts, 0)
  }

  /** Both versions agree whenever no handshake write fails. */
  lemma {:induction false} ConnectAgreesWithoutHandshakeFailure(c: Client, attempts: seq<Attempt>, k: nat)
    requires !c.connected
    requires forall j | 0 <= j < |attempts| :: attempts[j] != Opens(false)
    ensures ConnectFromAsWritten(c, attempts, k) == ConnectFrom(c, attempts, k)
    decreases PipeCount - k
  {
    if k < PipeCount {
      match AttemptAt(attempts, k)
      case TimesOut => ConnectAgreesWithoutHandshakeFailure(c.(pipe := Closed), attempts, k + 1);
      case IoFails => ConnectAgreesWithoutHandshakeFailure(c.(pipe := Closed), attempts, k + 1);
      case OtherFails =>
        ConnectAgreesWithoutHandshakeFailure(c.(pipe := Closed, notices := c.notices + [ErrorNotice]), attempts, k + 1);
      case Opens(writeOk) =>
    }
  }

  // ---------------------------------------------------------------------
  // Nonces
  // ---------------------------------------------------------------------

  predicate IsActivity(p: Packet) {
    p.message.SetActivity?
  }

  /** Every nonce sent so far is at most the counter, and nonces increase
      strictly along the sent packets. */
  predicate NoncesOrdered(c: Client) {
    && (forall i | 0 <= i < |c.sent| && IsActivity(c.sent[i]) :: c.sent[i].message.nonce <= c.nonce)
    && (forall i, j | 0 <= i < j < |c.sent| && IsActivity(c.sent[i]) && IsActivity(c.sent[j]) ::
          c.sent[i].message.nonce < c.sent[j].message.nonce)
  }

  lemma NewClientOrdered(id: string)
    ensures NoncesOrdered(NewClient(id))
  {
  }

  lemma SendFreshKeepsOrder(c: Client, p: Packet, writeOk: bool)
    requires NoncesOrdered(c)
    requires IsActivity(p) ==> p.message.nonce == c.nonce
    requires forall i | 0 <= i < |c.sent| && IsActivity(c.sent[i]) :: c.sent[i].message.nonce < c.nonce
    ensures NoncesOrdered(SendPacket(c, p, writeOk).client)
  {
  }

  /** `ClearPresence` sends a nonce larger than every earlier one, as long
      as the counter does not wrap. */
  lemma ClearPresenceKeepsOrder(c: Client, pid: int, writeOk: bool)
    requires NoncesOrdered(c) && c.nonce < MaxInt32
    ensures NoncesOrdered(ClearPresence(c, pid, writeOk))
    ensures ClearPresence(c, pid, writeOk).nonce <= c.nonce + 1
  {
    if c.connected && c.pipe != NoPipe {
      var n := NextNonce(c);
      SendFreshKeepsOrder(c.(nonce := n), Packet(1, SetActivity(pid, None, n)), writeOk);
    }
  }

  lemma DisconnectKeepsOrder(c: Client, pid: int, writeOk: bool)
    requires NoncesOrdered(c) && c.nonce < MaxInt32
    ensures NoncesOrdered(Disconnect(c, pid, writeOk))
    ensures Disconnect(c, pid, writeOk).nonce <= c.nonce + 1
  {
    ClearPresenceKeepsOrder(c, pid, writeOk);
  }

  /** `SetPresence` (together with the disconnect a failed write causes)
      sends nonces larger than every earlier one, as long as the counter
      does not wrap. */
  lemma SetPresenceKeepsOrder(c: Client, p: Presence, pid: int, startSeconds: int, writeOk: bool)
    requires NoncesOrdered(c) && c.nonce + 1 < MaxInt32
    ensures NoncesOrdered(SetPresence(c, p, pid, startSeconds, writeOk))
    ensures SetPresence(c, p, pid, startSeconds, writeOk).nonce <= c.nonce + 2
  {
    if c.connected && c.pipe != NoPipe {
      var n := NextNonce(c);
      var pk := Packet(1, SetActivity(pid, Some(ActivityOf(p, startSeconds)), n));
      SendFreshKeepsOrder(c.(nonce := n), pk, writeOk);
      var s := SendPacket(c.(nonce := n), pk, writeOk);
      if s.threw {
        DisconnectKeepsOrder(s.client.(notices := s.client.notices + [ErrorNotice]), pid, writeOk);
      }
    }
  }

  /** The handshake carries no nonce, so connecting keeps the order. */
  lemma ConnectKeepsOrder(c: Client, attempts: seq<Attempt>)
    requires NoncesOrdered(c)
    ensures NoncesOrdered(Connect(c, attempts).client)
    ensures Connect(c, attempts).client.nonce == c.nonce
  {
  }
}

=== FILE: DualPane.dfy ===
/** DualPaneManager: single- or dual-pane mode, which pane is active, the
    right pane's visibility and width, and the events the manager raises.
    The container width is a parameter of the operations that read it. */
module DualPane {

  datatype Pane = LeftPane | RightPane

  datatype Event =
    | ActivePaneChanged(pane: int)
    | PanePathChangeRequested(pane: int)

  datatype Panes = Panes(
    dual: bool,
    active: int,
    rightVisible: bool,
    splitterVisible: bool,
    rightWidth: int,
    events: seq<Event>)

  /** The manager as its constructor leaves it: single-pane mode, left
      pane active (the constructor's `SetSinglePaneMode` returns at once). */
  const Initial: Panes := Panes(false, 0, false, false, 0, [])

  /** The active pane is 0 or 1, and 1 only in dual-pane mode; the right
      pane and the splitter are shown exactly in dual-pane mode. */
  predicate Valid(s: Panes) {
    && (s.active == 0 || s.active == 1)
    && (s.active == 1 ==> s.dual)
    && s.rightVisible == s.dual
    && s.splitterVisible == s.dual
    && (!s.dual ==> s.rightWidth == 0)
  }

  lemma InitialValid()
    ensures Valid(Initial)
  {
  }

  /** `SetActivePane`: indices outside 0..1, and pane 1 in single-pane
      mode, are ignored; a change of pane raises `ActivePaneChanged`. */
  function SetActivePane(s: Panes, pane: int): (r: Panes)
    ensures Valid(s) ==> Valid(r)
    ensures pane < 0 || pane > 1 || (!s.dual && pane == 1) ==> r == s
    ensures 0 <= pane <= 1 && (s.dual || pane == 0) ==> r.active == pane
    ensures r.dual == s.dual && r.rightWidth == s.rightWidth
    ensures r.events == if r.active != s.active then s.events + [ActivePaneChanged(pane)] else s.events
  {
    if pane < 0 || pane > 1 then s
    else if !s.dual && pane == 1 then s
    else if s.active != pane then s.(active := pane, events := s.events + [ActivePaneChanged(pane)])
    else s
  }

  /** `SetDualPaneMode`: shows the right pane at half the container width
      and asks for a path for it; a no-op in dual-pane mode. */
  function SetDualPaneMode(s: Panes, width: nat): (r: Panes)
    ensures Valid(s) ==> Valid(r)
    ensures r.dual && r.active == s.active
    ensures s.dual ==> r == s
    ensures !s.dual ==> r.rightWidth == width / 2 && r.events == s.events + [PanePathChangeRequested(1)]
  {
    if s.dual then s
    else s.(dual := true, rightWidth := width / 2, rightVisible := true, splitterVisible := true,
            events := s.events + [PanePathChangeRequested(1)])
  }

  /** `SetSinglePaneMode`: hides the right pane and makes the left pane
      active; a no-op in single-pane mode. */
  function SetSinglePaneMode(s: Panes): (r: Panes)
    ensures Valid(s) ==> Valid(r)
    ensures !r.dual
    ensures Valid(s) ==> r.active == 0
    ensures !s.dual ==> r == s
  {
    if !s.dual then s
    else
      var single := s.(dual := false, rightVisible := false, splitterVisible := false, rightWidth := 0);
      if single.active == 1 then SetActivePane(single, 0) else single
  }

  /** `ToggleDualPane`. */
  function ToggleDualPane(s: Panes, width: nat): (r: Panes)
    ensures Valid(s) ==> Valid(r)
    ensures r.dual == !s.dual
  {
    if s.dual then SetSinglePaneMode(s) else SetDualPaneMode(s, width)
  }

  /** Each mode setter is idempotent, and toggling twice from a valid state
      returns to the same mode with the left pane active when it started
      out in dual-pane mode. */
  lemma ModeSettersIdempotent(s: Panes, width: nat, width2: nat)
    requires Valid(s)
    ensures SetDualPaneMode(SetDualPaneMode(s, width), width2) == SetDualPaneMode(s, width)
    ensures SetSinglePaneMode(SetSinglePaneMode(s)) == SetSinglePaneMode(s)
    ensures ToggleDualPane(ToggleDualPane(s, width), width2).dual == s.dual
    ensures s.dual ==> ToggleDualPane(ToggleDualPane(s, width), width2).active == 0
    ensures !s.dual ==> ToggleDualPane(ToggleDualPane(s, width), width2).active == s.active
  {
  }

  /** `SwapPanes`: in dual-pane mode the other pane becomes active. */
  function SwapPanes(s: Panes): (r: Panes)
    ensures Valid(s) ==> Valid(r)
    ensures !s.dual ==> r == s
    ensures Valid(s) && s.dual ==> r.active == 1 - s.active && r.events == s.events + [ActivePaneChanged(r.active)]
  {
    if !s.dual then s
    else SetActivePane(s, if s.active == 0 then 1 else 0)
  }

  /** Swapping twice makes the first pane active again. */
  lemma SwapTwice(s: Panes)
    requires Valid(s)
    ensures SwapPanes(SwapPanes(s)).active == s.active
    ensures SwapPanes(SwapPanes(s)).dual == s.dual
  {
  }

  /** `OnResize`: in dual-pane mode a right pane narrower than 100 pixels
      gets half the container width again. */
  function Resize(s: Panes, width: nat): (r: Panes)
    ensures Valid(s) ==> Valid(r)
    ensures r.(rightWidth := s.rightWidth) == s
    ensures s.dual && s.rightWidth < 100 ==> r.rightWidth == width / 2
  {
    if s.dual && s.rightWidth < 100 then s.(rightWidth := width / 2) else s
  }

  /** `GetActivePanel`. */
  function ActivePanel(s: Panes): Pane {
    if s.active == 0 then LeftPane else RightPane
  }

  /** `GetInactivePanel`. */
  function InactivePanel(s: Panes): Pane {
    if s.active == 0 then RightPane else LeftPane
  }

  /** The active and inactive panels always differ, and in single-pane
      mode the left pane is the active one. */
  lemma PanelsDiffer(s: Panes)
    requires Valid(s)
    ensures ActivePanel(s) != InactivePanel(s)
    ensures !s.dual ==> ActivePanel(s) == LeftPane
    ensures ActivePanel(SwapPanes(s)) == if s.dual then InactivePanel(s) else ActivePanel(s)
  {
  }
}

=== FILE: Enumerator.dfy ===
/** NativeFileEnumerator: listing one directory through the Win32 find
    stream, and the depth-bounded recursive walk built on it.

    `FindFirstFileW`/`FindNextFileW` are replaced by a sequence of find
    entries; the entry of a subdirectory carries that subdirectory's own
    listing, so a `Listing` is a file-system tree. The cancellation callback
    is a `Token`, polled at numbered points: each run records the number of
    polls it made, and for every callback the poll that let it through. */
module Enumerator {
  import opened Common
  import opened Strings

  /** `FileAttributes` flags. */
  const AttrHidden: bv32 := 0x2
  const AttrSystem: bv32 := 0x4
  const AttrDirectory: bv32 := 0x10
  const AttrReparsePoint: bv32 := 0x400

  /** The fields of `WIN32_FIND_DATAW` the enumerator reads; the two file
      times are already converted to ticks. */
  datatype FindData = FindData(
    attributes: bv32,
    sizeHigh: uint32,
    sizeLow: uint32,
    fileName: string,
    lastWrite: Ticks,
    created: Ticks)
  {
    predicate IsDirectory() { attributes & AttrDirectory != 0 }
    predicate IsReparsePoint() { attributes & AttrReparsePoint != 0 }
    predicate IsHiddenSystem() { attributes & AttrHidden != 0 && attributes & AttrSystem != 0 }
    predicate IsDotEntry() { fileName == "." || fileName == ".." }
  }

  /** A directory as the find API sees it: a handle that cannot be opened,
      or the stream of its entries. */
  datatype Listing = Unopenable | Entries(entries: seq<Entry>)
  datatype Entry = Entry(data: FindData, sub: Listing)

  /** One callback: `onFile(fullPath, name, size, lastWrite, created)` or
      `onDirectory(fullPath, name)`. */
  datatype Event =
    | FileFound(fullPath: string, name: string, size: int, lastWrite: Ticks, created: Ticks)
    | DirFound(fullPath: string, name: string)

  /** The callbacks of one enumeration, the poll that preceded each of them,
      the number of the next poll, and whether a poll stopped the loop. */
  datatype Run = Run(events: seq<Event>, stamps: seq<nat>, polls: nat, cancelled: bool)

  const DefaultMaxDepth: int := 50

  /** Every callback of `r` was let through by its own poll, made at or
      after `poll`, that did not see cancellation; polls are in order. */
  predicate WellStamped(r: Run, token: Token, poll: nat) {
    && poll <= r.polls
    && |r.stamps| == |r.events|
    && (forall i | 0 <= i < |r.stamps| :: poll <= r.stamps[i] < r.polls && !token.RequestedAt(r.stamps[i]))
    && (forall i, j | 0 <= i < j < |r.stamps| :: r.stamps[i] < r.stamps[j])
  }

  lemma StampsAppend(a: Run, b: Run, token: Token, poll: nat)
    requires WellStamped(a, token, poll) && WellStamped(b, token, a.polls)
    ensures WellStamped(Run(a.events + b.events, a.stamps + b.stamps, b.polls, b.cancelled), token, poll)
  {
    var s := a.stamps + b.stamps;
    forall i, j | 0 <= i < j < |s|
      ensures s[i] < s[j]
    {
      if j < |a.stamps| {
      } else if i < |a.stamps| {
        assert s[i] < a.polls <= s[j];
      }
    }
  }

  /** `((long)high << 32) | low`: the 64-bit size from its two halves, as a
      signed `long`. */
  function ComposeSize(high: uint32, low: uint32): (size: int)
    ensures -0x8000_0000_0000_0000 <= size < 0x8000_0000_0000_0000
    ensures size >= 0 <==> high < 0x8000_0000
  {
    var u := high * 0x1_0000_0000 + low;
    if u >= 0x8000_0000_0000_0000 then u - 0x1_0000_0000_0000_0000 else u
  }

  /** Splitting a non-negative `long` into its two halves and composing them
      again gives the same size. */
  lemma SizeHalvesRoundTrip(size: int)
    requires 0 <= size < 0x8000_0000_0000_0000
    ensures ComposeSize(size / 0x1_0000_0000, size % 0x1_0000_0000) == size
  {
  }

  /** `path.TrimEnd('\\') + "\\" + fileName`. */
  function JoinPath(dir: string, name: string): (r: string)
    ensures |r| == |TrimEnd(dir, {'\\'})| + 1 + |name|
    ensures r[..|TrimEnd(dir, {'\\'})| + 1] == TrimEnd(dir, {'\\'}) + "\\"
    ensures r[|TrimEnd(dir, {'\\'})| + 1..] == name
  {
    TrimEnd(dir, {'\\'}) + "\\" + name
  }

  /** The callback `EnumerateDirectory` makes for one find entry. */
  function Report(dir: string, d: FindData): seq<Event> {
    if d.IsDotEntry() then []
    else if d.IsDirectory() then
      if d.IsReparsePoint() then [] else [DirFound(JoinPath(dir, d.fileName), d.fileName)]
    else [FileFound(JoinPath(dir, d.fileName), d.fileName, ComposeSize(d.sizeHigh, d.sizeLow), d.lastWrite, d.created)]
  }

  /** Reference: the callbacks for a whole sequence of entries, no cancellation. */
  function ReportAll(dir: string, es: seq<Entry>): seq<Event> {
    if |es| == 0 then [] else Report(dir, es[0].data) + ReportAll(dir, es[1..])
  }

  /** An event that `Report` can produce for some entry of `es`. */
  predicate FromEntry(dir: string, ev: Event, es: seq<Entry>) {
    exists k | 0 <= k < |es| :: es[k].data.fileName == ev.name && FromEntryAt(dir, ev, es, k)
  }

  /** `ev` is the callback `Report` makes for entry `k`. */
  predicate FromEntryAt(dir: string, ev: Event, es: seq<Entry>, k: nat)
    requires k < |es|
  {
    && es[k].data.fileName == ev.name
    && !es[k].data.IsDotEntry()
    && ev.fullPath == JoinPath(dir, ev.name)
    && (ev.DirFound? ==> es[k].data.IsDirectory() && !es[k].data.IsReparsePoint())
    && (ev.FileFound? ==> !es[k].data.IsDirectory()
                          && ev.size == ComposeSize(es[k].data.sizeHigh, es[k].data.sizeLow))
  }

  /** The do/while loop of `EnumerateDirectory`: poll, skip "." and "..",
      report a subdirectory (unless it is a reparse point) or a file. */
  function ScanFlat(dir: string, es: seq<Entry>, token: Token, poll: nat): (r: Run)
    ensures WellStamped(r, token, poll)
    ensures forall ev | ev in r.events :: FromEntry(dir, ev, es)
    ensures r.cancelled ==> r.polls > 0 && token.RequestedAt(r.polls - 1)
    decreases |es|
  {
    if |es| == 0 then Run([], [], poll, false)
    else if token.RequestedAt(poll) then Run([], [], poll + 1, true)
    else
      var rest := ScanFlat(dir, es[1..], token, poll + 1);
      ScanStep(dir, es, token, poll, rest);
      var here := Report(dir, es[0].data);
      Run(here + rest.events, seq(|here|, _ => poll) + rest.stamps, rest.polls, rest.cancelled)
  }

  /** One turn of the loop: the callback for the first entry, stamped with
      the poll that let it through, followed by the rest of the run. */
  lemma ScanStep(dir: string, es: seq<Entry>, token: Token, poll: nat, rest: Run)
    requires |es| > 0 && !token.RequestedAt(poll)
    requires WellStamped(rest, token, poll + 1)
    requires forall ev | ev in rest.events :: FromEntry(dir, ev, es[1..])
    ensures var here := Report(dir, es[0].data);
      var r := Run(here + rest.events, seq(|here|, _ => poll) + rest.stamps, rest.polls, rest.cancelled);
      && WellStamped(r, token, poll)
      && (forall ev | ev in r.events :: FromEntry(dir, ev, es))
  {
    var here := Report(dir, es[0].data);
    forall ev | ev in here
      ensures FromEntry(dir, ev, es)
    {
      assert es[0].data.fileName == ev.name;
    }
    forall ev | ev in rest.events
      ensures FromEntry(dir, ev, es)
    {
      var k :| 0 <= k < |es| - 1 && es[1..][k].data.fileName == ev.name && FromEntryAt(dir, ev, es[1..], k);
      assert es[1..][k] == es[k + 1];
    }
    StampsAppend(Run(here, seq(|here|, _ => poll), poll + 1, false), rest, token, poll);
  }

  /** `EnumerateDirectory(path, onFile, onDirectory, shouldCancel)`. */
  function EnumerateDirectory(path: string, listing: Listing, token: Token, poll: nat): (r: Run)
    ensures WellStamped(r, token, poll)
    ensures path == [] || listing.Unopenable? ==> r.events == [] && r.polls == poll
    ensures listing.Entries? ==> forall ev | ev in r.events :: FromEntry(path, ev, listing.entries)
    ensures forall ev | ev in r.events :: ev.name != "." && ev.name != ".."
  {
    if path == [] then Run([], [], poll, false)
    else match listing
      case Unopenable => Run([], [], poll, false)
      case Entries(es) =>
        var r := ScanFlat(path, es, token, poll);
        assert forall ev | ev in r.events :: ev.name != "." && ev.name != ".." by {
          forall ev | ev in r.events ensures ev.name != "." && ev.name != ".." {
            assert FromEntry(path, ev, es);
          }
        }
        r
  }

  /** How many entries the loop gets through before a poll sees cancellation. */
  function Processed(n: nat, token: Token, poll: nat): (k: nat)
    ensures k <= n
  {
    if token.cancelAfter.Some? && token.cancelAfter.value < poll + n then
      if token.cancelAfter.value <= poll then 0 else token.cancelAfter.value - poll
    else n
  }

  /** The loop reports exactly the entries it got through, in order, and
      stops early exactly when a poll sees cancellation. */
  lemma {:induction false} ScanFlatIsPrefix(dir: string, es: seq<Entry>, token: Token, poll: nat)
    ensures ScanFlat(dir, es, token, poll).events == ReportAll(dir, es[..Processed(|es|, token, poll)])
    ensures ScanFlat(dir, es, token, poll).cancelled <==> Processed(|es|, token, poll) < |es|
    decreases |es|
  {
    if |es| == 0 {
    } else if token.RequestedAt(poll) {
      assert Processed(|es|, token, poll) == 0;
    } else {
      ScanFlatIsPrefix(dir, es[1..], token, poll + 1);
      var k := Processed(|es[1..]|, token, poll + 1);
      assert Processed(|es|, token, poll) == k + 1;
      assert es[..k + 1][1..] == es[1..][..k];
    }
  }

  // ----- the recursive variant -----

  /** A subdirectory the recursive walk queues for descent. */
  predicate Descends(d: FindData, skip: string -> bool) {
    && !d.IsDotEntry()
    && d.IsDirectory()
    && !d.IsReparsePoint()
    && !d.IsHiddenSystem()
    && !skip(d.fileName)
  }

  /** The callback the recursive walk makes for one find entry. */
  function FileReport(dir: string, d: FindData): seq<Event> {
    if d.IsDotEntry() || d.IsDirectory() then []
    else [FileFound(JoinPath(dir, d.fileName), d.fileName, ComposeSize(d.sizeHigh, d.sizeLow), d.lastWrite, d.created)]
  }

  /** The find loop of `EnumerateRecursiveInternal`: files are reported at
      once, subdirectories are only collected. */
  function ScanFiles(dir: string, es: seq<Entry>, token: Token, poll: nat): (r: Run)
    ensures WellStamped(r, token, poll)
    ensures forall ev | ev in r.events :: ev.FileFound? && ev.fullPath == JoinPath(dir, ev.name)
    ensures r.cancelled ==> r.polls > 0 && token.RequestedAt(r.polls - 1)
    decreases |es|
  {
    if |es| == 0 then Run([], [], poll, false)
    else if token.RequestedAt(poll) then Run([], [], poll + 1, true)
    else
      var here := FileReport(dir, es[0].data);
      var rest := ScanFiles(dir, es[1..], token, poll + 1);
      StampsAppend(Run(here, seq(|here|, _ => poll), poll + 1, false), rest, token, poll);
      Run(here + rest.events, seq(|here|, _ => poll) + rest.stamps, rest.polls, rest.cancelled)
  }

  /** `EnumerateRecursiveInternal(path, …, currentDepth, maxDepth)`. */
  function EnumerateRecursive(path: string, listing: Listing, skip: string -> bool, token: Token,
                              depth: int, maxDepth: int, poll: nat): (r: Run)
    ensures WellStamped(r, token, poll)
    ensures depth > maxDepth ==> r.events == [] && r.polls == poll
    ensures forall ev | ev in r.events :: ev.FileFound?
    decreases listing, 1, 0
  {
    if depth > maxDepth then Run([], [], poll, false)
    else if token.RequestedAt(poll) then Run([], [], poll + 1, true)
    else if path == [] then Run([], [], poll + 1, false)
    else match listing
      case Unopenable => Run([], [], poll + 1, false)
      case Entries(es) =>
        var scan := ScanFiles(path, es, token, poll + 1);
        if scan.cancelled then scan
        else
          var sub := Descend(path, listing, skip, token, depth, maxDepth, 0, scan.polls);
          StampsAppend(scan, sub, token, poll);
          Run(scan.events + sub.events, scan.stamps + sub.stamps, sub.polls, sub.cancelled)
  }

  /** The `foreach (var dir in directories)` loop: poll, then recurse one
      level deeper into each collected subdirectory, in find order. */
  function Descend(path: string, listing: Listing, skip: string -> bool, token: Token,
                   depth: int, maxDepth: int, i: nat, poll: nat): (r: Run)
    requires listing.Entries? && i <= |listing.entries|
    ensures WellStamped(r, token, poll)
    ensures forall ev | ev in r.events :: ev.FileFound?
    decreases listing, 0, |listing.entries| - i
  {
    var es := listing.entries;
    if i == |es| then Run([], [], poll, false)
    else if !Descends(es[i].data, skip) then Descend(path, listing, skip, token, depth, maxDepth, i + 1, poll)
    else if token.RequestedAt(poll) then Run([], [], poll + 1, true)
    else
      var child := EnumerateRecursive(JoinPath(path, es[i].data.fileName), es[i].sub, skip, token,
                                      depth + 1, maxDepth, poll + 1);
      var rest := Descend(path, listing, skip, token, depth, maxDepth, i + 1, child.polls);
      StampsAppend(child, rest, token, poll);
      Run(child.events + rest.events, child.stamps + rest.stamps, rest.polls, rest.cancelled)
  }

  /** `EnumerateFilesRecursive(path, onFile, shouldSkipDirectory, shouldCancel, maxDepth)`. */
  function EnumerateFilesRecursive(path: string, listing: Listing, skip: string -> bool, token: Token,
                                   maxDepth: int): (r: Run)
    ensures WellStamped(r, token, 0)
  {
    EnumerateRecursive(path, listing, skip, token, 0, maxDepth, 0)
  }

  /** The tree cut `levels` levels below the current directory: deeper
      directories become unopenable. */
  function Prune(listing: Listing, levels: int): Listing
    decreases listing
  {
    if levels < 0 then Unopenable
    else match listing
      case Unopenable => Unopenable
      case Entries(es) =>
        Entries(seq(|es|, k requires 0 <= k < |es| => Entry(es[k].data, Prune(es[k].sub, levels - 1))))
  }

  lemma {:induction false} ScanFilesSameData(dir: string, a: seq<Entry>, b: seq<Entry>, token: Token, poll: nat)
    requires |a| == |b| && forall k | 0 <= k < |a| :: a[k].data == b[k].data
    ensures ScanFiles(dir, a, token, poll) == ScanFiles(dir, b, token, poll)
    decreases |a|
  {
    if |a| > 0 {
      ScanFilesSameData(dir, a[1..], b[1..], token, poll + 1);
    }
  }

  /** Nothing deeper than `maxDepth` is read: the walk is the same on the
      tree pruned below that depth. */
  lemma {:induction false} DepthBound(path: string, listing: Listing, skip: string -> bool, token: Token,
                                      depth: int, maxDepth: int, poll: nat)
    ensures EnumerateRecursive(path, listing, skip, token, depth, maxDepth, poll)
         == EnumerateRecursive(path, Prune(listing, maxDepth - depth), skip, token, depth, maxDepth, poll)
    decreases listing, 1, 0
  {
    if depth <= maxDepth && !token.RequestedAt(poll) && path != [] && listing.Entries? {
      var es := listing.entries;
      var pruned := Prune(listing, maxDepth - depth);
      ScanFilesSameData(path, es, pruned.entries, token, poll + 1);
      var scan := ScanFiles(path, es, token, poll + 1);
      if !scan.cancelled {
        DescendDepthBound(path, listing, skip, token, depth, maxDepth, 0, scan.polls);
      }
    }
  }

  lemma {:induction false} DescendDepthBound(path: string, listing: Listing, skip: string -> bool, token: Token,
                                             depth: int, maxDepth: int, i: nat, poll: nat)
    requires depth <= maxDepth
    requires listing.Entries? && i <= |listing.entries|
    ensures Prune(listing, maxDepth - depth).Entries?
    ensures Descend(path, listing, skip, token, depth, maxDepth, i, poll)
         == Descend(path, Prune(listing, maxDepth - depth), skip, token, depth, maxDepth, i, poll)
    decreases listing, 0, |listing.entries| - i
  {
    var es := listing.entries;
    var pruned := Prune(listing, maxDepth - depth);
    if i < |es| {
      assert pruned.entries[i].data == es[i].data;
      if !Descends(es[i].data, skip) {
        DescendDepthBound(path, listing, skip, token, depth, maxDepth, i + 1, poll);
      } else if !token.RequestedAt(poll) {
        var name := es[i].data.fileName;
        var child := EnumerateRecursive(JoinPath(path, name), es[i].sub, skip, token, depth + 1, maxDepth, poll + 1);
        DepthBound(JoinPath(path, name), es[i].sub, skip, token, depth + 1, maxDepth, poll + 1);
        assert pruned.entries[i].sub == Prune(es[i].sub, maxDepth - (depth + 1));
        DescendDepthBound(path, listing, skip, token, depth, maxDepth, i + 1, child.polls);
      }
    }
  }

  /** Reference for an uncancelled walk: the files of a directory in find
      order, then the walk of each subdirectory that is descended into. */
  function FilesOf(dir: string, es: seq<Entry>): seq<Event> {
    if |es| == 0 then [] else FileReport(dir, es[0].data) + FilesOf(dir, es[1..])
  }

  function Walk(path: string, listing: Listing, skip: string -> bool, depth: int, maxDepth: int): seq<Event>
    decreases listing, 1, 0
  {
    if depth > maxDepth || path == [] || listing.Unopenable? then []
    else FilesOf(path, listing.entries) + WalkFrom(path, listing, skip, depth, maxDepth, 0)
  }

  function WalkFrom(path: string, listing: Listing, skip: string -> bool, depth: int, maxDepth: int, i: nat): seq<Event>
    requires listing.Entries? && i <= |listing.entries|
    decreases listing, 0, |listing.entries| - i
  {
    var es := listing.entries;
    if i == |es| then []
    else
      (if Descends(es[i].data, skip)
       then Walk(JoinPath(path, es[i].data.fileName), es[i].sub, skip, depth + 1, maxDepth)
       else [])
      + WalkFrom(path, listing, skip, depth, maxDepth, i + 1)
  }

  lemma {:induction false} ScanFilesUncancelled(dir: string, es: seq<Entry>, poll: nat)
    ensures ScanFiles(dir, es, NeverCancelled, poll).events == FilesOf(dir, es)
    ensures !ScanFiles(dir, es, NeverCancelled, poll).cancelled
    decreases |es|
  {
    if |es| > 0 {
      ScanFilesUncancelled(dir, es[1..], poll + 1);
    }
  }

  /** Without cancellation the walk reports every file of the tree down to
      `maxDepth`, each directory's own files before its subdirectories'. */
  lemma {:induction false} UncancelledWalk(path: string, listing: Listing, skip: string -> bool,
                                           depth: int, maxDepth: int, poll: nat)
    ensures EnumerateRecursive(path, listing, skip, NeverCancelled, depth, maxDepth, poll).events
         == Walk(path, listing, skip, depth, maxDepth)
    decreases listing, 1, 0
  {
    if depth <= maxDepth && path != [] && listing.Entries? {
      ScanFilesUncancelled(path, listing.entries, poll + 1);
      var scan := ScanFiles(path, listing.entries, NeverCancelled, poll + 1);
      UncancelledDescend(path, listing, skip, depth, maxDepth, 0, scan.polls);
    }
  }

  lemma {:induction false} UncancelledDescend(path: string, listing: Listing, skip: string -> bool,
                                              depth: int, maxDepth: int, i: nat, poll: nat)
    requires listing.Entries? && i <= |listing.entries|
    ensures Descend(path, listing, skip, NeverCancelled, depth, maxDepth, i, poll).events
         == WalkFrom(path, listing, skip, depth, maxDepth, i)
    decreases listing, 0, |listing.entries| - i
  {
    var es := listing.entries;
    if i < |es| {
      if !Descends(es[i].data, skip) {
        UncancelledDescend(path, listing, skip, depth, maxDepth, i + 1, poll);
      } else {
        var child := EnumerateRecursive(JoinPath(path, es[i].data.fileName), es[i].sub, skip, NeverCancelled,
                                        depth + 1, maxDepth, poll + 1);
        UncancelledWalk(JoinPath(path, es[i].data.fileName), es[i].sub, skip, depth + 1, maxDepth, poll + 1);
        UncancelledDescend(path, listing, skip, depth, maxDepth, i + 1, child.polls);
      }
    }
  }
}

=== FILE: FileList.dfy ===
/** VirtualFileListView: the hidden-item filter and the sort behind the
    item list, the column-header toggle of the sort, the item lookups and
    the "Type" column text.

    `List.Sort` is not stable, so the properties of the sorted list are
    stated for every sorted permutation (`Sorting.Sorted`); the stable
    insertion sort `Sorting.SortBy` is the one the model picks. */
module FileList {
  import opened Common
  import opened Strings
  import opened Sorting
  import Cache

  /** `FileSystemItem`. */
  type Item = Cache.Item

  /** `SortColumn`: the header index of each column. */
  const NameColumn: int := 0
  const DateModifiedColumn: int := 1
  const TypeColumn: int := 2
  const SizeColumn: int := 3

  /** The sign of `CompareTo` on a `DateTime` or a `long`. */
  function CompareValues(x: int, y: int): int {
    if x < y then -1 else if x > y then 1 else 0
  }

  /** The `switch` on the sort column; any other value sorts by name. */
  function KeyCompare(column: int, a: Item, b: Item): int {
    if column == DateModifiedColumn then CompareValues(a.lastModified, b.lastModified)
    else if column == TypeColumn then CompareIgnoreCase(a.extension, b.extension)
    else if column == SizeColumn then CompareValues(a.size, b.size)
    else CompareIgnoreCase(a.name, b.name)
  }

  lemma KeyCompareSwap(column: int, a: Item, b: Item)
    ensures KeyCompare(column, b, a) == -KeyCompare(column, a, b)
  {
    CompareOrdinalSwap(Upper(a.extension), Upper(b.extension));
    CompareOrdinalSwap(Upper(a.name), Upper(b.name));
  }

  lemma KeyCompareTransitive(column: int, a: Item, b: Item, c: Item)
    requires KeyCompare(column, a, b) <= 0 && KeyCompare(column, b, c) <= 0
    ensures KeyCompare(column, a, c) <= 0
  {
    if column == TypeColumn {
      CompareOrdinalTransitive(Upper(a.extension), Upper(b.extension), Upper(c.extension));
    } else if column != DateModifiedColumn && column != SizeColumn {
      CompareOrdinalTransitive(Upper(a.name), Upper(b.name), Upper(c.name));
    }
  }

  /** The comparison `FilterAndSort` hands to `List.Sort`: directories
      before files, then the column key, negated when descending. */
  function CompareItems(column: int, ascending: bool, a: Item, b: Item): int {
    if a.isDirectory != b.isDirectory then (if a.isDirectory then -1 else 1)
    else if ascending then KeyCompare(column, a, b)
    else -KeyCompare(column, a, b)
  }

  function Order(column: int, ascending: bool): (Item, Item) -> bool {
    (a: Item, b: Item) => CompareItems(column, ascending, a, b) <= 0
  }

  /** The comparison is consistent, whatever the column and direction. */
  lemma OrderIsPreorder(column: int, ascending: bool)
    ensures TotalPreorder(Order(column, ascending))
  {
    var le := Order(column, ascending);
    forall a: Item, b: Item
      ensures le(a, b) || le(b, a)
    {
      KeyCompareSwap(column, a, b);
    }
    forall a: Item, b: Item, c: Item | le(a, b) && le(b, c)
      ensures le(a, c)
    {
      if a.isDirectory == b.isDirectory == c.isDirectory {
        if ascending {
          KeyCompareTransitive(column, a, b, c);
        } else {
          KeyCompareSwap(column, a, b);
          KeyCompareSwap(column, b, c);
          KeyCompareSwap(column, a, c);
          KeyCompareTransitive(column, c, b, a);
        }
      }
    }
  }

  predicate Visible(x: Item) {
    !x.IsHidden()
  }

  /** `FilterAndSort`: drops hidden items unless they are shown, then sorts. */
  function FilterAndSort(items: seq<Item>, column: int, ascending: bool, showHidden: bool): (r: seq<Item>)
    ensures !showHidden ==> forall k | 0 <= k < |r| :: !r[k].IsHidden()
    ensures forall x :: multiset(r)[x] == if !showHidden && x.IsHidden() then 0 else multiset(items)[x]
    ensures Sorted(r, Order(column, ascending))
  {
    var kept := if showHidden then items else Filter(items, Visible);
    FilterMultiset(items, Visible);
    OrderIsPreorder(column, ascending);
    SortBySorted(kept, Order(column, ascending));
    var r := SortBy(kept, Order(column, ascending));
    assert forall k | 0 <= k < |r| :: r[k] in multiset(kept);
    r
  }

  /** In any sorted list every directory comes before every file. */
  lemma DirectoriesFirst(r: seq<Item>, column: int, ascending: bool)
    requires Sorted(r, Order(column, ascending))
    ensures forall i, j | 0 <= i < j < |r| && r[j].isDirectory :: r[i].isDirectory
  {
    forall i, j | 0 <= i < j < |r| && r[j].isDirectory
      ensures r[i].isDirectory
    {
      assert Order(column, ascending)(r[i], r[j]);
    }
  }

  /** Within the directories and within the files, the column key rises
      (ascending) or falls (descending). */
  lemma GroupsOrderedByKey(r: seq<Item>, column: int, ascending: bool)
    requires Sorted(r, Order(column, ascending))
    ensures forall i, j | 0 <= i < j < |r| && r[i].isDirectory == r[j].isDirectory ::
      if ascending then KeyCompare(column, r[i], r[j]) <= 0 else KeyCompare(column, r[i], r[j]) >= 0
  {
    forall i, j | 0 <= i < j < |r| && r[i].isDirectory == r[j].isDirectory
      ensures if ascending then KeyCompare(column, r[i], r[j]) <= 0 else KeyCompare(column, r[i], r[j]) >= 0
    {
      assert Order(column, ascending)(r[i], r[j]);
    }
  }

  /** `_items`, `_sortColumn`, `_sortAscending` and `_showHiddenFiles`. */
  datatype View = View(items: seq<Item>, column: int, ascending: bool, showHidden: bool)

  const Initial: View := View([], NameColumn, true, false)

  /** The list is sorted for the current column and direction, and holds no
      hidden item unless hidden items are shown. */
  predicate Valid(v: View) {
    && Sorted(v.items, Order(v.column, v.ascending))
    && (!v.showHidden ==> forall k | 0 <= k < |v.items| :: !v.items[k].IsHidden())
  }

  /** `SetItems`. */
  function SetItems(v: View, items: seq<Item>): (r: View)
    ensures Valid(r)
    ensures r.column == v.column && r.ascending == v.ascending && r.showHidden == v.showHidden
  {
    v.(items := FilterAndSort(items, v.column, v.ascending, v.showHidden))
  }

  /** `AddItems`: the new items join the old ones and the whole list is
      filtered and sorted again. */
  function AddItems(v: View, items: seq<Item>): (r: View)
    ensures Valid(r)
    ensures forall x: Item | v.showHidden || !x.IsHidden() ::
      multiset(r.items)[x] == multiset(v.items)[x] + multiset(items)[x]
  {
    SetItems(v, v.items + items)
  }

  /** Re-sorting a valid list keeps exactly its items. */
  lemma {:induction false} RefreshKeepsItems(v: View, column: int, ascending: bool, showHidden: bool)
    ensures Valid(v) && (!v.showHidden || showHidden) ==>
      multiset(FilterAndSort(v.items, column, ascending, showHidden)) == multiset(v.items)
  {
    if Valid(v) && (!v.showHidden || showHidden) {
      var r := FilterAndSort(v.items, column, ascending, showHidden);
      forall x
        ensures multiset(r)[x] == multiset(v.items)[x]
      {
        if !showHidden && x.IsHidden() {
          assert x !in v.items;
        }
      }
      assert multiset(r) == multiset(v.items);
    }
  }

  /** The `ShowHiddenFiles` setter: it re-sorts the current items, so items
      already filtered out do not come back when hidden items are shown. */
  function SetShowHidden(v: View, show: bool): (r: View)
    ensures Valid(r) && r.showHidden == show
    ensures Valid(v) && show ==> multiset(r.items) == multiset(v.items)
  {
    var w := v.(showHidden := show);
    RefreshKeepsItems(v, v.column, v.ascending, show);
    SetItems(w, w.items)
  }

  /** `OnColumnClick`: the current column flips its direction, another
      column is sorted ascending; the items are re-sorted. */
  function ColumnClick(v: View, column: int): (r: View)
    ensures Valid(r) && r.column == column && r.showHidden == v.showHidden
    ensures v.column == column ==> r.ascending == !v.ascending
    ensures v.column != column ==> r.ascending
    ensures Valid(v) ==> multiset(r.items) == multiset(v.items)
  {
    var w := if v.column == column then v.(ascending := !v.ascending) else v.(column := column, ascending := true);
    RefreshKeepsItems(v, w.column, w.ascending, w.showHidden);
    SetItems(w, w.items)
  }

  /** Two clicks on the same header restore the direction and keep the
      items; two clicks on a new header leave it sorted descending. */
  lemma ColumnClickTwice(v: View, column: int)
    requires Valid(v)
    ensures var r := ColumnClick(ColumnClick(v, column), column);
      && multiset(r.items) == multiset(v.items)
      && r.column == column
      && r.ascending == (if v.column == column then v.ascending else false)
  {
  }

  /** `GetItemAt`: null outside the list. */
  function GetItemAt(v: View, index: int): (r: Option<Item>)
    ensures r.Some? <==> 0 <= index < |v.items|
    ensures r.Some? ==> r.value == v.items[index]
  {
    if 0 <= index < |v.items| then Some(v.items[index]) else None
  }

  /** `GetSelectedItems`: the items at the selected indices, in the order
      the indices are listed, skipping indices outside the list. */
  function GetSelectedItems(v: View, indices: seq<int>): (r: seq<Item>)
    ensures |r| <= |indices|
    ensures forall x | x in r :: x in v.items
    ensures (forall k | 0 <= k < |indices| :: GetItemAt(v, indices[k]).Some?) ==>
      |r| == |indices| && forall k | 0 <= k < |r| :: r[k] == v.items[indices[k]]
    ensures (forall k | 0 <= k < |indices| :: GetItemAt(v, indices[k]).None?) ==> r == []
  {
    if indices == [] then []
    else
      var rest := GetSelectedItems(v, indices[1..]);
      if 0 <= indices[0] < |v.items| then [v.items[indices[0]]] + rest else rest
  }

  /** `GetFileType`: "File" for no extension, otherwise the extension
      without its leading dots, upper-cased, then " File". */
  function GetFileType(extension: string): (r: string)
    ensures extension == [] <==> r == "File"
    ensures extension != [] ==> |r| >= 5 && r[|r| - 5..] == " File"
    ensures extension != [] ==> forall k | 0 <= k < |r| - 5 :: !('a' <= r[k] <= 'z')
  {
    if extension == [] then "File"
    else Upper(TrimStart(extension, {'.'})) + " File"
  }

  lemma UpperOfLower(s: string)
    ensures Upper(Lower(s)) == Upper(s)
  {
  }

  /** The type text ignores the case of the extension and its leading dots. */
  lemma GetFileTypeNormalises(extension: string)
    requires extension != []
    ensures GetFileType(Lower(extension)) == GetFileType(extension)
    ensures GetFileType("." + extension) == GetFileType(extension)
  {
    var t := TrimStart(extension, {'.'});
    assert TrimStart("." + extension, {'.'}) == t by {
      assert ("." + extension)[1..] == extension;
    }
    assert TrimStart(Lower(extension), {'.'}) == Lower(t) by {
      LowerTrimStartDots(extension);
    }
    UpperOfLower(t);
  }

  lemma {:induction false} LowerTrimStartDots(s: string)
    ensures TrimStart(Lower(s), {'.'}) == Lower(TrimStart(s, {'.'}))
  {
    if s != [] && s[0] == '.' {
      assert Lower(s)[1..] == Lower(s[1..]);
      LowerTrimStartDots(s[1..]);
    }
  }
}

=== FILE: Icons.dfy ===
/** `Icons.GetFileIcon`: the icon shown for a file extension. */
module Icons {
  import opened Strings

  /** The category an extension falls into; each shows as one of the
      `Icons` strings. */
  datatype Kind = File | Image | Video | Audio | Archive | Code | Text | Pdf | Excel | Word | Exe

  /** The `Icons` string for a category. */
  function Glyph(k: Kind): string {
    match k
    case File => "[F]"
    case Image => "[I]"
    case Video => "[V]"
    case Audio => "[A]"
    case Archive => "[Z]"
    case Code => "[C]"
    case Text => "[T]"
    case Pdf => "[P]"
    case Excel => "[X]"
    case Word => "[W]"
    case Exe => "[E]"
  }

  const ImageExtensions: seq<string> := ["jpg", "jpeg", "png", "gif", "bmp", "ico", "svg", "webp"]
  const VideoExtensions: seq<string> := ["mp4", "avi", "mkv", "mov", "wmv", "flv", "webm"]
  const AudioExtensions: seq<string> := ["mp3", "wav", "flac", "aac", "ogg", "wma", "m4a"]
  const ArchiveExtensions: seq<string> := ["zip", "rar", "7z", "tar", "gz", "bz2"]
  const CodeExtensions: seq<string> :=
    ["cs", "js", "ts", "py", "java", "cpp", "c", "h", "html", "css", "json", "xml", "yaml", "yml"]
  const TextExtensions: seq<string> := ["txt", "log", "md", "rtf"]
  const PdfExtensions: seq<string> := ["pdf"]
  const ExcelExtensions: seq<string> := ["xls", "xlsx", "csv"]
  const WordExtensions: seq<string> := ["doc", "docx"]
  const ExeExtensions: seq<string> := ["exe", "msi", "bat", "cmd", "ps1"]

  /** The key the `switch` looks at: lower-cased, leading dots removed. */
  function Key(extension: string): string {
    TrimStart(Lower(extension), {'.'})
  }

  /** The `switch` on the key. */
  function IconForKey(key: string): Kind {
    if key in ImageExtensions then Image
    else if key in VideoExtensions then Video
    else if key in AudioExtensions then Audio
    else if key in ArchiveExtensions then Archive
    else if key in CodeExtensions then Code
    else if key in TextExtensions then Text
    else if key in PdfExtensions then Pdf
    else if key in ExcelExtensions then Excel
    else if key in WordExtensions then Word
    else if key in ExeExtensions then Exe
    else File
  }

  /** The extensions some `case` of the switch names. */
  predicate Listed(key: string) {
    || key in ImageExtensions || key in VideoExtensions || key in AudioExtensions
    || key in ArchiveExtensions || key in CodeExtensions || key in TextExtensions
    || key in PdfExtensions || key in ExcelExtensions || key in WordExtensions
    || key in ExeExtensions
  }

  /** The switch falls through to `default` exactly for unlisted keys. */
  lemma IconForKeyFile(key: string)
    ensures IconForKey(key) == File <==> !Listed(key)
  {
  }

  /** `GetFileIcon`: the plain file icon for no extension or an unlisted one. */
  function GetFileIcon(extension: string): (icon: Kind)
    ensures icon == File <==> extension == [] || !Listed(Key(extension))
  {
    if extension == [] then File
    else
      IconForKeyFile(Key(extension));
      IconForKey(Key(extension))
  }

  /** The lookup ignores case and leading dots. */
  lemma GetFileIconNormalises(extension: string)
    requires extension != []
    ensures GetFileIcon(Lower(extension)) == GetFileIcon(extension)
    ensures GetFileIcon("." + extension) == GetFileIcon(extension)
  {
    LowerIdempotent(extension);
    LowerAppend(".", extension);
    assert Lower(".") == ".";
    assert (Lower(".") + Lower(extension))[1..] == Lower(extension);
  }

  /** Lower-case letters and digits only: what every table entry is. */
  predicate Plain(e: string) {
    forall i | 0 <= i < |e| :: e[i] != '.' && !('A' <= e[i] <= 'Z')
  }

  /** A plain extension is its own key. */
  lemma KeyOfPlain(e: string)
    requires e != [] && Plain(e)
    ensures Key(e) == e
  {
    assert Lower(e) == e;
  }

  /** Every extension in the image group is shown as an image, in any case
      and with a leading dot. */
  lemma ImageGroup(e: string)
    requires e in ImageExtensions
    ensures GetFileIcon(e) == Image && GetFileIcon("." + Upper(e)) == Image
  {
    KeyOfPlain(e);
    assert Lower(Upper(e)) == e;
    GetFileIconNormalises(Upper(e));
  }

  /** Every extension in the video group is shown as a video. */
  lemma VideoGroup(e: string)
    requires e in VideoExtensions
    ensures GetFileIcon(e) == Video
  {
    KeyOfPlain(e);
  }

  /** Every extension in the archive group is shown as an archive. */
  lemma ArchiveGroup(e: string)
    requires e in ArchiveExtensions
    ensures GetFileIcon(e) == Archive
  {
    KeyOfPlain(e);
    ArchiveNotEarlier(e);
  }

  /** No earlier case of the switch names an archive extension. */
  lemma ArchiveNotEarlier(e: string)
    requires e in ArchiveExtensions
    ensures e !in ImageExtensions && e !in VideoExtensions && e !in AudioExtensions
  {
  }

  /** pdf is shown as a PDF. */
  lemma PdfGroup()
    ensures GetFileIcon("pdf") == Pdf
  {
    KeyOfPlain("pdf");
    PdfNotEarlier();
  }

  /** No earlier case of the switch names pdf. */
  lemma PdfNotEarlier()
    ensures "pdf" !in ImageExtensions && "pdf" !in VideoExtensions && "pdf" !in AudioExtensions
    ensures "pdf" !in ArchiveExtensions && "pdf" !in CodeExtensions && "pdf" !in TextExtensions
  {
    assert "pdf" !in ImageExtensions && "pdf" !in VideoExtensions && "pdf" !in AudioExtensions;
  }

  /** Every extension in the audio group is shown as an audio file. */
  lemma AudioGroup(e: string)
    requires e in AudioExtensions
    ensures GetFileIcon(e) == Audio
  {
    KeyOfPlain(e);
    AudioNotEarlier(e);
  }

  /** No earlier case of the switch names a audio extension. */
  lemma AudioNotEarlier(e: string)
    requires e in AudioExtensions
    ensures e !in ImageExtensions && e !in VideoExtensions
  {
  }

  /** Every extension in the code group is shown as source code. */
  lemma CodeGroup(e: string)
    requires e in CodeExtensions
    ensures GetFileIcon(e) == Code
  {
    KeyOfPlain(e);
    CodeNotEarlier(e);
  }

  /** No earlier case of the switch names a code extension. */
  lemma CodeNotEarlier(e: string)
    requires e in CodeExtensions
    ensures e !in ImageExtensions && e !in VideoExtensions && e !in AudioExtensions && e !in ArchiveExtensions
  {
    CodeNotMedia(e);
  }

  lemma CodeNotMedia(e: string)
    requires e in CodeExtensions
    ensures e !in ImageExtensions && e !in VideoExtensions
  {
  }

  /** Every extension in the text group is shown as text. */
  lemma TextGroup(e: string)
    requires e in TextExtensions
    ensures GetFileIcon(e) == Text
  {
    KeyOfPlain(e);
    TextNotEarlier(e);
  }

  /** No earlier case of the switch names a text extension. */
  lemma TextNotEarlier(e: string)
    requires e in TextExtensions
    ensures e !in ImageExtensions && e !in VideoExtensions && e !in AudioExtensions && e !in ArchiveExtensions && e !in CodeExtensions
  {
  }

  /** Every extension in the excel group is shown as a spreadsheet. */
  lemma ExcelGroup(e: string)
    requires e in ExcelExtensions
    ensures GetFileIcon(e) == Excel
  {
    KeyOfPlain(e);
    ExcelNotEarlier(e);
  }

  /** No earlier case of the switch names a excel extension. */
  lemma ExcelNotEarlier(e: string)
    requires e in ExcelExtensions
    ensures e !in ImageExtensions && e !in VideoExtensions && e !in AudioExtensions && e !in ArchiveExtensions && e !in CodeExtensions && e !in TextExtensions && e !in PdfExtensions
  {
  }

  /** Every extension in the word group is shown as a Word document. */
  lemma WordGroup(e: string)
    requires e in WordExtensions
    ensures GetFileIcon(e) == Word
  {
    KeyOfPlain(e);
    WordNotEarlier(e);
  }

  /** No earlier case of the switch names a word extension. */
  lemma WordNotEarlier(e: string)
    requires e in WordExtensions
    ensures e !in ImageExtensions && e !in VideoExtensions && e !in AudioExtensions && e !in ArchiveExtensions && e !in CodeExtensions && e !in TextExtensions && e !in PdfExtensions && e !in ExcelExtensions
  {
  }

  /** Every extension in the exe group is shown as an executable. */
  lemma ExeGroup(e: string)
    requires e in ExeExtensions
    ensures GetFileIcon(e) == Exe
  {
    KeyOfPlain(e);
    ExeNotEarlier(e);
  }

  /** No earlier case of the switch names a exe extension. */
  lemma ExeNotEarlier(e: string)
    requires e in ExeExtensions
    ensures e !in ImageExtensions && e !in VideoExtensions && e !in AudioExtensions && e !in ArchiveExtensions && e !in CodeExtensions && e !in TextExtensions && e !in PdfExtensions && e !in ExcelExtensions && e !in WordExtensions
  {
  }
}

=== FILE: Indexer.dfy ===
/** FileIndexer: the 16-way partitioned index of file records, the
    visited-directory set, the crawler's batching and the term search.

    The worker pool is modelled as one sequential worker whose loop body is
    `WorkerStep`; each partition is a sequence of records in insertion order,
    keyed case-insensitively by full path. */
module Indexer {
  import opened Common
  import opened Strings
  import opened StringLemmas
  import opened Enumerator

  const PartitionCount: nat := 16
  const BatchSize: nat := 5000
  const ProgressInterval: nat := 500000
  /** Only this many leading characters of a path enter its partition hash. */
  const HashedPrefix: nat := 64

  /** `IndexedFile`. */
  datatype IndexedFile = IndexedFile(
    fullPath: string,
    name: string,
    nameLower: string,
    extension: string,
    size: int,
    lastModified: Ticks,
    created: Ticks)

  // ----- partition choice -----

  /** The unchecked 31-based hash over lower-cased characters, seeded
      with 17: the value after the last character of `s`. */
  function HashOf(s: string): (h: int)
    ensures -0x8000_0000 <= h < 0x8000_0000
  {
    if |s| == 0 then 17
    else Wrap32(HashOf(s[..|s| - 1]) * 31 + LowerChar(s[|s| - 1]) as int)
  }

  function Min(a: int, b: int): int {
    if a <= b then a else b
  }

  /** `GetPartitionIndex`: `hash & 0x7FFFFFFF` clears the sign bit of the
      32-bit hash, which for a two's-complement value is the Euclidean
      remainder modulo 2^31. */
  function PartitionIndex(path: string): (p: nat)
    ensures p < PartitionCount
  {
    (HashOf(path[..Min(|path|, HashedPrefix)]) % 0x8000_0000) % PartitionCount
  }

  lemma {:induction false} HashIgnoresCase(a: string, b: string)
    requires Lower(a) == Lower(b)
    ensures HashOf(a) == HashOf(b)
    decreases |a|
  {
    if |a| > 0 {
      assert |a| == |Lower(a)| == |b|;
      LowerPrefix(a, |a| - 1);
      LowerPrefix(b, |b| - 1);
      HashIgnoresCase(a[..|a| - 1], b[..|b| - 1]);
      assert LowerChar(a[|a| - 1]) == Lower(a)[|a| - 1] == LowerChar(b[|b| - 1]);
    }
  }

  /** The partition depends only on the lower-cased first 64 characters,
      so paths equal ignoring case always share a partition. */
  lemma PartitionIgnoresCase(a: string, b: string)
    requires |a| == |b| || (|a| >= HashedPrefix && |b| >= HashedPrefix)
    requires Lower(a[..Min(|a|, HashedPrefix)]) == Lower(b[..Min(|b|, HashedPrefix)])
    ensures PartitionIndex(a) == PartitionIndex(b)
  {
    HashIgnoresCase(a[..Min(|a|, HashedPrefix)], b[..Min(|b|, HashedPrefix)]);
  }

  lemma SameKeySamePartition(a: string, b: string)
    requires EqualsIgnoreCase(a, b)
    ensures PartitionIndex(a) == PartitionIndex(b)
  {
    assert |a| == |Lower(a)| == |b|;
    var k := Min(|a|, HashedPrefix);
    LowerPrefix(a, k);
    LowerPrefix(b, k);
    PartitionIgnoresCase(a, b);
  }

  // ----- the skip list and the extension rule -----

  /** Directory names the crawler never enters, compared ignoring case. */
  const SkippedNames: seq<string> := [
    "Windows", "Recovery", "PerfLogs", "Config.Msi", "ProgramData",
    "$RECYCLE.BIN", "System Volume Information"]

  /** `ShouldSkipDirectoryFast`: a switch on the length, then a
      case-insensitive comparison with the names of that length. */
  predicate ShouldSkipDirectory(name: string) {
    if |name| == 0 then true
    else if name[0] == '$' || name[0] == '.' then true
    else match |name|
      case 7 => EqualsIgnoreCase(name, "Windows")
      case 8 => EqualsIgnoreCase(name, "Recovery") || EqualsIgnoreCase(name, "PerfLogs")
      case 10 => EqualsIgnoreCase(name, "Config.Msi")
      case 11 => EqualsIgnoreCase(name, "ProgramData")
      case 12 => EqualsIgnoreCase(name, "$RECYCLE.BIN")
      case 25 => EqualsIgnoreCase(name, "System Volume Information")
      case _ => false
  }

  /** The switch skips exactly the empty name, names starting with '$' or
      '.', and the listed names in any letter case. */
  lemma SkipDirectoryIff(name: string)
    ensures ShouldSkipDirectory(name)
        <==> name == [] || name[0] == '$' || name[0] == '.'
             || exists k | 0 <= k < |SkippedNames| :: EqualsIgnoreCase(name, SkippedNames[k])
  {
    if name != [] && name[0] != '$' && name[0] != '.' {
      if ShouldSkipDirectory(name) {
        if |name| == 7 {
          assert EqualsIgnoreCase(name, SkippedNames[0]);
        } else if |name| == 8 {
          assert EqualsIgnoreCase(name, SkippedNames[1]) || EqualsIgnoreCase(name, SkippedNames[2]);
        } else if |name| == 10 {
          assert EqualsIgnoreCase(name, SkippedNames[3]);
        } else if |name| == 11 {
          assert EqualsIgnoreCase(name, SkippedNames[4]);
        } else if |name| == 12 {
          assert EqualsIgnoreCase(name, SkippedNames[5]);
        } else {
          assert EqualsIgnoreCase(name, SkippedNames[6]);
        }
      }
      if exists k | 0 <= k < |SkippedNames| :: EqualsIgnoreCase(name, SkippedNames[k]) {
        var k :| 0 <= k < |SkippedNames| && EqualsIgnoreCase(name, SkippedNames[k]);
        assert |name| == |Lower(name)| == |Lower(SkippedNames[k])| == |SkippedNames[k]|;
      }
    }
  }

  /** The extension the crawler records for a file name: the lower-cased
      suffix from the last '.', when that dot is neither the first nor the
      last character; otherwise "". */
  function CrawlerExtension(name: string): (ext: string)
    ensures ext != [] <==> 0 < LastIndexOfChar(name, '.') < |name| - 1
    ensures ext != [] ==> ext == Lower(name[LastIndexOfChar(name, '.')..])
  {
    var lastDot := LastIndexOfChar(name, '.');
    if 0 < lastDot < |name| - 1 then Lower(name[lastDot..]) else ""
  }

  /** The extensions pre-cached by the constructor; all already lower-case. */
  const CommonExtensions: seq<string> := [
    ".txt", ".dll", ".exe", ".log", ".xml", ".json", ".cs", ".js",
    ".html", ".css", ".png", ".jpg", ".gif", ".pdf", ".doc", ".docx", ".xls", ".xlsx",
    ".zip", ".rar", ".mp3", ".mp4", ".wav", ".avi", ".mkv", ".ini", ".cfg", ".dat",
    ".sys", ".tmp", ".bak", ".old", ".pdb", ".cache", ".db", ".sqlite", ".md", ""]

  /** The case-insensitive extension cache, keyed by the lower-cased key. */
  type ExtCache = map<string, string>

  /** Every cached value is its own (lower-cased) key. */
  predicate ExtCacheValid(c: ExtCache) {
    forall k | k in c :: c[k] == k
  }

  function InitialExtCache(): (c: ExtCache)
    ensures ExtCacheValid(c)
  {
    map e | e in CommonExtensions :: e
  }

  /** `InternExtension`: `GetOrAdd` with `ToLowerInvariant` as the factory. */
  function InternExtension(c: ExtCache, ext: string): (r: (ExtCache, string))
    requires ExtCacheValid(c)
    ensures ExtCacheValid(r.0)
    ensures r.1 == Lower(ext)
    ensures c.Keys <= r.0.Keys
  {
    if ext == [] then (c, "")
    else if Lower(ext) in c then (c, c[Lower(ext)])
    else (c[Lower(ext) := Lower(ext)], Lower(ext))
  }

  // ----- the partitioned map -----

  type Partitions = seq<seq<IndexedFile>>

  /** The records of all partitions, partition 0 first. */
  function Flatten(parts: Partitions): seq<IndexedFile> {
    if |parts| == 0 then [] else parts[0] + Flatten(parts[1..])
  }

  lemma {:induction false} FlattenUpdate(parts: Partitions, p: nat, x: seq<IndexedFile>)
    requires p < |parts|
    ensures |Flatten(parts[p := x])| == |Flatten(parts)| - |parts[p]| + |x|
    decreases |parts|
  {
    if p > 0 {
      assert parts[p := x][1..] == parts[1..][p - 1 := x];
      FlattenUpdate(parts[1..], p - 1, x);
    }
  }

  lemma {:induction false} FlattenMember(parts: Partitions, f: IndexedFile)
    ensures f in Flatten(parts) <==> exists p | 0 <= p < |parts| :: f in parts[p]
    decreases |parts|
  {
    if |parts| > 0 {
      FlattenMember(parts[1..], f);
      if exists p | 0 <= p < |parts| :: f in parts[p] {
        var p :| 0 <= p < |parts| && f in parts[p];
        if p > 0 {
          assert f in parts[1..][p - 1];
        }
      }
    }
  }

  predicate KeyIn(part: seq<IndexedFile>, path: string) {
    exists i | 0 <= i < |part| :: EqualsIgnoreCase(part[i].fullPath, path)
  }

  /** Some record of the index has this path, ignoring case. */
  predicate Indexed(parts: Partitions, path: string) {
    exists p | 0 <= p < |parts| :: KeyIn(parts[p], path)
  }

  /** Every record sits in the partition its path hashes to. */
  predicate Placed(parts: Partitions) {
    forall p, i | 0 <= p < |parts| && 0 <= i < |parts[p]| :: PartitionIndex(parts[p][i].fullPath) == p
  }

  /** No partition holds two records whose paths are equal ignoring case. */
  predicate UniqueKeys(parts: Partitions) {
    forall p, i, j | 0 <= p < |parts| && 0 <= i < j < |parts[p]| ::
      !EqualsIgnoreCase(parts[p][i].fullPath, parts[p][j].fullPath)
  }

  /** Placement makes per-partition uniqueness global: two records anywhere
      in the index never share a path, ignoring case. */
  lemma GloballyUnique(parts: Partitions, p: nat, i: nat, q: nat, j: nat)
    requires Placed(parts) && UniqueKeys(parts)
    requires p < |parts| && i < |parts[p]| && q < |parts| && j < |parts[q]|
    requires (p, i) != (q, j)
    ensures !EqualsIgnoreCase(parts[p][i].fullPath, parts[q][j].fullPath)
  {
    if p != q {
      if EqualsIgnoreCase(parts[p][i].fullPath, parts[q][j].fullPath) {
        SameKeySamePartition(parts[p][i].fullPath, parts[q][j].fullPath);
      }
    } else if j < i {
      assert !EqualsIgnoreCase(parts[p][j].fullPath, parts[p][i].fullPath);
    }
  }

  /** The shape the index always keeps. */
  predicate WellFormed(parts: Partitions) {
    |parts| == PartitionCount && Placed(parts) && UniqueKeys(parts)
  }

  lemma IndexedInOwnPartition(parts: Partitions, path: string)
    requires WellFormed(parts)
    ensures Indexed(parts, path) <==> KeyIn(parts[PartitionIndex(path)], path)
  {
    if Indexed(parts, path) {
      var q, i :| 0 <= q < |parts| && 0 <= i < |parts[q]| && EqualsIgnoreCase(parts[q][i].fullPath, path);
      SameKeySamePartition(parts[q][i].fullPath, path);
    }
  }

  /** `TryAdd` of one record into the partition its path hashes to: the
      record goes in exactly when no record of the index has its path. */
  function AddFile(parts: Partitions, f: IndexedFile): (r: (Partitions, bool))
    requires WellFormed(parts)
    ensures WellFormed(r.0)
    ensures r.1 <==> !Indexed(parts, f.fullPath)
    ensures Indexed(r.0, f.fullPath)
    ensures r.1 ==> r.0 == parts[PartitionIndex(f.fullPath) := parts[PartitionIndex(f.fullPath)] + [f]]
    ensures !r.1 ==> r.0 == parts
  {
    var p := PartitionIndex(f.fullPath);
    IndexedInOwnPartition(parts, f.fullPath);
    if KeyIn(parts[p], f.fullPath) then (parts, false)
    else
      var parts' := parts[p := parts[p] + [f]];
      assert KeyIn(parts'[p], f.fullPath) by {
        assert parts'[p][|parts[p]|] == f;
      }
      assert UniqueKeys(parts') by {
        forall q, i, j | 0 <= q < |parts'| && 0 <= i < j < |parts'[q]|
          ensures !EqualsIgnoreCase(parts'[q][i].fullPath, parts'[q][j].fullPath)
        {
          if q == p && j == |parts[p]| {
            assert parts'[q][i] == parts[p][i];
          }
        }
      }
      (parts', true)
  }

  /** The records of a batch added in order, with the number that went in. */
  function AddAll(parts: Partitions, batch: seq<IndexedFile>): (r: (Partitions, nat))
    requires WellFormed(parts)
    ensures WellFormed(r.0)
    ensures r.1 <= |batch|
    ensures |Flatten(r.0)| == |Flatten(parts)| + r.1
    decreases |batch|
  {
    if |batch| == 0 then (parts, 0)
    else
      var step := AddFile(parts, batch[0]);
      var p := PartitionIndex(batch[0].fullPath);
      var _ := if step.1 then FlattenUpdate(parts, p, parts[p] + [batch[0]]); 0 else 0;
      var rest := AddAll(step.0, batch[1..]);
      (rest.0, (if step.1 then 1 else 0) + rest.1)
  }

  /** One `TryAdd` only appends, and only the record itself. */
  lemma AddFileAppends(parts: Partitions, f: IndexedFile)
    requires WellFormed(parts)
    ensures var r := AddFile(parts, f).0;
      && |r| == |parts|
      && (forall p | 0 <= p < PartitionCount :: parts[p] <= r[p])
      && (forall p, i | 0 <= p < PartitionCount && |parts[p]| <= i < |r[p]| :: r[p][i] == f)
  {
  }

  /** Adding never overwrites or removes a record: each partition only grows
      at its end, and only with records of the batch. */
  lemma {:induction false} AddAllAppends(parts: Partitions, batch: seq<IndexedFile>)
    requires WellFormed(parts)
    ensures forall p | 0 <= p < PartitionCount :: parts[p] <= AddAll(parts, batch).0[p]
    ensures forall p, i | 0 <= p < PartitionCount && |parts[p]| <= i < |AddAll(parts, batch).0[p]| ::
      AddAll(parts, batch).0[p][i] in batch
    decreases |batch|
  {
    if |batch| > 0 {
      var mid := AddFile(parts, batch[0]).0;
      AddFileAppends(parts, batch[0]);
      AddAllAppends(mid, batch[1..]);
      var r := AddAll(parts, batch).0;
      assert r == AddAll(mid, batch[1..]).0;
      forall p | 0 <= p < PartitionCount
        ensures parts[p] <= r[p]
      {
        assert parts[p] <= mid[p] <= r[p];
      }
      forall p, i | 0 <= p < PartitionCount && |parts[p]| <= i < |r[p]|
        ensures r[p][i] in batch
      {
        if i < |mid[p]| {
          assert r[p][i] == mid[p][i] == batch[0];
        } else {
          assert r[p][i] in batch[1..];
        }
      }
    }
  }

  /** After adding, every path of the batch is in the index. */
  lemma {:induction false} AddAllIndexes(parts: Partitions, batch: seq<IndexedFile>)
    requires WellFormed(parts)
    ensures forall f | f in batch :: Indexed(AddAll(parts, batch).0, f.fullPath)
    decreases |batch|
  {
    if |batch| > 0 {
      var step := AddFile(parts, batch[0]);
      AddAllIndexes(step.0, batch[1..]);
      AddAllAppends(step.0, batch[1..]);
      var r := AddAll(parts, batch);
      assert r.0 == AddAll(step.0, batch[1..]).0;
      var q, i :| 0 <= q < |step.0| && 0 <= i < |step.0[q]| && EqualsIgnoreCase(step.0[q][i].fullPath, batch[0].fullPath);
      assert r.0[q][i] == step.0[q][i];
      forall f | f in batch ensures Indexed(r.0, f.fullPath) {
        if f != batch[0] {
          assert f in batch[1..];
        }
      }
    }
  }

  // ----- the indexer's state and the crawler -----

  /** The indexer: the partitions, the visited-directory set (keys
      lower-cased, as the set compares ignoring case), the two counters and
      the extension cache. */
  datatype Index = Index(
    partitions: Partitions,
    processed: set<string>,
    totalFiles: int,
    dirsProcessed: int,
    extensions: ExtCache)

  /** What the counters promise: `TotalFilesIndexed` counts the records and
      `DirectoriesProcessed` counts the directories a worker visited, which
      leaves out those `SeedDirectoriesDeep` claimed. */
  predicate Valid(ix: Index) {
    && WellFormed(ix.partitions)
    && ix.totalFiles == |Flatten(ix.partitions)|
    && 0 <= ix.dirsProcessed <= |ix.processed|
    && ExtCacheValid(ix.extensions)
  }

  function EmptyPartitions(): (parts: Partitions)
    ensures WellFormed(parts) && |Flatten(parts)| == 0
    ensures forall p | 0 <= p < PartitionCount :: parts[p] == []
  {
    var parts := seq(PartitionCount, _ => []);
    assert |Flatten(parts)| == 0 by {
      assert forall k | 0 <= k <= PartitionCount :: |Flatten(parts[k..])| == 0 by {
        forall k | 0 <= k <= PartitionCount ensures |Flatten(parts[k..])| == 0 {
          ZeroFlatten(parts, k);
        }
      }
      assert parts[0..] == parts;
    }
    parts
  }

  lemma {:induction false} ZeroFlatten(parts: Partitions, k: nat)
    requires k <= |parts| && forall p | 0 <= p < |parts| :: parts[p] == []
    ensures |Flatten(parts[k..])| == 0
    decreases |parts| - k
  {
    if k < |parts| {
      ZeroFlatten(parts, k + 1);
      assert parts[k..][1..] == parts[k + 1..];
    }
  }

  /** The constructor. */
  function NewIndex(): (ix: Index)
    ensures Valid(ix)
  {
    Index(EmptyPartitions(), {}, 0, 0, InitialExtCache())
  }

  /** `ProgressChanged` fires after a flush exactly when the running total
      is a positive multiple of 500,000. */
  function ProgressAfter(total: int): (r: Option<int>)
    ensures r.Some? <==> total > 0 && total % ProgressInterval == 0
    ensures r.Some? ==> r.value == total
  {
    if total % ProgressInterval == 0 && total > 0 then Some(total) else None
  }

  datatype Flush = Flush(index: Index, added: nat, progress: Option<int>)

  /** `FlushBatchFast`: add-if-absent for every record of the batch, then
      advance the total by the number that went in. The caller's batch is
      empty afterwards. */
  function FlushBatch(ix: Index, batch: seq<IndexedFile>): (r: Flush)
    requires Valid(ix)
    ensures Valid(r.index)
    ensures r.added <= |batch|
    ensures r.index.totalFiles == ix.totalFiles + r.added
    ensures r.index.processed == ix.processed && r.index.dirsProcessed == ix.dirsProcessed
    ensures forall f | f in batch :: Indexed(r.index.partitions, f.fullPath)
    ensures forall p | 0 <= p < PartitionCount :: ix.partitions[p] <= r.index.partitions[p]
    ensures r.progress.Some? ==> r.progress.value > 0 && r.progress.value % ProgressInterval == 0
  {
    var (parts, added) := AddAll(ix.partitions, batch);
    AddAllAppends(ix.partitions, batch);
    AddAllIndexes(ix.partitions, batch);
    var total := ix.totalFiles + added;
    Flush(ix.(partitions := parts, totalFiles := total), added, ProgressAfter(total))
  }

  /** The record the crawler's file callback builds. */
  function RecordOf(ev: Event, ext: string): IndexedFile
    requires ev.FileFound?
  {
    IndexedFile(ev.fullPath, ev.name, Lower(ev.name), ext, ev.size, ev.lastWrite, ev.created)
  }

  /** The crawler: the indexer, the directory queue and the worker's batch. */
  datatype Crawler = Crawler(index: Index, queue: seq<string>, batch: seq<IndexedFile>)

  predicate CrawlerValid(c: Crawler) {
    Valid(c.index) && |c.batch| < BatchSize
  }

  datatype Absorbed = Absorbed(extensions: ExtCache, batch: seq<IndexedFile>, queue: seq<string>)

  /** `f` is the record the file callback builds for `ev`: its path, name,
      size and times, the lower-cased name and the crawler's extension. */
  predicate BuiltFrom(ev: Event, f: IndexedFile) {
    && ev.FileFound?
    && f.fullPath == ev.fullPath && f.name == ev.name && f.size == ev.size
    && f.lastModified == ev.lastWrite && f.created == ev.created
    && f.nameLower == Lower(ev.name) && f.extension == CrawlerExtension(ev.name)
  }

  /** The record of one file event, with its extension interned. */
  function FileRecord(ev: Event, ext: ExtCache): (r: (ExtCache, IndexedFile))
    requires ev.FileFound? && ExtCacheValid(ext)
    ensures ExtCacheValid(r.0)
    ensures BuiltFrom(ev, r.1)
  {
    var lastDot := LastIndexOfChar(ev.name, '.');
    if 0 < lastDot < |ev.name| - 1 then
      var (ext', e) := InternExtension(ext, ev.name[lastDot..]);
      (ext', RecordOf(ev, e))
    else (ext, RecordOf(ev, ""))
  }

  /** A subdirectory event the crawler queues. */
  predicate QueuedFrom(events: seq<Event>, d: string) {
    exists k | 0 <= k < |events| :: events[k].DirFound? && events[k].fullPath == d && !ShouldSkipDirectory(events[k].name)
  }

  /** The two callbacks of `ProcessDirectoryFast` applied to the events of
      one directory: files are batched with their extension, subdirectories
      not on the skip list are queued. */
  function Absorb(events: seq<Event>, ext: ExtCache, batch: seq<IndexedFile>, queue: seq<string>): (r: Absorbed)
    requires ExtCacheValid(ext)
    ensures ExtCacheValid(r.extensions)
    ensures |batch| <= |r.batch| && r.batch[..|batch|] == batch
    ensures |queue| <= |r.queue| && r.queue[..|queue|] == queue
    decreases |events|
  {
    if |events| == 0 then Absorbed(ext, batch, queue)
    else
      var ev := events[0];
      if ev.FileFound? then
        var (ext', f) := FileRecord(ev, ext);
        Absorb(events[1..], ext', batch + [f], queue)
      else if !ShouldSkipDirectory(ev.name) then Absorb(events[1..], ext, batch, queue + [ev.fullPath])
      else Absorb(events[1..], ext, batch, queue)
  }

  /** Every record the callbacks add is the one built for a file event of
      the directory; every path they queue is a subdirectory event whose
      name is not on the skip list. */
  lemma AbsorbSound(events: seq<Event>, ext: ExtCache, batch: seq<IndexedFile>, queue: seq<string>)
    requires ExtCacheValid(ext)
    ensures var r := Absorb(events, ext, batch, queue);
      && (forall j | |batch| <= j < |r.batch| :: exists k | 0 <= k < |events| :: BuiltFrom(events[k], r.batch[j]))
      && (forall j | |queue| <= j < |r.queue| :: QueuedFrom(events, r.queue[j]))
  {
    AbsorbBatchSound(events, ext, batch, queue);
    AbsorbQueueSound(events, ext, batch, queue);
  }

  lemma {:induction false} AbsorbBatchSound(events: seq<Event>, ext: ExtCache, batch: seq<IndexedFile>, queue: seq<string>)
    requires ExtCacheValid(ext)
    ensures var r := Absorb(events, ext, batch, queue);
      forall j | |batch| <= j < |r.batch| :: exists k | 0 <= k < |events| :: BuiltFrom(events[k], r.batch[j])
    decreases |events|
  {
    if |events| > 0 {
      var r := Absorb(events, ext, batch, queue);
      var t := AbsorbOne(events[0], ext, batch, queue);
      var ext', batch', queue' := t.0, t.1, t.2;
      assert r == Absorb(events[1..], ext', batch', queue');
      AbsorbBatchSound(events[1..], ext', batch', queue');
      forall j | |batch| <= j < |r.batch|
        ensures exists k | 0 <= k < |events| :: BuiltFrom(events[k], r.batch[j])
      {
        if j < |batch'| {
          assert r.batch[j] == batch'[j];
          assert BuiltFrom(events[0], r.batch[j]);
        } else {
          var k :| 0 <= k < |events[1..]| && BuiltFrom(events[1..][k], r.batch[j]);
          assert events[k + 1] == events[1..][k];
        }
      }
    }
  }

  lemma {:induction false} AbsorbQueueSound(events: seq<Event>, ext: ExtCache, batch: seq<IndexedFile>, queue: seq<string>)
    requires ExtCacheValid(ext)
    ensures var r := Absorb(events, ext, batch, queue);
      forall j | |queue| <= j < |r.queue| :: QueuedFrom(events, r.queue[j])
    decreases |events|
  {
    if |events| > 0 {
      var r := Absorb(events, ext, batch, queue);
      var t := AbsorbOne(events[0], ext, batch, queue);
      var ext', batch', queue' := t.0, t.1, t.2;
      assert r == Absorb(events[1..], ext', batch', queue');
      AbsorbQueueSound(events[1..], ext', batch', queue');
      forall j | |queue| <= j < |r.queue| ensures QueuedFrom(events, r.queue[j]) {
        if j < |queue'| {
          assert r.queue[j] == queue'[j] == events[0].fullPath;
        } else {
          var k :| 0 <= k < |events[1..]| && events[1..][k].DirFound? && events[1..][k].fullPath == r.queue[j]
                   && !ShouldSkipDirectory(events[1..][k].name);
          assert events[k + 1] == events[1..][k];
        }
      }
    }
  }

  /** Some record of `s` is the one built for `ev`. */
  predicate HasRecord(s: seq<IndexedFile>, ev: Event) {
    exists j | 0 <= j < |s| :: BuiltFrom(ev, s[j])
  }

  /** Conversely, every file event of the directory gets its record in the
      batch. */
  lemma {:induction false} AbsorbFilesComplete(events: seq<Event>, ext: ExtCache, batch: seq<IndexedFile>, queue: seq<string>)
    requires ExtCacheValid(ext)
    ensures var r := Absorb(events, ext, batch, queue);
      forall k | 0 <= k < |events| && events[k].FileFound? :: HasRecord(r.batch[|batch|..], events[k])
    decreases |events|
  {
    if |events| > 0 {
      var ev := events[0];
      var r := Absorb(events, ext, batch, queue);
      var t := AbsorbOne(ev, ext, batch, queue);
      var ext', batch', queue' := t.0, t.1, t.2;
      assert r == Absorb(events[1..], ext', batch', queue');
      AbsorbFilesComplete(events[1..], ext', batch', queue');
      var added := r.batch[|batch|..];
      forall k | 0 <= k < |events| && events[k].FileFound?
        ensures HasRecord(added, events[k])
      {
        if k == 0 {
          assert added[0] == batch'[|batch|];
          assert BuiltFrom(events[0], added[0]);
        } else {
          assert events[1..][k - 1] == events[k];
          assert HasRecord(r.batch[|batch'|..], events[k]);
          var j :| 0 <= j < |r.batch[|batch'|..]| && BuiltFrom(events[k], r.batch[|batch'|..][j]);
          assert added[j + |batch'| - |batch|] == r.batch[|batch'|..][j];
        }
      }
    }
  }

  /** Conversely, every subdirectory event not on the skip list is queued. */
  lemma {:induction false} AbsorbDirsComplete(events: seq<Event>, ext: ExtCache, batch: seq<IndexedFile>, queue: seq<string>)
    requires ExtCacheValid(ext)
    ensures var r := Absorb(events, ext, batch, queue);
      forall k | 0 <= k < |events| && events[k].DirFound? && !ShouldSkipDirectory(events[k].name) ::
        events[k].fullPath in r.queue[|queue|..]
    decreases |events|
  {
    if |events| > 0 {
      var ev := events[0];
      var r := Absorb(events, ext, batch, queue);
      var t := AbsorbOne(ev, ext, batch, queue);
      var ext', batch', queue' := t.0, t.1, t.2;
      assert r == Absorb(events[1..], ext', batch', queue');
      AbsorbDirsComplete(events[1..], ext', batch', queue');
      var added := r.queue[|queue|..];
      forall k | 0 <= k < |events| && events[k].DirFound? && !ShouldSkipDirectory(events[k].name)
        ensures events[k].fullPath in added
      {
        if k == 0 {
          assert added[0] == queue'[|queue|];
        } else {
          assert events[1..][k - 1] == events[k];
          var later := r.queue[|queue'|..];
          assert events[k].fullPath in later;
          var j :| 0 <= j < |later| && later[j] == events[k].fullPath;
          assert added[j + |queue'| - |queue|] == later[j];
        }
      }
    }
  }

  /** The state after the callback for one event. */
  function AbsorbOne(ev: Event, ext: ExtCache, batch: seq<IndexedFile>, queue: seq<string>)
    : (r: (ExtCache, seq<IndexedFile>, seq<string>))
    requires ExtCacheValid(ext)
    ensures ExtCacheValid(r.0)
    ensures r.1 == batch + (if ev.FileFound? then [FileRecord(ev, ext).1] else [])
    ensures r.2 == queue + (if ev.DirFound? && !ShouldSkipDirectory(ev.name) then [ev.fullPath] else [])
  {
    if ev.FileFound? then (FileRecord(ev, ext).0, batch + [FileRecord(ev, ext).1], queue)
    else if !ShouldSkipDirectory(ev.name) then (ext, batch, queue + [ev.fullPath])
    else (ext, batch, queue)
  }

  datatype Step = Step(crawler: Crawler, polls: nat)

  /** `ProcessDirectoryFast`: nothing once cancellation is requested or the
      directory was already visited; otherwise mark it visited, count it and
      enumerate it into the batch and the queue. */
  function ProcessDirectory(c: Crawler, path: string, listing: Listing, token: Token, poll: nat): (r: Step)
    requires Valid(c.index)
    ensures Valid(r.crawler.index)
    ensures r.crawler.index.partitions == c.index.partitions
    ensures r.crawler.index.processed == c.index.processed + (if r.crawler == c then {} else {Lower(path)})
    ensures Lower(path) in c.index.processed ==> r.crawler == c
    ensures token.RequestedAt(poll) ==> r.crawler == c
    ensures r.crawler.index.dirsProcessed == c.index.dirsProcessed + (if r.crawler == c then 0 else 1)
    ensures poll <= r.polls
  {
    if token.RequestedAt(poll) then Step(c, poll + 1)
    else if Lower(path) in c.index.processed then Step(c, poll + 1)
    else
      var run := EnumerateDirectory(path, listing, token, poll + 1);
      var a := Absorb(run.events, c.index.extensions, c.batch, c.queue);
      var ix := c.index.(processed := c.index.processed + {Lower(path)},
                         dirsProcessed := c.index.dirsProcessed + 1,
                         extensions := a.extensions);
      assert ix != c.index;
      Step(Crawler(ix, a.queue, a.batch), run.polls)
  }

  datatype WorkerResult = WorkerResult(crawler: Crawler, polls: nat, progress: Option<int>)

  /** One iteration of the worker loop of `IndexWorkerOptimized`: dequeue a
      directory and process it, flushing once the batch holds 5,000 records;
      with an empty queue, flush whatever the batch holds. `fs` gives the
      listing of each path. */
  function WorkerStep(c: Crawler, fs: string -> Listing, token: Token, poll: nat): (r: WorkerResult)
    requires CrawlerValid(c)
    ensures CrawlerValid(r.crawler)
    ensures r.crawler.index.processed >= c.index.processed
    ensures |r.crawler.index.processed| <= |c.index.processed| + 1
    ensures r.crawler.index.totalFiles >= c.index.totalFiles
    ensures |c.queue| == 0 ==> r.crawler.batch == [] && r.crawler.queue == []
  {
    if |c.queue| > 0 then
      var s := ProcessDirectory(c.(queue := c.queue[1..]), c.queue[0], fs(c.queue[0]), token, poll);
      var c1 := s.crawler;
      if |c1.batch| >= BatchSize then
        var fl := FlushBatch(c1.index, c1.batch);
        WorkerResult(c1.(index := fl.index, batch := []), s.polls, fl.progress)
      else WorkerResult(c1, s.polls, None)
    else if |c.batch| > 0 then
      var fl := FlushBatch(c.index, c.batch);
      WorkerResult(c.(index := fl.index, batch := []), poll, fl.progress)
    else WorkerResult(c, poll, None)
  }

  /** The final flush when the worker leaves its loop. */
  function WorkerExit(c: Crawler): (r: Crawler)
    requires CrawlerValid(c)
    ensures CrawlerValid(r) && r.batch == []
    ensures forall f | f in c.batch :: Indexed(r.index.partitions, f.fullPath)
  {
    if |c.batch| > 0 then c.(index := FlushBatch(c.index, c.batch).index, batch := []) else c
  }

  /** A directory already visited is processed at most once: the repeat
      call changes nothing and does not count it again. */
  lemma ProcessAtMostOnce(c: Crawler, path: string, listing: Listing, token: Token, poll: nat)
    requires Valid(c.index)
    requires Lower(path) in c.index.processed
    ensures ProcessDirectory(c, path, listing, token, poll).crawler == c
    ensures var r := ProcessDirectory(c, path, listing, token, poll).crawler;
            ProcessDirectory(r, path, listing, token, poll).crawler == r
  {
  }

  /** Visiting a new directory counts it exactly once. */
  lemma ProcessCountsOnce(c: Crawler, path: string, listing: Listing, token: Token, poll: nat)
    requires Valid(c.index)
    requires Lower(path) !in c.index.processed && !token.RequestedAt(poll)
    ensures var r := ProcessDirectory(c, path, listing, token, poll).crawler;
            r.index.dirsProcessed == c.index.dirsProcessed + 1
            && Lower(path) in r.index.processed
            && ProcessDirectory(r, path, listing, token, poll).crawler == r
  {
  }

  // ----- seeding -----

  /** The subdirectories of a listing that the directory callback keeps:
      the directory events whose name is not on the skip list, in order. */
  function Subdirs(events: seq<Event>): (r: seq<string>)
    decreases |events|
  {
    if |events| == 0 then []
    else if events[0].DirFound? && !ShouldSkipDirectory(events[0].name) then [events[0].fullPath] + Subdirs(events[1..])
    else Subdirs(events[1..])
  }

  /** Seeding and the workers share the directory callback: what seeding
      keeps of a listing is exactly what a worker queues for it. */
  lemma {:induction false} SubdirsAreQueued(events: seq<Event>, ext: ExtCache, batch: seq<IndexedFile>, queue: seq<string>)
    requires ExtCacheValid(ext)
    ensures Absorb(events, ext, batch, queue).queue == queue + Subdirs(events)
    decreases |events|
  {
    if |events| > 0 {
      var t := AbsorbOne(events[0], ext, batch, queue);
      assert Absorb(events, ext, batch, queue) == Absorb(events[1..], t.0, t.1, t.2);
      SubdirsAreQueued(events[1..], t.0, t.1, t.2);
      if events[0].DirFound? && !ShouldSkipDirectory(events[0].name) {
        assert (queue + [events[0].fullPath]) + Subdirs(events[1..]) == queue + ([events[0].fullPath] + Subdirs(events[1..]));
      }
    }
  }

  /** What seeding has built so far: the index, the shared directory queue
      and the directories kept for the next level. */
  datatype Seeded = Seeded(index: Index, queue: seq<string>, next: seq<string>)

  /** The subdirectories seeding keeps of `dir`: its listing is enumerated
      without a file callback and without cancellation. */
  function SeedListing(dir: string, listing: Listing): seq<string> {
    Subdirs(EnumerateDirectory(dir, listing, NeverCancelled, 0).events)
  }

  /** One directory of a `SeedDirectoriesDeep` level, as written: unless it
      is already in the visited set it is claimed there, without being
      counted, and the subdirectories it keeps are queued for the workers
      and kept for the next level. */
  function SeedDirectory(s: Seeded, dir: string, listing: Listing): (r: Seeded)
    requires Valid(s.index)
    ensures Valid(r.index)
    ensures r.index == s.index.(processed := s.index.processed + {Lower(dir)})
    ensures Lower(dir) in s.index.processed ==> r == s
    ensures Lower(dir) !in s.index.processed ==>
              r.queue == s.queue + SeedListing(dir, listing) && r.next == s.next + SeedListing(dir, listing)
  {
    if Lower(dir) in s.index.processed then
      assert s.index.processed + {Lower(dir)} == s.index.processed;
      s
    else
      var subs := SeedListing(dir, listing);
      Seeded(s.index.(processed := s.index.processed + {Lower(dir)}), s.queue + subs, s.next + subs)
  }

  /** The lower-cased paths of a level. */
  function Claimed(level: seq<string>): (r: set<string>)
    ensures forall d | d in level :: Lower(d) in r
    decreases |level|
  {
    if |level| == 0 then {} else {Lower(level[0])} + Claimed(level[1..])
  }

  /** One level of `SeedDirectoriesDeep`; `Parallel.ForEach` and the
      `ConcurrentBag` are modelled by visiting the level in order. */
  function SeedLevel(s: Seeded, level: seq<string>, fs: string -> Listing): (r: Seeded)
    requires Valid(s.index)
    ensures Valid(r.index)
    ensures r.index == s.index.(processed := s.index.processed + Claimed(level))
    decreases |level|
  {
    if |level| == 0 then
      assert s.index.processed + Claimed(level) == s.index.processed;
      s
    else
      var s1 := SeedDirectory(s, level[0], fs(level[0]));
      var r := SeedLevel(s1, level[1..], fs);
      assert s1.index.processed + Claimed(level[1..]) == s.index.processed + Claimed(level);
      r
  }

  /** `SeedDirectoriesDeep(drives, depth)`: at most `depth` levels, each
      level the subdirectories the previous one kept. Only the visited set
      of the index changes: nothing is counted and no file is recorded. */
  function SeedDeep(s: Seeded, level: seq<string>, depth: nat, fs: string -> Listing): (r: Seeded)
    requires Valid(s.index)
    ensures Valid(r.index)
    ensures r.index == s.index.(processed := r.index.processed)
    ensures s.index.processed <= r.index.processed
    ensures depth > 0 ==> forall d | d in level :: Lower(d) in r.index.processed
    decreases depth
  {
    if depth == 0 || |level| == 0 then s
    else
      var l := SeedLevel(s.(next := []), level, fs);
      SeedDeep(l, l.next, depth - 1, fs)
  }

  /** The first two levels `StartFullIndexAsync` seeds: the drive roots,
      which are also queued, and the subdirectories they keep. */
  function Seed(ix: Index, drives: seq<string>, fs: string -> Listing): (r: Seeded)
    requires Valid(ix)
    ensures Valid(r.index)
  {
    SeedDeep(Seeded(ix, drives, []), drives, 2, fs)
  }

  /** As written, every directory of the first two levels is claimed by
      seeding, so the worker that dequeues it does nothing: its files never
      reach a batch and it is not counted. */
  lemma SeededDirectoriesSkipped(ix: Index, drives: seq<string>, fs: string -> Listing, d: string,
                                 queue: seq<string>, batch: seq<IndexedFile>, token: Token, poll: nat)
    requires Valid(ix)
    requires d in drives || d in SeedLevel(Seeded(ix, drives, []), drives, fs).next
    ensures var s := Seed(ix, drives, fs);
            ProcessDirectory(Crawler(s.index, queue, batch), d, fs(d), token, poll).crawler == Crawler(s.index, queue, batch)
  {
    var l := SeedLevel(Seeded(ix, drives, []), drives, fs);
    assert Seed(ix, drives, fs) == SeedDeep(l, l.next, 1, fs);
  }

  /** For instance a drive `C:\` holding one file `a.txt`: after seeding,
      processing the drive leaves the batch empty. */
  lemma SeededRootFileMissed(ix: Index, queue: seq<string>, token: Token, poll: nat)
    requires Valid(ix)
    ensures var drive := "C:\\";
            var fs := (p: string) => Entries([Entry(FindData(0, 0, 0, "a.txt", 0, 0), Unopenable)]);
            var s := Seed(ix, [drive], fs);
            ProcessDirectory(Crawler(s.index, queue, []), drive, fs(drive), token, poll).crawler.batch == []
  {
    var fs := (p: string) => Entries([Entry(FindData(0, 0, 0, "a.txt", 0, 0), Unopenable)]);
    SeededDirectoriesSkipped(ix, ["C:\\"], fs, "C:\\", queue, [], token, poll);
  }

  /** The seeding `SeedDirectoriesDeep` evidently intends: the same walk,
      with a set of its own for the directories it has seen, so that the
      index is left to the workers. */
  function SeedDirectoryFixed(s: Seeded, seen: set<string>, dir: string, listing: Listing): (r: (Seeded, set<string>))
    ensures r.0.index == s.index
    ensures r.1 == seen + {Lower(dir)}
  {
    if Lower(dir) in seen then
      assert seen + {Lower(dir)} == seen;
      (s, seen)
    else
      var subs := SeedListing(dir, listing);
      (Seeded(s.index, s.queue + subs, s.next + subs), seen + {Lower(dir)})
  }

  function SeedLevelFixed(s: Seeded, seen: set<string>, level: seq<string>, fs: string -> Listing): (r: (Seeded, set<string>))
    ensures r.0.index == s.index
    decreases |level|
  {
    if |level| == 0 then (s, seen)
    else
      var t := SeedDirectoryFixed(s, seen, level[0], fs(level[0]));
      SeedLevelFixed(t.0, t.1, level[1..], fs)
  }

  function SeedDeepFixed(s: Seeded, seen: set<string>, level: seq<string>, depth: nat, fs: string -> Listing): (r: Seeded)
    ensures r.index == s.index
    decreases depth
  {
    if depth == 0 || |level| == 0 then s
    else
      var t := SeedLevelFixed(s.(next := []), seen, level, fs);
      SeedDeepFixed(t.0, t.1, t.0.next, depth - 1, fs)
  }

  function SeedFixed(ix: Index, drives: seq<string>, fs: string -> Listing): (r: Seeded)
    ensures r.index == ix
  {
    SeedDeepFixed(Seeded(ix, drives, []), {}, drives, 2, fs)
  }

  /** With the intended seeding a drive not yet visited is still visited by
      the worker that dequeues it: it is counted once and every file of its
      listing gets its record in the batch. */
  lemma SeededRootIndexed(ix: Index, drives: seq<string>, fs: string -> Listing, d: string,
                          queue: seq<string>, batch: seq<IndexedFile>, token: Token, poll: nat)
    requires Valid(ix) && Lower(d) !in ix.processed && !token.RequestedAt(poll)
    ensures var s := SeedFixed(ix, drives, fs);
            var r := ProcessDirectory(Crawler(s.index, queue, batch), d, fs(d), token, poll).crawler;
            var run := EnumerateDirectory(d, fs(d), token, poll + 1);
            && r.index.dirsProcessed == ix.dirsProcessed + 1
            && Lower(d) in r.index.processed
            && forall k | 0 <= k < |run.events| && run.events[k].FileFound? :: HasRecord(r.batch[|batch|..], run.events[k])
  {
    var run := EnumerateDirectory(d, fs(d), token, poll + 1);
    AbsorbFilesComplete(run.events, ix.extensions, batch, queue);
  }

  // ----- search -----

  /** `MatchesTerms` as a property: every term occurs in the lower-cased
      name, or in the full path ignoring case. */
  predicate MatchesAll(f: IndexedFile, terms: seq<string>) {
    forall k | 0 <= k < |terms| :: Contains(f.nameLower, terms[k]) || ContainsIgnoreCase(f.fullPath, terms[k])
  }

  /** `MatchesTerms`: the loop that returns false at the first term found
      in neither place. */
  method MatchesTerms(f: IndexedFile, terms: seq<string>) returns (b: bool)
    ensures b <==> MatchesAll(f, terms)
  {
    var i := 0;
    while i < |terms|
      invariant 0 <= i <= |terms|
      invariant forall k | 0 <= k < i :: Contains(f.nameLower, terms[k]) || ContainsIgnoreCase(f.fullPath, terms[k])
    {
      if !Contains(f.nameLower, terms[i]) && !ContainsIgnoreCase(f.fullPath, terms[i]) {
        return false;
      }
      i := i + 1;
    }
    return true;
  }

  /** The records that match, in order. */
  function Matching(fs: seq<IndexedFile>, terms: seq<string>): (r: seq<IndexedFile>)
    ensures forall f | f in r :: f in fs && MatchesAll(f, terms)
    ensures forall f | f in fs && MatchesAll(f, terms) :: f in r
    ensures |r| <= |fs|
  {
    if |fs| == 0 then []
    else (if MatchesAll(fs[0], terms) then [fs[0]] else []) + Matching(fs[1..], terms)
  }

  /** `Enumerable.Take(n)`: nothing for a non-positive count. */
  function Take<T>(xs: seq<T>, n: int): (r: seq<T>)
    ensures |r| == (if n <= 0 then 0 else Min(n, |xs|))
    ensures r <= xs
  {
    if n <= 0 then [] else xs[..Min(n, |xs|)]
  }

  /** The lower-cased query split on spaces, empty terms dropped. */
  function Terms(query: string): (terms: seq<string>)
    ensures forall t | t in terms :: t != [] && ' ' !in t
    ensures Concat(terms) == RemoveChar(Lower(query), ' ')
  {
    SplitConcat(Lower(query), ' ');
    Split(Lower(query), ' ')
  }

  /** The terms are the space-separated segments of the lower-cased query,
      in order, with the empty ones dropped: joined back with spaces the
      segments give the query. */
  lemma TermsAreSegments(query: string)
    ensures var segments := SplitAll(Lower(query), ' ');
      && Join(segments, " ") == Lower(query)
      && Terms(query) == NonEmpty(segments)
  {
    SplitAllJoin(Lower(query), ' ');
  }

  /** `FileIndexer.Search(query, maxResults)`, partition by partition. */
  function Search(ix: Index, query: string, maxResults: int): (r: seq<IndexedFile>)
    ensures IsBlank(query) ==> r == []
    ensures |r| <= (if maxResults <= 0 then 0 else maxResults)
    ensures forall f | f in r :: f in Flatten(ix.partitions) && MatchesAll(f, Terms(query))
    ensures !IsBlank(query) && |r| < maxResults ==>
      forall f | f in Flatten(ix.partitions) && MatchesAll(f, Terms(query)) :: f in r
  {
    if IsBlank(query) then []
    else Take(Matching(Flatten(ix.partitions), Terms(query)), maxResults)
  }

  /** `ClearIndex`: empty partitions and visited set, both counters zero;
      the extension cache is kept. */
  function ClearIndex(ix: Index): (r: Index)
    requires Valid(ix)
    ensures Valid(r)
    ensures forall p | 0 <= p < PartitionCount :: r.partitions[p] == []
    ensures r.processed == {} && r.totalFiles == 0 && r.dirsProcessed == 0
    ensures r.extensions == ix.extensions
    ensures forall path :: !Indexed(r.partitions, path)
  {
    ix.(partitions := EmptyPartitions(), processed := {}, totalFiles := 0, dirsProcessed := 0)
  }

}

=== FILE: MainForm.dfy ===
/** Form1's small text helpers: `TruncateString`, `GetUniqueFileName` and
    the status line `UpdateStatus(int, int)`. Whether something exists at a
    path (`File.Exists || Directory.Exists`) is a parameter. Numbers are
    written as `ToString()` and `ToString("N0")` write them in the invariant
    culture: decimal digits, and for "N0" a ',' between groups of three. */
module MainForm {
  import opened Common
  import opened Strings
  import opened StringLemmas
  import PathText

  /** `TruncateString`: `None` where `Substring` throws, which is when a
      string longer than `maxLength` meets a `maxLength` below 3. */
  function Truncate(s: string, maxLength: int): (r: Option<string>)
    ensures |s| <= maxLength ==> r == Some(s)
    ensures |s| > maxLength && maxLength >= 3 ==>
      r.Some? && |r.value| == maxLength && r.value == s[..maxLength - 3] + "..."
    ensures s == [] ==> r == Some(s)
    ensures r.None? <==> s != [] && |s| > maxLength && maxLength < 3
  {
    if s == [] then Some(s)
    else if |s| <= maxLength then Some(s)
    else if maxLength - 3 < 0 then None
    else Some(s[..maxLength - 3] + "...")
  }

  /** Truncating twice is truncating once. */
  lemma TruncateIdempotent(s: string, maxLength: int)
    requires maxLength >= 3
    ensures Truncate(Truncate(s, maxLength).value, maxLength) == Truncate(s, maxLength)
  {
  }

  /** Decimal digits of `n`. */
  function DecimalString(n: nat): (r: string)
    ensures r != [] && '0' <= r[0] <= '9'
    ensures forall k | 0 <= k < |r| :: '0' <= r[k] <= '9'
  {
    if n < 10 then [('0' as int + n) as char]
    else DecimalString(n / 10) + [('0' as int + n % 10) as char]
  }

  function DigitValue(c: char): int {
    c as int - '0' as int
  }

  /** The value the digits stand for. */
  function ValueOf(s: string): int
    decreases |s|
  {
    if s == [] then 0 else ValueOf(s[..|s| - 1]) * 10 + DigitValue(s[|s| - 1])
  }

  /** Reading the digits back gives the number. */
  lemma {:induction false} DecimalStringValue(n: nat)
    ensures ValueOf(DecimalString(n)) == n
  {
    var r := DecimalString(n);
    if n >= 10 {
      DecimalStringValue(n / 10);
      assert r[..|r| - 1] == DecimalString(n / 10);
    }
  }

  /** Exactly three digits, with leading zeros. */
  function ThreeDigits(n: nat): (r: string)
    requires n < 1000
    ensures |r| == 3
    ensures forall k | 0 <= k < |r| :: '0' <= r[k] <= '9'
  {
    [('0' as int + n / 100) as char, ('0' as int + n / 10 % 10) as char, ('0' as int + n % 10) as char]
  }

  /** `ToString("N0")` of a non-negative count. */
  function Grouped(n: nat): (r: string)
    ensures r != [] && '0' <= r[0] <= '9'
  {
    if n < 1000 then DecimalString(n) else Grouped(n / 1000) + "," + ThreeDigits(n % 1000)
  }

  /** Below the first group, the decimal digits of `q * 1000 + m` are those
      of `q` followed by `m` written with three digits. */
  lemma DecimalThousands(q: nat, m: nat)
    requires q >= 1 && m < 1000
    ensures DecimalString(q * 1000 + m) == DecimalString(q) + ThreeDigits(m)
  {
    var n := q * 1000 + m;
    assert n / 10 == q * 100 + m / 10 && n % 10 == m % 10;
    assert n / 10 / 10 == q * 10 + m / 100 && (n / 10) % 10 == m / 10 % 10;
    assert n / 10 / 10 / 10 == q && (n / 10 / 10) % 10 == m / 100;
    assert DecimalString(n) == DecimalString(n / 10) + [('0' as int + m % 10) as char];
    assert DecimalString(n / 10) == DecimalString(n / 10 / 10) + [('0' as int + m / 10 % 10) as char];
    assert DecimalString(n / 10 / 10) == DecimalString(q) + [('0' as int + m / 100) as char];
  }

  /** The grouping only inserts separators: without its commas the "N0"
      text is the plain decimal text, so it reads back as the number. */
  lemma {:induction false} GroupedDigits(n: nat)
    ensures RemoveChar(Grouped(n), ',') == DecimalString(n)
    decreases n
  {
    if n < 1000 {
      RemoveCharAbsent(DecimalString(n), ',');
    } else {
      var q, m := n / 1000, n % 1000;
      GroupedStep(Grouped(q), ThreeDigits(m));
      GroupedDigits(q);
      DecimalThousands(q, m);
    }
  }

  /** Removing the commas of "{g},{t}" when `t` has none. */
  lemma {:induction false} GroupedStep(g: string, t: string)
    requires ',' !in t
    ensures RemoveChar(g + "," + t, ',') == RemoveChar(g, ',') + t
  {
    var x := RemoveChar(g + ",", ',');
    assert RemoveChar(g + "," + t, ',') == x + t by {
      RemoveCharAppend(g + ",", t, ',');
      RemoveCharAbsent(t, ',');
    }
    assert x == RemoveChar(g, ',') by {
      RemoveCharAppend(g, ",", ',');
      assert [','][1..] == [];
      assert RemoveChar([','], ',') == [];
      assert RemoveChar(g, ',') + [] == RemoveChar(g, ',');
    }
  }

  lemma GroupedValue(n: nat)
    ensures ValueOf(RemoveChar(Grouped(n), ',')) == n
  {
    GroupedDigits(n);
    DecimalStringValue(n);
  }

  /** "{n} {word}", with an "s" unless n is 1. */
  function CountPart(n: nat, word: string): (r: string)
    ensures r != [] && '0' <= r[0] <= '9'
  {
    Grouped(n) + " " + word + (if n == 1 then "" else "s")
  }

  /** The parts of the status line: the folder count, then the file count,
      each only when it is not zero. */
  function StatusParts(folders: nat, files: nat): seq<string> {
    (if folders > 0 then [CountPart(folders, "folder")] else [])
    + (if files > 0 then [CountPart(files, "file")] else [])
  }

  /** The text `UpdateStatus(folderCount, fileCount)` shows. */
  function Status(folders: nat, files: nat): (r: string)
    ensures r == "Empty folder" <==> folders == 0 && files == 0
    ensures folders > 0 && files > 0 ==> r == CountPart(folders, "folder") + ", " + CountPart(files, "file")
    ensures folders > 0 && files == 0 ==> r == CountPart(folders, "folder")
    ensures folders == 0 && files > 0 ==> r == CountPart(files, "file")
    ensures folders > 0 ==> Grouped(folders) + " folder" <= r
    ensures folders == 0 && files > 0 ==> Grouped(files) + " file" <= r
    ensures r != [] && (r[|r| - 1] == 's' <==> files > 1 || (files == 0 && folders > 1))
  {
    var parts := StatusParts(folders, files);
    if parts == [] then "Empty folder"
    else
      StatusText(folders, files);
      Join(parts, ", ")
  }

  lemma StatusText(folders: nat, files: nat)
    requires folders > 0 || files > 0
    ensures var r := Join(StatusParts(folders, files), ", ");
      && r != [] && '0' <= r[0] <= '9'
      && (folders > 0 ==> Grouped(folders) + " folder" <= r)
      && (folders == 0 ==> Grouped(files) + " file" <= r)
      && (r[|r| - 1] == 's' <==> files > 1 || (files == 0 && folders > 1))
  {
    if folders > 0 && files > 0 {
      StatusBoth(folders, files);
    } else if folders > 0 {
      StatusOne(folders, "folder");
      assert StatusParts(folders, files) == [CountPart(folders, "folder")];
    } else {
      StatusOne(files, "file");
      assert StatusParts(folders, files) == [CountPart(files, "file")];
    }
  }

  lemma StatusOne(n: nat, word: string)
    requires word != [] && word[|word| - 1] != 's'
    ensures var r := Join([CountPart(n, word)], ", ");
      && r != [] && '0' <= r[0] <= '9'
      && Grouped(n) + " " + word <= r
      && (r[|r| - 1] == 's' <==> n != 1)
  {
    CountPartShape(n, word);
  }

  lemma StatusBoth(folders: nat, files: nat)
    requires folders > 0 && files > 0
    ensures var r := Join(StatusParts(folders, files), ", ");
      && r != [] && '0' <= r[0] <= '9'
      && Grouped(folders) + " folder" <= r
      && (r[|r| - 1] == 's' <==> files > 1)
  {
    CountPartShape(folders, "folder");
    CountPartShape(files, "file");
    assert StatusParts(folders, files) == [CountPart(folders, "folder"), CountPart(files, "file")];
    StatusTwoParts(CountPart(folders, "folder"), CountPart(files, "file"), Grouped(folders) + " folder");
  }

  /** Two parts joined: what starts the first starts the text, and the
      text ends as the second does. */
  lemma StatusTwoParts(a: string, b: string, start: string)
    requires start <= a && a != [] && b != []
    ensures var r := Join([a, b], ", ");
      && start <= r && r[0] == a[0] && r[|r| - 1] == b[|b| - 1]
  {
    assert Join([a, b], ", ") == a + ", " + b;
  }

  /** A count part starts with the grouped number and the word, and ends
      in 's' exactly when the count is not 1. */
  lemma CountPartShape(n: nat, word: string)
    requires word != [] && word[|word| - 1] != 's'
    ensures var p := CountPart(n, word);
      && Grouped(n) + " " + word <= p
      && (p[|p| - 1] == 's' <==> n != 1)
  {
    var p := CountPart(n, word);
    assert (Grouped(n) + " " + word) + (if n == 1 then "" else "s") == p;
  }

  lemma JoinOneOrTwo(parts: seq<string>)
    requires 1 <= |parts| <= 2
    ensures Join(parts, ", ") == if |parts| == 1 then parts[0] else parts[0] + ", " + parts[1]
  {
  }

  /** The name `GetUniqueFileName` tries on attempt `k`: `"{name} ({k}){ext}"`
      in the same directory. */
  function Candidate(directory: string, name: string, ext: string, k: nat): string {
    PathText.Combine(directory, name + " (" + DecimalString(k) + ")" + ext)
  }

  const MaxAttempts: nat := 1000

  /** Attempt `k` is the one `GetUniqueFileName` settles on: every earlier
      candidate is taken, and this one is free unless it is the last. */
  predicate Settles(dir: string, name: string, ext: string, exists_: string -> bool, k: nat) {
    && 1 <= k < MaxAttempts
    && (forall j | 1 <= j < k :: exists_(Candidate(dir, name, ext, j)))
    && (k < MaxAttempts - 1 ==> !exists_(Candidate(dir, name, ext, k)))
  }

  /** `GetUniqueFileName`: the path itself when nothing is there; otherwise
      the first free candidate for k = 1..999, or the 999th when all of them
      are taken. `None` where `Path.Combine` is handed the null directory
      of a root path and throws. */
  method GetUniqueFileName(path: string, exists_: string -> bool) returns (r: Option<string>)
    ensures !exists_(path) ==> r == Some(path)
    ensures exists_(path) && PathText.GetDirectoryName(path).None? ==> r.None?
    ensures exists_(path) && PathText.GetDirectoryName(path).Some? ==>
      var dir := PathText.GetDirectoryName(path).value;
      var name := PathText.GetFileNameWithoutExtension(path);
      var ext := PathText.GetExtension(path);
      exists k | Settles(dir, name, ext, exists_, k) :: r == Some(Candidate(dir, name, ext, k))
  {
    if !exists_(path) {
      return Some(path);
    }
    var directory := PathText.GetDirectoryName(path);
    if directory.None? {
      return None;
    }
    var dir := directory.value;
    var name := PathText.GetFileNameWithoutExtension(path);
    var ext := PathText.GetExtension(path);
    var k := FirstSettled(dir, name, ext, exists_);
    return Some(Candidate(dir, name, ext, k));
  }

  /** The counter loop of `GetUniqueFileName`, run once the path itself is
      taken: it stops at the first free candidate or after 999 attempts. */
  method FirstSettled(dir: string, name: string, ext: string, exists_: string -> bool) returns (k: nat)
    ensures Settles(dir, name, ext, exists_, k)
  {
    k := 1;
    while k < MaxAttempts - 1 && exists_(Candidate(dir, name, ext, k))
      invariant 1 <= k < MaxAttempts
      invariant forall j | 1 <= j < k :: exists_(Candidate(dir, name, ext, j))
      decreases MaxAttempts - k
    {
      k := k + 1;
    }
  }
}

=== FILE: NavPanel.dfy ===
/** NavigationPanel: the vertical list of section headers and items, the
    hit test that maps a y coordinate to an item, selecting an item by
    path, and the click rule. The scroll offset is a parameter. */
module NavPanel {
  import opened Common
  import opened Strings

  const ItemHeight: int := 36
  const SectionHeaderHeight: int := 28
  /** `Padding.Top`. */
  const TopPadding: int := 8

  /** `NavItem`; headers have no path. */
  datatype NavItem = NavItem(text: string, path: Option<string>, isHeader: bool, isEnabled: bool)

  function HeightOf(item: NavItem): int {
    if item.isHeader then SectionHeaderHeight else ItemHeight
  }

  /** The y coordinate where item `i` starts: the scroll offset, the top
      padding and the heights of the items before it. */
  function Top(items: seq<NavItem>, i: nat, scrollY: int): (y: int)
    requires i <= |items|
    ensures y >= scrollY + TopPadding + 28 * i
  {
    if i == 0 then scrollY + TopPadding else Top(items, i - 1, scrollY) + HeightOf(items[i - 1])
  }

  /** Item `i` occupies `[Top(i), Top(i) + height)`. */
  predicate InBand(items: seq<NavItem>, i: nat, scrollY: int, y: int)
    requires i < |items|
  {
    Top(items, i, scrollY) <= y < Top(items, i, scrollY) + HeightOf(items[i])
  }

  /** Bands follow one another without overlap. */
  lemma {:induction false} TopIncreasing(items: seq<NavItem>, i: nat, j: nat, scrollY: int)
    requires i < j <= |items|
    ensures Top(items, i, scrollY) + HeightOf(items[i]) <= Top(items, j, scrollY)
    decreases j - i
  {
    if j > i + 1 {
      TopIncreasing(items, i, j - 1, scrollY);
    }
  }

  /** At most one band contains any y. */
  lemma BandsDisjoint(items: seq<NavItem>, scrollY: int, y: int, i: nat, j: nat)
    requires i < |items| && j < |items|
    requires InBand(items, i, scrollY, y) && InBand(items, j, scrollY, y)
    ensures i == j
  {
    if i < j {
      TopIncreasing(items, i, j, scrollY);
    } else if j < i {
      TopIncreasing(items, j, i, scrollY);
    }
  }

  /** `GetItemIndexAtPoint`: the item whose band holds `y`, or -1. */
  method ItemIndexAt(items: seq<NavItem>, scrollY: int, y: int) returns (r: int)
    ensures -1 <= r < |items|
    ensures r >= 0 ==> InBand(items, r, scrollY, y)
    ensures r == -1 <==> forall i | 0 <= i < |items| :: !InBand(items, i, scrollY, y)
  {
    var top := scrollY + TopPadding;
    var i := 0;
    while i < |items|
      invariant 0 <= i <= |items|
      invariant top == Top(items, i, scrollY)
      invariant forall k | 0 <= k < i :: !InBand(items, k, scrollY, y)
    {
      var height := if items[i].isHeader then SectionHeaderHeight else ItemHeight;
      if y >= top && y < top + height {
        assert InBand(items, i, scrollY, y);
        return i;
      }
      top := top + height;
      i := i + 1;
    }
    return -1;
  }

  datatype Panel = Panel(items: seq<NavItem>, selected: int, pathsSelected: seq<string>)

  /** `SelectPath`: the first item whose path equals `path` ignoring case,
      or -1 when none does. */
  function SelectPath(p: Panel, path: string): (r: Panel)
    ensures r.items == p.items && r.pathsSelected == p.pathsSelected
    ensures -1 <= r.selected < |p.items|
    ensures r.selected >= 0 ==> PathMatches(p.items[r.selected], path)
    ensures forall k | 0 <= k < |p.items| && (r.selected < 0 || k < r.selected) :: !PathMatches(p.items[k], path)
  {
    p.(selected := FirstMatch(p.items, path, 0))
  }

  predicate PathMatches(item: NavItem, path: string) {
    item.path.Some? && EqualsIgnoreCase(item.path.value, path)
  }

  function FirstMatch(items: seq<NavItem>, path: string, from: nat): (r: int)
    requires from <= |items|
    ensures r == -1 || from <= r < |items|
    ensures r >= 0 ==> PathMatches(items[r], path)
    ensures forall k | from <= k < |items| && (r < 0 || k < r) :: !PathMatches(items[k], path)
    decreases |items| - from
  {
    if from == |items| then -1
    else if PathMatches(items[from], path) then from
    else FirstMatch(items, path, from + 1)
  }

  /** An item a click can select. */
  predicate Selectable(item: NavItem) {
    !item.isHeader && item.isEnabled && item.path.Some? && item.path.value != []
  }

  /** `OnMouseClick`: a click on a selectable item selects it and reports
      its path; any other click changes nothing. */
  method Click(p: Panel, scrollY: int, y: int) returns (r: Panel)
    ensures r.items == p.items
    ensures r == p || (0 <= r.selected < |p.items| && InBand(p.items, r.selected, scrollY, y)
                       && Selectable(p.items[r.selected])
                       && r.pathsSelected == p.pathsSelected + [p.items[r.selected].path.value])
    ensures (forall i | 0 <= i < |p.items| && InBand(p.items, i, scrollY, y) :: !Selectable(p.items[i])) ==> r == p
    ensures forall i | 0 <= i < |p.items| && InBand(p.items, i, scrollY, y) && Selectable(p.items[i]) ::
      r.selected == i && r.pathsSelected == p.pathsSelected + [p.items[i].path.value]
  {
    var index := ItemIndexAt(p.items, scrollY, y);
    forall i | 0 <= i < |p.items| && InBand(p.items, i, scrollY, y)
      ensures i == index
    {
      BandsDisjoint(p.items, scrollY, y, i, index);
    }
    if 0 <= index < |p.items| {
      var item := p.items[index];
      if Selectable(item) {
        return p.(selected := index, pathsSelected := p.pathsSelected + [item.path.value]);
      }
    }
    return p;
  }
}

=== FILE: Palette.dfy ===
/** CommandPalette: filtering and ordering the command list for a query,
    moving the selection with the arrow keys, and running the selected
    command. The list view's selection is an index, -1 when nothing is
    selected (the list allows one selected item at most). */
module Palette {
  import opened Common
  import opened Strings
  import opened Sorting

  datatype Category = Navigation | File | View | Tabs | Tools | Search | QuickAccess

  /** `CommandCategory.ToString()`. */
  function CategoryName(c: Category): string {
    match c
    case Navigation => "Navigation"
    case File => "File"
    case View => "View"
    case Tabs => "Tabs"
    case Tools => "Tools"
    case Search => "Search"
    case QuickAccess => "QuickAccess"
  }

  /** `CommandItem`. */
  datatype Command = Command(name: string, description: string, shortcut: string, category: Category, actionId: string)

  /** The query `RefreshResults` works with. */
  function QueryOf(text: string): string {
    Trim(Lower(text))
  }

  /** The `Where` filter: the query occurs in the lower-cased name,
      description or category name. */
  predicate Matches(c: Command, query: string) {
    || Contains(Lower(c.name), query)
    || Contains(Lower(c.description), query)
    || Contains(Lower(CategoryName(c.category)), query)
  }

  /** 0 for commands whose lower-cased name starts with the query, 1 for
      the others: `OrderByDescending` on that test puts `true` first. */
  function Rank(c: Command, query: string): nat {
    if StartsWith(Lower(c.name), query) then 0 else 1
  }

  /** `OrderByDescending(starts-with).ThenBy(Name)`. */
  function Order(query: string): (Command, Command) -> bool {
    (a: Command, b: Command) =>
      Rank(a, query) < Rank(b, query)
      || (Rank(a, query) == Rank(b, query) && CompareOrdinal(a.name, b.name) <= 0)
  }

  lemma OrderIsPreorder(query: string)
    ensures TotalPreorder(Order(query))
  {
    var le := Order(query);
    forall a: Command, b: Command
      ensures le(a, b) || le(b, a)
    {
      CompareOrdinalSwap(a.name, b.name);
    }
    forall a: Command, b: Command, c: Command | le(a, b) && le(b, c)
      ensures le(a, c)
    {
      if Rank(a, query) == Rank(b, query) == Rank(c, query) {
        CompareOrdinalTransitive(a.name, b.name, c.name);
      }
    }
  }

  /** The command list `RefreshResults` shows for the search-box text. */
  function Results(all: seq<Command>, text: string): (r: seq<Command>)
    ensures QueryOf(text) == [] ==> r == all
    ensures QueryOf(text) != [] ==>
      && (forall c :: multiset(r)[c] == if Matches(c, QueryOf(text)) then multiset(all)[c] else 0)
      && Sorted(r, Order(QueryOf(text)))
  {
    var query := QueryOf(text);
    if query == [] then all
    else
      var keep := (c: Command) => Matches(c, query);
      FilterMultiset(all, keep);
      OrderIsPreorder(query);
      SortBySorted(Filter(all, keep), Order(query));
      SortBy(Filter(all, keep), Order(query))
  }

  /** In a result list for a non-empty query, commands whose name starts
      with the query come first, and each of the two groups is in name
      order. */
  lemma PrefixMatchesFirst(r: seq<Command>, query: string)
    requires Sorted(r, Order(query))
    ensures forall i, j | 0 <= i < j < |r| && StartsWith(Lower(r[j].name), query) ::
      StartsWith(Lower(r[i].name), query)
    ensures forall i, j | 0 <= i < j < |r| && Rank(r[i], query) == Rank(r[j], query) ::
      CompareOrdinal(r[i].name, r[j].name) <= 0
  {
    forall i, j | 0 <= i < j < |r|
      ensures Order(query)(r[i], r[j])
    {
    }
  }

  /** The palette: every command, the shown list and the selected index. */
  datatype Palette = Palette(all: seq<Command>, shown: seq<Command>, selected: int)

  /** The selection is -1 or a position in the shown list. */
  predicate Valid(p: Palette) {
    -1 <= p.selected < |p.shown|
  }

  /** `RefreshResults`: the list is rebuilt and its first entry selected. */
  function Refresh(p: Palette, text: string): (r: Palette)
    ensures Valid(r) && r.all == p.all && r.shown == Results(p.all, text)
    ensures r.selected == if r.shown == [] then -1 else 0
  {
    var shown := Results(p.all, text);
    Palette(p.all, shown, if |shown| > 0 then 0 else -1)
  }

  /** `Keys.Down`: one step down, stopping at the last entry; with nothing
      selected, the first entry. An empty list changes nothing. */
  function Down(p: Palette): (r: Palette)
    requires Valid(p)
    ensures Valid(r) && r.all == p.all && r.shown == p.shown
    ensures p.shown == [] ==> r == p
    ensures p.shown != [] ==> r.selected == if p.selected < 0 then 0 else Min(p.selected + 1, |p.shown| - 1)
  {
    if |p.shown| == 0 then p
    else
      var index := if p.selected >= 0 then p.selected else -1;
      p.(selected := Min(index + 1, |p.shown| - 1))
  }

  /** `Keys.Up`: one step up, stopping at the first entry; with nothing
      selected, the first entry. An empty list changes nothing. */
  function Up(p: Palette): (r: Palette)
    requires Valid(p)
    ensures Valid(r) && r.all == p.all && r.shown == p.shown
    ensures p.shown == [] ==> r == p
    ensures p.shown != [] ==> r.selected == if p.selected < 0 then 0 else Max(p.selected - 1, 0)
  {
    if |p.shown| == 0 then p
    else
      var index := if p.selected >= 0 then p.selected else 1;
      p.(selected := Max(index - 1, 0))
  }

  function Min(a: int, b: int): int {
    if a < b then a else b
  }

  function Max(a: int, b: int): int {
    if a > b then a else b
  }

  /** Down then Up returns to an entry above the last; Up then Down
      returns to an entry below the first. Both keys leave something
      selected in a non-empty list. */
  lemma UpDownInverse(p: Palette)
    requires Valid(p)
    ensures 0 <= p.selected < |p.shown| - 1 ==> Up(Down(p)) == p
    ensures 0 < p.selected < |p.shown| ==> Down(Up(p)) == p
    ensures p.shown != [] ==> 0 <= Down(p).selected && 0 <= Up(p).selected
  {
  }

  /** `ExecuteSelected`: the palette closes and the callback gets the
      selected command, only when one is selected. */
  function ExecuteSelected(p: Palette): (r: Option<Command>)
    requires Valid(p)
    ensures r.Some? <==> p.selected >= 0
    ensures r.Some? ==> r.value in p.shown && r.value == p.shown[p.selected]
  {
    if p.selected >= 0 then Some(p.shown[p.selected]) else None
  }

  /** Right after a refresh, Enter runs the first command of the list,
      and nothing when the query matches nothing. */
  lemma EnterAfterRefresh(p: Palette, text: string)
    ensures var r := Refresh(p, text);
      ExecuteSelected(r) == if r.shown == [] then None else Some(Results(p.all, text)[0])
  {
  }
}

=== FILE: PathSecurity.dfy ===
/** PathSecurity: validators and sanitisers for paths, file names and
    search queries. The platform's invalid-character sets are parameters;
    the .NET Framework's Windows sets are given as constants. */
module PathSecurity {
  import opened Strings

  const MaxPathLength: nat := 260
  const MaxFileNameLength: nat := 255
  const MaxQueryLength: nat := 500

  /** The control characters U+0000..U+001F. */
  const ControlChars: seq<char> := seq(32, i requires 0 <= i < 32 => i as char)

  /** `Path.GetInvalidPathChars()` on the .NET Framework for Windows. */
  const WindowsInvalidPathChars: seq<char> := ['"', '<', '>', '|'] + ControlChars

  /** `Path.GetInvalidFileNameChars()` on the .NET Framework for Windows. */
  const WindowsInvalidFileNameChars: seq<char> := WindowsInvalidPathChars + [':', '*', '?', '\\', '/']

  /** Substrings that make a path unsafe. */
  const DangerousPatterns: seq<string> := ["..", "..\\", "../", "\\\\?\\", "\\\\."]

  /** `IsValidPath`: not blank, at most 260 characters, no invalid
      character and none of the dangerous patterns. */
  predicate IsValidPath(path: string, invalid: seq<char>) {
    if IsBlank(path) then false
    else if |path| > MaxPathLength then false
    else if HasAny(path, invalid) then false
    else forall k | 0 <= k < |DangerousPatterns| :: !Contains(path, DangerousPatterns[k])
  }

  lemma ContainsLonger(s: string, t: string, u: string)
    requires Contains(s, t + u)
    ensures Contains(s, t)
  {
    ContainsIff(s, t + u);
    var i :| OccursAt(s, t + u, i);
    assert s[i..i + |t|] == (t + u)[..|t|];
    ContainsWitness(s, t, i);
  }

  /** Because "..\" and "../" both contain "..", a path is valid exactly
      when it is not blank, fits in 260 characters, has no invalid character
      and contains none of "..", "\\?\" and "\\.". */
  lemma IsValidPathIff(path: string, invalid: seq<char>)
    ensures IsValidPath(path, invalid)
        <==> && !IsBlank(path)
             && |path| <= MaxPathLength
             && (forall i | 0 <= i < |path| :: path[i] !in invalid)
             && !Contains(path, "..")
             && !Contains(path, "\\\\?\\")
             && !Contains(path, "\\\\.")
  {
    assert |DangerousPatterns| == 5 && DangerousPatterns[0] == "..";
    assert DangerousPatterns[3] == "\\\\?\\" && DangerousPatterns[4] == "\\\\.";
    assert DangerousPatterns[1] == ".." + "\\";
    assert DangerousPatterns[2] == ".." + "/";
    if Contains(path, "..\\") {
      ContainsLonger(path, "..", "\\");
    }
    if Contains(path, "../") {
      ContainsLonger(path, "..", "/");
    }
  }

  /** `IsValidFileName`: not blank, at most 255 characters, no invalid
      file-name character. */
  function IsValidFileName(name: string, invalid: seq<char>): (b: bool)
    ensures b ==> 0 < |name| <= MaxFileNameLength
    ensures b <==> && !IsBlank(name) && |name| <= MaxFileNameLength
                   && forall i | 0 <= i < |name| :: name[i] !in invalid
  {
    !IsBlank(name) && |name| <= MaxFileNameLength && !HasAny(name, invalid)
  }

  /** `IsSearchQuerySafe`: the empty query is safe; otherwise at most 500
      characters and no invalid path character. The empty case needs no
      guard of its own: the empty query passes the other two tests. */
  function IsSearchQuerySafe(query: string, invalid: seq<char>): (b: bool)
    ensures b <==> |query| <= MaxQueryLength && forall i | 0 <= i < |query| :: query[i] !in invalid
  {
    if query == [] then true
    else if |query| > MaxQueryLength then false
    else !HasAny(query, invalid)
  }

  /** Reference: the characters of `s` that are not in `chars`, in order. */
  function Without(s: string, chars: seq<char>): (r: string)
    ensures |r| <= |s|
    ensures forall x | x in r :: x in s && x !in chars
    ensures forall x | x in s && x !in chars :: x in r
    decreases |s|
  {
    if |s| == 0 then []
    else (if s[0] in chars then [] else [s[0]]) + Without(s[1..], chars)
  }

  /** A string with none of the characters is its own filtering. */
  lemma {:induction false} WithoutNone(s: string, chars: seq<char>)
    requires forall i | 0 <= i < |s| :: s[i] !in chars
    ensures Without(s, chars) == s
    decreases |s|
  {
    if |s| > 0 {
      WithoutNone(s[1..], chars);
      assert [s[0]] + s[1..] == s;
    }
  }

  /** Removing one more character is filtering by one more character. */
  lemma {:induction false} RemoveCharWithout(s: string, chars: seq<char>, c: char)
    ensures RemoveChar(Without(s, chars), c) == Without(s, chars + [c])
    decreases |s|
  {
    if |s| > 0 {
      RemoveCharWithout(s[1..], chars, c);
      var w := Without(s[1..], chars);
      assert s[0] in chars + [c] <==> s[0] in chars || s[0] == c;
      if s[0] !in chars {
        assert Without(s, chars) == [s[0]] + w;
        assert ([s[0]] + w)[0] == s[0] && ([s[0]] + w)[1..] == w;
      } else {
        assert Without(s, chars) == w;
      }
    }
  }

  /** The `foreach (var c in chars) s = s.Replace(c.ToString(), "")` loop:
      the characters of `s` not in `chars`, in order. */
  method RemoveChars(s: string, chars: seq<char>) returns (r: string)
    ensures r == Without(s, chars)
    ensures forall i | 0 <= i < |r| :: r[i] !in chars
    ensures (forall i | 0 <= i < |s| :: s[i] !in chars) ==> r == s
  {
    WithoutNone(s, []);
    r := s;
    var k := 0;
    while k < |chars|
      invariant 0 <= k <= |chars|
      invariant r == Without(s, chars[..k])
    {
      RemoveOneChar(r, chars[k]);
      RemoveCharWithout(s, chars[..k], chars[k]);
      assert chars[..k + 1] == chars[..k] + [chars[k]];
      r := Replace(r, [chars[k]], "");
      k := k + 1;
    }
    assert chars[..k] == chars;
    if forall i | 0 <= i < |s| :: s[i] !in chars {
      WithoutNone(s, chars);
    }
  }

  /** Reference for the ".." loop: remove every ".." and start again while
      one is left. */
  function StripDots(s: string): (r: string)
    ensures !Contains(r, "..")
    ensures |r| <= |s|
    ensures forall x | x in r :: x in s
    ensures !Contains(s, "..") ==> r == s
    decreases |s|
  {
    if Contains(s, "..") then
      DotsShrink(s);
      StripDots(Replace(s, "..", ""))
    else s
  }

  /** `SanitizePath`: trim, remove invalid characters, then remove ".."
      until none is left. */
  method SanitizePath(path: string, invalid: seq<char>) returns (r: string)
    ensures r == StripDots(Without(Trim(path), invalid))
    ensures path == [] ==> r == []
    // a trimmed path that is already clean comes back unchanged
    ensures && Trim(path) == path && !Contains(path, "..")
            && (forall i | 0 <= i < |path| :: path[i] !in invalid)
            ==> r == path
    ensures forall i | 0 <= i < |r| :: r[i] !in invalid
    ensures !Contains(r, "..")
    ensures |r| <= |path|
    // what is left of IsValidPath after sanitising: blankness, length and
    // the two device-path prefixes
    ensures && !IsBlank(r) && |r| <= MaxPathLength
            && !Contains(r, "\\\\?\\") && !Contains(r, "\\\\.")
            ==> IsValidPath(r, invalid)
  {
    if path == [] {
      return "";
    }
    var w := RemoveChars(Trim(path), invalid);
    r := w;
    while Contains(r, "..")
      invariant StripDots(r) == StripDots(w)
      decreases |r|
    {
      DotsShrink(r);
      r := Replace(r, "..", "");
    }
    IsValidPathIff(r, invalid);
  }

  /** One pass of the ".." loop shortens the path and adds no character. */
  lemma DotsShrink(r: string)
    requires Contains(r, "..")
    ensures var next := Replace(r, "..", "");
      && |next| < |r|
      && forall x | x in next :: x in r
  {
    ContainsIff(r, "..");
    var i :| OccursAt(r, "..", i);
    ReplaceCountPositive(r, "..", i, false);
    ReplaceLength(r, "..", "", false);
    var next := Replace(r, "..", "");
    forall x | x in next ensures x in r {
      ReplaceChars(r, "..", "", false, x);
    }
  }

  /** The `foreach (var c in chars) s = s.Replace(c.ToString(), "_")` loop. */
  method ReplaceCharsWithUnderscore(s: string, chars: seq<char>) returns (r: string)
    ensures |r| == |s|
    ensures forall i | 0 <= i < |s| :: r[i] == (if s[i] in chars then '_' else s[i])
  {
    r := s;
    var k := 0;
    while k < |chars|
      invariant 0 <= k <= |chars|
      invariant |r| == |s|
      invariant forall i | 0 <= i < |s| :: r[i] == (if s[i] in chars[..k] then '_' else s[i])
    {
      ReplaceOneChar(r, chars[k], '_');
      assert chars[..k + 1] == chars[..k] + [chars[k]];
      r := Replace(r, [chars[k]], "_");
      k := k + 1;
    }
    assert chars[..k] == chars;
  }

  /** `SanitizeFileName`: trim, turn each invalid character into '_', keep
      at most 255 characters. */
  method SanitizeFileName(name: string, invalid: seq<char>) returns (r: string)
    ensures name == [] ==> r == []
    ensures |r| == if |Trim(name)| <= MaxFileNameLength then |Trim(name)| else MaxFileNameLength
    ensures forall i | 0 <= i < |r| :: r[i] == (if Trim(name)[i] in invalid then '_' else Trim(name)[i])
    ensures '_' !in invalid ==> forall i | 0 <= i < |r| :: r[i] !in invalid
    // a trimmed valid name comes back unchanged
    ensures Trim(name) == name && IsValidFileName(name, invalid) ==> r == name
    // a sanitised name that is not blank passes IsValidFileName
    ensures '_' !in invalid && !IsBlank(r) ==> IsValidFileName(r, invalid)
  {
    if name == [] {
      return "";
    }
    var t := Trim(name);
    r := ReplaceCharsWithUnderscore(t, invalid);
    if |r| > MaxFileNameLength {
      r := r[..MaxFileNameLength];
    }
  }

  /** `SanitizeSearchQuery`: trim, remove invalid characters, keep at most
      500 characters. */
  method SanitizeSearchQuery(query: string, invalid: seq<char>) returns (r: string)
    ensures query == [] ==> r == []
    ensures var kept := Without(Trim(query), invalid);
            r == if |kept| <= MaxQueryLength then kept else kept[..MaxQueryLength]
    ensures IsSearchQuerySafe(r, invalid)
    // a trimmed safe query comes back unchanged
    ensures Trim(query) == query && IsSearchQuerySafe(query, invalid) ==> r == query
  {
    if query == [] {
      return "";
    }
    r := RemoveChars(Trim(query), invalid);
    if |r| > MaxQueryLength {
      r := r[..MaxQueryLength];
    }
  }
}

=== FILE: PathText.dfy ===
/** The `System.IO.Path` helpers the explorer calls, with the Windows
    separators of the .NET Framework: '\' and '/' separate directories and
    ':' separates the volume. */
module PathText {
  import opened Common
  import opened Strings

  predicate IsDirSep(c: char) {
    c == '\\' || c == '/'
  }

  /** Characters at which `GetFileName` and `GetExtension` stop scanning. */
  predicate IsNameBoundary(c: char) {
    IsDirSep(c) || c == ':'
  }

  /** Position just past the last name boundary, 0 if there is none. */
  function NameStart(p: string): (i: nat)
    ensures i <= |p|
    ensures i > 0 ==> IsNameBoundary(p[i - 1])
    ensures forall j | i <= j < |p| :: !IsNameBoundary(p[j])
  {
    if |p| == 0 then 0
    else if IsNameBoundary(p[|p| - 1]) then |p|
    else NameStart(p[..|p| - 1])
  }

  /** `Path.GetFileName`. */
  function GetFileName(p: string): (r: string)
    ensures |r| <= |p| && r == p[|p| - |r|..]
    ensures forall j | 0 <= j < |r| :: !IsNameBoundary(r[j])
  {
    p[NameStart(p)..]
  }

  /** `Path.GetExtension`: from the last '.' of the file name, unless that
      dot is the last character. */
  function GetExtension(p: string): (r: string)
    ensures r == [] || (r[0] == '.' && 2 <= |r| <= |p| && r == p[|p| - |r|..])
  {
    var name := GetFileName(p);
    var dot := LastIndexOfChar(name, '.');
    if dot < 0 || dot == |name| - 1 then "" else name[dot..]
  }

  /** `Path.GetFileNameWithoutExtension`: the file name up to its last '.'. */
  function GetFileNameWithoutExtension(p: string): (r: string)
  {
    var name := GetFileName(p);
    var dot := LastIndexOfChar(name, '.');
    if dot < 0 then name else name[..dot]
  }

  /** The stem and the extension put back together give the file name,
      except for a name whose last character is its last dot. */
  lemma StemAndExtension(p: string)
    requires var name := GetFileName(p); |name| == 0 || name[|name| - 1] != '.'
    ensures GetFileNameWithoutExtension(p) + GetExtension(p) == GetFileName(p)
  {
    var name := GetFileName(p);
    var dot := LastIndexOfChar(name, '.');
    if dot >= 0 {
      assert name[..dot] + name[dot..] == name;
    }
  }

  /** `Path.IsPathRooted`. */
  predicate IsPathRooted(p: string) {
    (|p| >= 1 && IsDirSep(p[0])) || (|p| >= 2 && p[1] == ':')
  }

  /** `Path.Combine(a, b)`. */
  function Combine(a: string, b: string): (r: string)
    ensures b != [] && a != [] && !IsPathRooted(b) ==> |b| < |r| && r[|r| - |b|..] == b && a <= r
  {
    if |b| == 0 then a
    else if |a| == 0 then b
    else if IsPathRooted(b) then b
    else if IsNameBoundary(a[|a| - 1]) then a + b
    else a + "\\" + b
  }

  /** End of the `\\server\share` part of a UNC path, scanning from `i`
      until `n` more separators have been passed. */
  function UncRootEnd(p: string, i: nat, n: nat): (r: nat)
    requires i <= |p|
    ensures i <= r <= |p|
    decreases |p| - i
  {
    if i >= |p| then i
    else if IsDirSep(p[i]) && n <= 1 then i
    else UncRootEnd(p, i + 1, if IsDirSep(p[i]) then n - 1 else n)
  }

  /** Length of the root of a path: "X:\" is 3, "X:" is 2, "\" is 1 and a
      UNC path keeps "\\server\share". */
  function RootLength(p: string): (r: nat)
    ensures r <= |p|
  {
    if |p| >= 1 && IsDirSep(p[0]) then
      if |p| >= 2 && IsDirSep(p[1]) then UncRootEnd(p, 2, 2) else 1
    else if |p| >= 2 && p[1] == ':' then
      if |p| >= 3 && IsDirSep(p[2]) then 3 else 2
    else 0
  }

  /** Scan backwards from `i` to the last separator above the root. */
  function DirEnd(p: string, i: nat, root: nat): (r: nat)
    requires root <= i <= |p|
    ensures root <= r <= i
    ensures r > root ==> r < i && IsDirSep(p[r])
  {
    if i > root then
      if IsDirSep(p[i - 1]) then i - 1 else DirEnd(p, i - 1, root)
    else i
  }

  /** `Path.GetDirectoryName`: `None` (null) for a root, otherwise the path
      before its last separator, keeping the root. */
  function GetDirectoryName(p: string): (r: Option<string>)
    ensures r.Some? ==> |r.value| < |p| && r.value <= p
  {
    var root := RootLength(p);
    if |p| > root then Some(p[..DirEnd(p, |p|, root)]) else None
  }
}

=== FILE: QuickAccess.dfy ===
/** QuickAccessPanel: the pinned and recent folder lists and their
    settings-file format. A folder is kept as its path (its display name is
    `Path.GetFileName` of it); `Directory.Exists` is a parameter and the
    settings file is its sequence of lines. */
module QuickAccess {
  import opened Strings

  const MaxRecentItems: nat := 15
  const PinnedHeader: string := "[PINNED]"
  const RecentHeader: string := "[RECENT]"

  datatype Lists = Lists(pinned: seq<string>, recent: seq<string>)

  const Empty: Lists := Lists([], [])

  /** Some entry equals `path` case-insensitively. */
  predicate AnyMatch(xs: seq<string>, path: string) {
    exists k | 0 <= k < |xs| :: EqualsIgnoreCase(xs[k], path)
  }

  /** No two entries are equal case-insensitively. */
  predicate NoDuplicates(xs: seq<string>) {
    forall i, j | 0 <= i < j < |xs| :: !EqualsIgnoreCase(xs[i], xs[j])
  }

  /** `a` is `b` with some elements dropped. */
  predicate Subsequence(a: seq<string>, b: seq<string>)
    decreases |b|
  {
    if a == [] then true
    else if b == [] then false
    else (a[0] == b[0] && Subsequence(a[1..], b[1..])) || Subsequence(a, b[1..])
  }

  /** `RemoveAll(x => x.Equals(path, OrdinalIgnoreCase))`. */
  function RemoveMatching(xs: seq<string>, path: string): (r: seq<string>)
    ensures |r| <= |xs|
    ensures forall x | x in r :: x in xs && !EqualsIgnoreCase(x, path)
    ensures forall x | x in xs && !EqualsIgnoreCase(x, path) :: x in r
    ensures !AnyMatch(r, path)
  {
    if xs == [] then []
    else if EqualsIgnoreCase(xs[0], path) then RemoveMatching(xs[1..], path)
    else [xs[0]] + RemoveMatching(xs[1..], path)
  }

  /** Removal keeps the survivors in their relative order. */
  lemma {:induction false} RemoveMatchingKeepsOrder(xs: seq<string>, path: string)
    ensures Subsequence(RemoveMatching(xs, path), xs)
    decreases |xs|
  {
    if xs != [] {
      RemoveMatchingKeepsOrder(xs[1..], path);
      var r := RemoveMatching(xs, path);
      if EqualsIgnoreCase(xs[0], path) {
        SubsequenceOfTail(r, xs);
      } else {
        assert r[1..] == RemoveMatching(xs[1..], path);
      }
    }
  }

  lemma SubsequenceOfTail(a: seq<string>, b: seq<string>)
    requires b != [] && Subsequence(a, b[1..])
    ensures Subsequence(a, b)
  {
  }

  lemma {:induction false} SubsequencePrefix(a: seq<string>, b: seq<string>, n: nat)
    requires Subsequence(a, b) && n <= |a|
    ensures Subsequence(a[..n], b)
    decreases |b|
  {
    if n > 0 && a != [] && b != [] {
      if a[0] == b[0] && Subsequence(a[1..], b[1..]) {
        SubsequencePrefix(a[1..], b[1..], n - 1);
        assert a[..n][1..] == a[1..][..n - 1];
      } else {
        SubsequencePrefix(a, b[1..], n);
      }
    }
  }

  /** `AddRecentFolder`: an empty or missing folder is ignored; otherwise the
      path goes first, its case-insensitive duplicates go, and the list is
      cut to 15 entries. */
  function AddRecentFolder(q: Lists, path: string, dirExists: string -> bool): (r: Lists)
    ensures path == [] || !dirExists(path) ==> r == q
    ensures path != [] && dirExists(path) ==>
      && r.pinned == q.pinned
      && 0 < |r.recent| <= MaxRecentItems
      && r.recent[0] == path
      && !AnyMatch(r.recent[1..], path)
      && (forall x | x in r.recent[1..] :: x in q.recent)
  {
    if path == [] || !dirExists(path) then q
    else
      var all := [path] + RemoveMatching(q.recent, path);
      q.(recent := if |all| > MaxRecentItems then all[..MaxRecentItems] else all)
  }

  /** The other recent entries keep their relative order, and the first 14
      of them that do not match survive. */
  lemma AddRecentKeepsOrder(q: Lists, path: string, dirExists: string -> bool)
    requires path != [] && dirExists(path)
    ensures var r := AddRecentFolder(q, path, dirExists);
      && Subsequence(r.recent[1..], q.recent)
      && r.recent[1..] == (var rest := RemoveMatching(q.recent, path);
                           if |rest| >= MaxRecentItems then rest[..MaxRecentItems - 1] else rest)
  {
    var rest := RemoveMatching(q.recent, path);
    var r := AddRecentFolder(q, path, dirExists);
    RemoveMatchingKeepsOrder(q.recent, path);
    var n := |r.recent| - 1;
    assert r.recent[1..] == rest[..n];
    SubsequencePrefix(rest, q.recent, n);
  }

  /** `IsPinned`. */
  predicate IsPinned(q: Lists, path: string) {
    AnyMatch(q.pinned, path)
  }

  /** `PinFolder`: appends an existing folder that is not pinned yet. */
  function PinFolder(q: Lists, path: string, dirExists: string -> bool): (r: Lists)
    ensures r.recent == q.recent
    ensures path == [] || !dirExists(path) || IsPinned(q, path) ==> r == q
    ensures path != [] && dirExists(path) && !IsPinned(q, path) ==> r.pinned == q.pinned + [path]
    ensures path != [] && dirExists(path) ==> IsPinned(r, path)
    ensures NoDuplicates(q.pinned) ==> NoDuplicates(r.pinned)
  {
    if path == [] || !dirExists(path) then q
    else if IsPinned(q, path) then q
    else
      var r := q.(pinned := q.pinned + [path]);
      assert EqualsIgnoreCase(r.pinned[|q.pinned|], path);
      r
  }

  /** `UnpinFolder`: removes every case-insensitive match. */
  function UnpinFolder(q: Lists, path: string): (r: Lists)
    ensures r.recent == q.recent
    ensures !IsPinned(r, path)
    ensures forall x | x in q.pinned && !EqualsIgnoreCase(x, path) :: x in r.pinned
    ensures forall x | x in r.pinned :: x in q.pinned
  {
    q.(pinned := RemoveMatching(q.pinned, path))
  }

  lemma UnpinKeepsOrder(q: Lists, path: string)
    ensures Subsequence(UnpinFolder(q, path).pinned, q.pinned)
  {
    RemoveMatchingKeepsOrder(q.pinned, path);
  }

  /** `InitializeDefaultPins`: only when nothing is pinned, the existing
      default folders in order. */
  function DefaultPins(q: Lists, defaults: seq<string>, dirExists: string -> bool): (r: Lists)
    ensures q.pinned != [] ==> r == q
    ensures q.pinned == [] ==> r.recent == q.recent && forall x | x in r.pinned :: x in defaults && dirExists(x)
    ensures q.pinned == [] ==> Subsequence(r.pinned, defaults)
    ensures q.pinned == [] ==> forall x :: multiset(r.pinned)[x] == if dirExists(x) then multiset(defaults)[x] else 0
    decreases |defaults|
  {
    if q.pinned != [] || defaults == [] then q
    else
      var rest := DefaultPins(q, defaults[1..], dirExists);
      assert defaults == [defaults[0]] + defaults[1..];
      if dirExists(defaults[0]) then
        var r := rest.(pinned := [defaults[0]] + rest.pinned);
        assert r.pinned[1..] == rest.pinned;
        r
      else
        SubsequenceOfTail(rest.pinned, defaults);
        rest
  }

  /** Every existing default is pinned, as often as it is listed, and
      nothing else: with the order kept, this is exactly the defaults
      filtered by `Directory.Exists`. */
  lemma DefaultPinsAll(q: Lists, defaults: seq<string>, dirExists: string -> bool)
    requires q.pinned == []
    ensures forall x | x in defaults && dirExists(x) :: x in DefaultPins(q, defaults, dirExists).pinned
  {
    var r := DefaultPins(q, defaults, dirExists);
    forall x | x in defaults && dirExists(x)
      ensures x in r.pinned
    {
      assert multiset(r.pinned)[x] == multiset(defaults)[x] > 0;
    }
  }

  // ---------------------------------------------------------------------
  // Settings file
  // ---------------------------------------------------------------------

  /** `SaveSettings`. */
  function SaveSettings(q: Lists): (lines: seq<string>)
    ensures |lines| == |q.pinned| + |q.recent| + 2
    ensures lines[0] == PinnedHeader && lines[|q.pinned| + 1] == RecentHeader
  {
    [PinnedHeader] + q.pinned + [RecentHeader] + q.recent
  }

  datatype Section = NoSection | PinnedSection | RecentSection

  /** The `LoadSettings` loop: a header switches the section, blank lines
      and missing folders are skipped, and lines outside the pinned section
      (including those before any header) go to the recent list. */
  function LoadFrom(lines: seq<string>, section: Section, q: Lists, dirExists: string -> bool): (r: Lists)
    ensures |q.pinned| <= |r.pinned| && r.pinned[..|q.pinned|] == q.pinned
    ensures |q.recent| <= |r.recent| && r.recent[..|q.recent|] == q.recent
    decreases |lines|
  {
    if lines == [] then q
    else
      var line := lines[0];
      if line == PinnedHeader then LoadFrom(lines[1..], PinnedSection, q, dirExists)
      else if line == RecentHeader then LoadFrom(lines[1..], RecentSection, q, dirExists)
      else if IsBlank(line) || !dirExists(line) then LoadFrom(lines[1..], section, q, dirExists)
      else if section == PinnedSection then LoadFrom(lines[1..], section, q.(pinned := q.pinned + [line]), dirExists)
      else LoadFrom(lines[1..], section, q.(recent := q.recent + [line]), dirExists)
  }

  /** `LoadSettings`, appending to the lists it starts from. */
  function LoadSettings(lines: seq<string>, q: Lists, dirExists: string -> bool): Lists {
    LoadFrom(lines, NoSection, q, dirExists)
  }

  /** A line `LoadSettings` keeps. */
  predicate Loadable(line: string, dirExists: string -> bool) {
    line != PinnedHeader && line != RecentHeader && !IsBlank(line) && dirExists(line)
  }

  function AppendTo(q: Lists, section: Section, xs: seq<string>): Lists {
    if section == PinnedSection then q.(pinned := q.pinned + xs) else q.(recent := q.recent + xs)
  }

  /** A loadable line goes to the list of the current section. */
  lemma LoadOne(x: string, rest: seq<string>, section: Section, q: Lists, dirExists: string -> bool)
    requires Loadable(x, dirExists)
    ensures LoadFrom([x] + rest, section, q, dirExists) == LoadFrom(rest, section, AppendTo(q, section, [x]), dirExists)
  {
    assert ([x] + rest)[1..] == rest;
  }

  lemma AppendToTwice(q: Lists, section: Section, a: seq<string>, b: seq<string>)
    ensures AppendTo(AppendTo(q, section, a), section, b) == AppendTo(q, section, a + b)
  {
    assert q.pinned + a + b == q.pinned + (a + b);
    assert q.recent + a + b == q.recent + (a + b);
  }

  /** A run of loadable lines is appended, in order, to the list of the
      current section. */
  lemma {:induction false} LoadLoadable(xs: seq<string>, more: seq<string>, section: Section, q: Lists, dirExists: string -> bool)
    requires forall k | 0 <= k < |xs| :: Loadable(xs[k], dirExists)
    ensures LoadFrom(xs + more, section, q, dirExists) == LoadFrom(more, section, AppendTo(q, section, xs), dirExists)
    decreases |xs|
  {
    if xs != [] {
      assert xs + more == [xs[0]] + (xs[1..] + more);
      LoadOne(xs[0], xs[1..] + more, section, q, dirExists);
      var q1 := AppendTo(q, section, [xs[0]]);
      LoadLoadable(xs[1..], more, section, q1, dirExists);
      AppendToTwice(q, section, [xs[0]], xs[1..]);
      assert [xs[0]] + xs[1..] == xs;
    } else {
      assert xs + more == more;
      assert q.pinned + xs == q.pinned && q.recent + xs == q.recent;
    }
  }

  /** Loading what was saved restores both lists when every saved path is
      an existing folder that is neither blank nor a header. */
  lemma LoadSaveRoundTrip(q: Lists, dirExists: string -> bool)
    requires forall k | 0 <= k < |q.pinned| :: Loadable(q.pinned[k], dirExists)
    requires forall k | 0 <= k < |q.recent| :: Loadable(q.recent[k], dirExists)
    ensures LoadSettings(SaveSettings(q), Empty, dirExists) == q
  {
    var lines := SaveSettings(q);
    assert lines == [PinnedHeader] + (q.pinned + ([RecentHeader] + (q.recent + [])));
    LoadLoadable(q.pinned, [RecentHeader] + (q.recent + []), PinnedSection, Empty, dirExists);
    var afterPinned := AppendTo(Empty, PinnedSection, q.pinned);
    LoadLoadable(q.recent, [], RecentSection, afterPinned, dirExists);
  }

  /** Lines before any header are read as recent folders. */
  lemma LoadBeforeHeader(xs: seq<string>, dirExists: string -> bool)
    requires forall k | 0 <= k < |xs| :: Loadable(xs[k], dirExists)
    ensures LoadSettings(xs, Empty, dirExists) == Lists([], xs)
  {
    LoadLoadable(xs, [], NoSection, Empty, dirExists);
    assert xs + [] == xs;
  }
}

=== FILE: Search.dfy ===
/** SearchEngine: filters, relevance scoring and the result-cap logic of
    the indexed search and of its file-system fallback. */
module Search {
  import opened Common
  import opened Strings
  import Indexer

  type IndexedFile = Indexer.IndexedFile

  const DefaultMaxResults: int := 10000
  /** Files modified within this many days score a bonus. */
  const RecentDays: int := 30
  /** Every file-system fallback result gets this score. */
  const FallbackScore: int := 50

  /** `SearchQuery`; `null` values are `None`. Regex and case-sensitivity
      settings are not part of the model. */
  datatype SearchQuery = SearchQuery(
    searchText: string,
    searchPath: Option<string>,
    includeSubdirectories: bool,
    maxResults: int32,
    minSize: Option<int>,
    maxSize: Option<int>,
    modifiedAfter: Option<Ticks>,
    modifiedBefore: Option<Ticks>,
    extensions: Option<seq<string>>)

  /** A query with the property initialisers' defaults. */
  function NewQuery(text: string): (q: SearchQuery)
    ensures q.searchText == text && q.maxResults == DefaultMaxResults && q.includeSubdirectories
    ensures q.minSize.None? && q.maxSize.None? && q.modifiedAfter.None? && q.modifiedBefore.None? && q.extensions.None?
  {
    SearchQuery(text, None, true, DefaultMaxResults, None, None, None, None, None)
  }

  /** `SearchResult`. */
  datatype SearchResult = SearchResult(
    fullPath: string,
    name: string,
    extension: string,
    size: int,
    lastModified: Ticks,
    relevanceScore: int,
    isDirectory: bool)

  // ----- filters -----

  /** `PassesFilters`, check by check as the source returns early. */
  function PassesFilters(f: IndexedFile, q: SearchQuery): bool {
    if q.minSize.Some? && f.size < q.minSize.value then false
    else if q.maxSize.Some? && f.size > q.maxSize.value then false
    else if q.modifiedAfter.Some? && f.lastModified < q.modifiedAfter.value then false
    else if q.modifiedBefore.Some? && f.lastModified > q.modifiedBefore.value then false
    else if q.extensions.Some? && |q.extensions.value| > 0 then ExtensionListed(f.extension, q.extensions.value)
    else true
  }

  /** Some entry of the list equals the extension, ignoring case, with or
      without a leading '.' added to the entry. */
  predicate ExtensionListed(ext: string, list: seq<string>) {
    exists k | 0 <= k < |list| :: EqualsIgnoreCase(ext, list[k]) || EqualsIgnoreCase(ext, "." + list[k])
  }

  predicate InBounds(x: int, lo: Option<int>, hi: Option<int>) {
    (lo.None? || lo.value <= x) && (hi.None? || x <= hi.value)
  }

  /** A file passes exactly when its size and its modification time lie in
      the inclusive bounds given, and the extension list, if non-empty,
      names its extension. */
  lemma PassesFiltersIff(f: IndexedFile, q: SearchQuery)
    ensures PassesFilters(f, q)
        <==> && InBounds(f.size, q.minSize, q.maxSize)
             && InBounds(f.lastModified, q.modifiedAfter, q.modifiedBefore)
             && (q.extensions.None? || |q.extensions.value| == 0 || ExtensionListed(f.extension, q.extensions.value))
  {
  }

  // ----- scoring -----

  /** How the lower-cased name relates to the lower-cased query:
      3 equal, 2 starts with it, 1 contains it, 0 otherwise. */
  function NameRank(nameLower: string, query: string): (rank: nat)
    ensures rank <= 3
    ensures rank == 3 <==> nameLower == query
    ensures rank >= 2 <==> StartsWith(nameLower, query)
    ensures rank >= 1 <==> Contains(nameLower, query)
  {
    if nameLower == query then 3
    else if StartsWith(nameLower, query) then 2
    else if Contains(nameLower, query) then 1
    else (assert !OccursAt(nameLower, query, 0); 0)
  }

  /** Every term occurs in the lower-cased name. */
  predicate AllTermsInName(nameLower: string, terms: seq<string>) {
    forall k | 0 <= k < |terms| :: Contains(nameLower, terms[k])
  }

  /** `CalculateRelevanceScore`, with the clock reading passed in. */
  function RelevanceScore(f: IndexedFile, terms: seq<string>, query: string, now: Ticks): (score: int)
    ensures 0 <= score <= 155
  {
    var nameScore :=
      if f.nameLower == query then 100
      else if StartsWith(f.nameLower, query) then 80
      else if Contains(f.nameLower, query) then 60
      else 0;
    nameScore
      + (if AllTermsInName(f.nameLower, terms) then 40 else 0)
      + (if |f.name| < 20 then 10 else 0)
      + (if f.lastModified > now - RecentDays * TicksPerDay then 5 else 0)
  }

  /** With the other three factors equal, a closer name match always scores
      strictly higher: equal beats prefix beats substring beats none. */
  lemma ScoreFollowsNameRank(a: IndexedFile, b: IndexedFile, terms: seq<string>, query: string, now: Ticks)
    requires AllTermsInName(a.nameLower, terms) == AllTermsInName(b.nameLower, terms)
    requires (|a.name| < 20) == (|b.name| < 20)
    requires (a.lastModified > now - RecentDays * TicksPerDay) == (b.lastModified > now - RecentDays * TicksPerDay)
    requires NameRank(a.nameLower, query) > NameRank(b.nameLower, query)
    ensures RelevanceScore(a, terms, query, now) > RelevanceScore(b, terms, query, now)
  {
  }

  /** The score is the sum of the four bonuses. */
  lemma ScoreComponents(f: IndexedFile, terms: seq<string>, query: string, now: Ticks)
    ensures RelevanceScore(f, terms, query, now)
         == [0, 60, 80, 100][NameRank(f.nameLower, query)]
            + (if AllTermsInName(f.nameLower, terms) then 40 else 0)
            + (if |f.name| < 20 then 10 else 0)
            + (if f.lastModified > now - RecentDays * TicksPerDay then 5 else 0)
  {
  }

  // ----- the indexed search -----

  /** The result `SearchIndex` yields for one record. */
  function IndexResult(f: IndexedFile, q: SearchQuery, now: Ticks): (r: SearchResult)
    ensures !r.isDirectory && r.fullPath == f.fullPath
  {
    var queryLower := Lower(q.searchText);
    SearchResult(f.fullPath, f.name, f.extension, f.size, f.lastModified,
                 RelevanceScore(f, Indexer.Terms(q.searchText), queryLower, now), false)
  }

  /** Reference: the results for a list of candidates when nothing cancels. */
  function AllIndexResults(cands: seq<IndexedFile>, q: SearchQuery, now: Ticks): seq<SearchResult> {
    if |cands| == 0 then []
    else (if PassesFilters(cands[0], q) then [IndexResult(cands[0], q, now)] else [])
         + AllIndexResults(cands[1..], q, now)
  }

  /** The candidate count the source asks the indexer for: `MaxResults * 2`
      in unchecked 32-bit arithmetic. */
  function CandidateLimitAsWritten(maxResults: int32): int {
    Wrap32(maxResults * 2)
  }

  /** The evidently intended candidate count: twice the cap, saturated at
      `int.MaxValue` instead of wrapping. */
  function CandidateLimit(maxResults: int32): (n: int)
    ensures n <= 0x7FFF_FFFF
    ensures 0 <= maxResults ==> maxResults <= n
    ensures maxResults <= 0 ==> n <= 0
  {
    if maxResults * 2 > 0x7FFF_FFFF then 0x7FFF_FFFF else maxResults * 2
  }

  /** The wrap-around: for `int.MaxValue` results the request is for -2
      candidates, so the index yields nothing even when records match. */
  lemma CandidateLimitWraps()
    ensures CandidateLimitAsWritten(0x7FFF_FFFF) == -2
    ensures CandidateLimitAsWritten(0x4000_0000) < 0
  {
  }

  /** With the saturated limit the index is asked for at least `MaxResults`
      candidates whenever that many match, for every non-negative cap. */
  lemma CandidateLimitCoversCap(ix: Indexer.Index, q: SearchQuery)
    requires 0 <= q.maxResults
    requires !IsBlank(q.searchText)
    ensures |Indexer.Search(ix, q.searchText, CandidateLimit(q.maxResults))|
         >= Indexer.Min(q.maxResults, |Indexer.Matching(Indexer.Flatten(ix.partitions), Indexer.Terms(q.searchText))|)
  {
  }

  /** Below the wrap-around the corrected limit is the one written, so the
      candidates are the ones the source asks the index for. */
  lemma CandidatesAsWrittenBelowWrap(ix: Indexer.Index, q: SearchQuery)
    requires -0x4000_0000 <= q.maxResults < 0x4000_0000
    ensures CandidateLimit(q.maxResults) == CandidateLimitAsWritten(q.maxResults)
    ensures Candidates(ix, q) == Indexer.Search(ix, q.searchText, CandidateLimitAsWritten(q.maxResults))
  {
  }

  /** The candidates `SearchIndex` examines. */
  function Candidates(ix: Indexer.Index, q: SearchQuery): (cands: seq<IndexedFile>)
    ensures |cands| <= (if CandidateLimit(q.maxResults) <= 0 then 0 else CandidateLimit(q.maxResults))
    ensures forall f | f in cands :: f in Indexer.Flatten(ix.partitions)
  {
    Indexer.Search(ix, q.searchText, CandidateLimit(q.maxResults))
  }

  /** A run of a search loop: what was collected and the next poll. */
  datatype Collected = Collected(results: seq<SearchResult>, polls: nat)

  /** The first loop of `SearchAsync` pulling from `SearchIndex`: the
      iterator polls before each candidate, the consumer polls again before
      keeping each yielded result. */
  function CollectIndexed(cands: seq<IndexedFile>, q: SearchQuery, now: Ticks, token: Token, poll: nat): (r: Collected)
    ensures poll <= r.polls
    ensures r.results <= AllIndexResults(cands, q, now)
    ensures token == NeverCancelled ==> r.results == AllIndexResults(cands, q, now)
    decreases |cands|
  {
    if |cands| == 0 || token.RequestedAt(poll) then Collected([], poll + (if |cands| == 0 then 0 else 1))
    else if !PassesFilters(cands[0], q) then CollectIndexed(cands[1..], q, now, token, poll + 1)
    else if token.RequestedAt(poll + 1) then Collected([], poll + 2)
    else
      var rest := CollectIndexed(cands[1..], q, now, token, poll + 2);
      Collected([IndexResult(cands[0], q, now)] + rest.results, rest.polls)
  }

  /** Every result of the indexed search passes the filters of the query,
      is a file and comes from the index. */
  lemma {:induction false} IndexResultsSound(cands: seq<IndexedFile>, q: SearchQuery, now: Ticks)
    ensures forall r | r in AllIndexResults(cands, q, now) ::
      !r.isDirectory && exists f | f in cands :: r == IndexResult(f, q, now) && PassesFilters(f, q)
    decreases |cands|
  {
    if |cands| > 0 {
      IndexResultsSound(cands[1..], q, now);
      forall r | r in AllIndexResults(cands[1..], q, now)
        ensures exists f | f in cands :: r == IndexResult(f, q, now) && PassesFilters(f, q)
      {
        var f :| f in cands[1..] && r == IndexResult(f, q, now) && PassesFilters(f, q);
        assert f in cands;
      }
    }
  }

  // ----- the file-system fallback -----

  /** A file as `Directory.EnumerateFiles` and `FileInfo` report it; the
      wildcard match against "*text*" is the file system's. */
  datatype FsFile = FsFile(path: string, name: string, extension: string, size: int, lastWrite: Ticks, present: bool)

  /** The record the fallback filters on: extension lower-cased. */
  function FsRecord(f: FsFile): IndexedFile {
    Indexer.IndexedFile(f.path, f.name, Lower(f.name), Lower(f.extension), f.size, f.lastWrite, 0)
  }

  function FsResult(f: FsFile): (r: SearchResult)
    ensures r.relevanceScore == FallbackScore && !r.isDirectory
  {
    SearchResult(f.path, f.name, f.extension, f.size, f.lastWrite, FallbackScore, false)
  }

  /** The second loop of `SearchAsync` pulling from `SearchFileSystem`:
      the iterator polls and skips vanished or filtered-out files; the
      consumer polls again and stops once `count` reaches `MaxResults`. */
  function CollectFs(files: seq<FsFile>, q: SearchQuery, count: int, token: Token, poll: nat): (r: Collected)
    ensures poll <= r.polls
    ensures |r.results| <= (if q.maxResults - count <= 0 then 0 else q.maxResults - count)
    ensures forall x | x in r.results :: x.relevanceScore == FallbackScore && !x.isDirectory
    ensures forall x | x in r.results :: exists f | f in files :: x == FsResult(f) && f.present && PassesFilters(FsRecord(f), q)
    decreases |files|
  {
    if |files| == 0 then Collected([], poll)
    else if token.RequestedAt(poll) then Collected([], poll + 1)
    else if !files[0].present || !PassesFilters(FsRecord(files[0]), q) then
      var r := CollectFs(files[1..], q, count, token, poll + 1);
      assert forall f | f in files[1..] :: f in files;
      r
    else if token.RequestedAt(poll + 1) then Collected([], poll + 2)
    else if count >= q.maxResults then Collected([], poll + 2)
    else
      var rest := CollectFs(files[1..], q, count + 1, token, poll + 2);
      assert forall f | f in files[1..] :: f in files;
      Collected([FsResult(files[0])] + rest.results, rest.polls)
  }

  // ----- the engine -----

  /** The engine's cancellation source: the current one, if any, and every
      source cancelled so far, by number. */
  datatype Engine = Engine(current: Option<nat>, nextSource: nat, cancelled: seq<nat>)

  /** `CancelCurrentSearch`: cancel and drop the current source. */
  function CancelCurrentSearch(e: Engine): (r: Engine)
    ensures r.current.None? && r.nextSource == e.nextSource
    ensures e.current.Some? ==> r.cancelled == e.cancelled + [e.current.value]
    ensures e.current.None? ==> r == e
  {
    match e.current
      case None => e
      case Some(s) => Engine(None, e.nextSource, e.cancelled + [s])
  }

  /** Starting a search: cancel the previous source, then create a new one. */
  function StartSearch(e: Engine): (r: Engine)
    ensures r.current == Some(e.nextSource) && r.nextSource == e.nextSource + 1
    ensures e.current.Some? ==> e.current.value in r.cancelled
    ensures forall s | s in e.cancelled :: s in r.cancelled
  {
    var c := CancelCurrentSearch(e);
    c.(current := Some(c.nextSource), nextSource := c.nextSource + 1)
  }

  /** The current source is not a cancelled one, and every source handed
      out so far is numbered below `nextSource`. */
  predicate EngineValid(e: Engine) {
    (e.current.Some? ==> e.current.value < e.nextSource && e.current.value !in e.cancelled)
    && forall s | s in e.cancelled :: s < e.nextSource
  }

  lemma StartSearchKeepsValid(e: Engine)
    requires EngineValid(e)
    ensures EngineValid(StartSearch(e))
    ensures StartSearch(e).current.value !in StartSearch(e).cancelled
  {
  }

  /** The inputs of `SearchAsync` that come from outside the model. */
  datatype World = World(files: seq<FsFile>, searchPathExists: bool)

  datatype SearchOutcome = SearchOutcome(engine: Engine, results: seq<SearchResult>, polls: nat)

  /** `SearchAsync`: the indexed results when the index holds files, then
      the file-system fallback while fewer than `MaxResults` were found and
      a search path is set, then the first `MaxResults` of them. */
  function SearchAsync(e: Engine, ix: Indexer.Index, q: SearchQuery, w: World, now: Ticks, token: Token, poll: nat): (r: SearchOutcome)
    ensures |r.results| <= (if q.maxResults <= 0 then 0 else q.maxResults)
    ensures r.engine == StartSearch(e)
  {
    var indexed :=
      if ix.totalFiles > 0 then CollectIndexed(Candidates(ix, q), q, now, token, poll)
      else Collected([], poll);
    var fallback :=
      if |indexed.results| < q.maxResults && q.searchPath.Some? && q.searchPath.value != [] then
        if w.searchPathExists then CollectFs(w.files, q, |indexed.results|, token, indexed.polls)
        else Collected([], indexed.polls)
      else Collected([], indexed.polls);
    SearchOutcome(StartSearch(e), Indexer.Take(indexed.results + fallback.results, q.maxResults), fallback.polls)
  }

  /** `x` is the result for a present file of the listing that passes the
      filters. */
  predicate FromPassingFile(x: SearchResult, files: seq<FsFile>, q: SearchQuery) {
    exists f | f in files :: x == FsResult(f) && f.present && PassesFilters(FsRecord(f), q)
  }

  /** The index is consulted only when it holds files, the fallback adds
      only score-50 results and only when the indexed part fell short and a
      search path is set, and every result passes the filters. */
  lemma SearchAsyncSources(e: Engine, ix: Indexer.Index, q: SearchQuery, w: World, now: Ticks, token: Token, poll: nat)
    ensures var r := SearchAsync(e, ix, q, w, now, token, poll).results;
      exists ir, fr ::
        && r == Indexer.Take(ir + fr, q.maxResults)
        && ir <= AllIndexResults(Candidates(ix, q), q, now)
        && (ix.totalFiles <= 0 ==> ir == [])
        && (forall x | x in fr :: x.relevanceScore == FallbackScore && !x.isDirectory)
        && (forall x | x in fr :: FromPassingFile(x, w.files, q))
        && (fr != [] ==> |ir| < q.maxResults && q.searchPath.Some? && q.searchPath.value != [])
        && |ir| + |fr| <= (if |ir| < q.maxResults then q.maxResults else |ir|)
  {
    var indexed :=
      if ix.totalFiles > 0 then CollectIndexed(Candidates(ix, q), q, now, token, poll)
      else Collected([], poll);
    var fallback :=
      if |indexed.results| < q.maxResults && q.searchPath.Some? && q.searchPath.value != [] then
        if w.searchPathExists then CollectFs(w.files, q, |indexed.results|, token, indexed.polls)
        else Collected([], indexed.polls)
      else Collected([], indexed.polls);
    var ir, fr := indexed.results, fallback.results;
    assert SearchAsync(e, ix, q, w, now, token, poll).results == Indexer.Take(ir + fr, q.maxResults);
  }

  /** `SearchRealtimeAsync`'s loop: the iterator polls before each
      candidate, the consumer polls again, stops at `MaxResults`, and
      otherwise invokes the callback. */
  function Realtime(cands: seq<IndexedFile>, q: SearchQuery, now: Ticks, count: int, token: Token, poll: nat): (r: Collected)
    ensures poll <= r.polls
    ensures |r.results| <= (if q.maxResults - count <= 0 then 0 else q.maxResults - count)
    ensures r.results <= AllIndexResults(cands, q, now)
    decreases |cands|
  {
    if |cands| == 0 then Collected([], poll)
    else if token.RequestedAt(poll) then Collected([], poll + 1)
    else if !PassesFilters(cands[0], q) then
      assert AllIndexResults(cands, q, now) == [] + AllIndexResults(cands[1..], q, now);
      Realtime(cands[1..], q, now, count, token, poll + 1)
    else if token.RequestedAt(poll + 1) || count >= q.maxResults then Collected([], poll + 2)
    else
      var rest := Realtime(cands[1..], q, now, count + 1, token, poll + 2);
      PrefixCons(IndexResult(cands[0], q, now), rest.results, AllIndexResults(cands[1..], q, now));
      Collected([IndexResult(cands[0], q, now)] + rest.results, rest.polls)
  }

  /** Once a poll sees cancellation no further callback is made: a token
      already cancelled at the first poll gets no callbacks at all. */
  lemma RealtimeCancelledFirst(cands: seq<IndexedFile>, q: SearchQuery, now: Ticks, count: int, token: Token, poll: nat)
    requires token.RequestedAt(poll)
    ensures Realtime(cands, q, now, count, token, poll).results == []
  {
  }

  /** A later cancellation only shortens the callback sequence: what a
      token cancelled sooner reports is a prefix of it. */
  lemma {:induction false} RealtimeStopsOnCancel(cands: seq<IndexedFile>, q: SearchQuery, now: Ticks, count: int,
                                                 token: Token, poll: nat, later: nat)
    requires token.cancelAfter.Some? && later >= token.cancelAfter.value
    ensures Realtime(cands, q, now, count, token, poll).results
         <= Realtime(cands, q, now, count, Token(Some(later)), poll).results
    decreases |cands|
  {
    var slow := Token(Some(later));
    if |cands| == 0 {
    } else if token.RequestedAt(poll) {
      RealtimeCancelledFirst(cands, q, now, count, token, poll);
    } else {
      assert !slow.RequestedAt(poll);
      if !PassesFilters(cands[0], q) {
        RealtimeStopsOnCancel(cands[1..], q, now, count, token, poll + 1, later);
        RealtimeSkipsBoth(cands, q, now, count, token, slow, poll);
      } else if !token.RequestedAt(poll + 1) && count < q.maxResults {
        assert !slow.RequestedAt(poll + 1);
        RealtimeStopsOnCancel(cands[1..], q, now, count + 1, token, poll + 2, later);
        RealtimeTakesBoth(cands, q, now, count, token, slow, poll);
      } else {
        RealtimeStops(cands, q, now, count, token, poll);
      }
    }
  }

  /** Two tokens that both see a failing first candidate keep the prefix
      relation of what follows. */
  lemma RealtimeSkipsBoth(cands: seq<IndexedFile>, q: SearchQuery, now: Ticks, count: int, token: Token, slow: Token, poll: nat)
    requires |cands| > 0 && !PassesFilters(cands[0], q)
    requires !token.RequestedAt(poll) && !slow.RequestedAt(poll)
    requires Realtime(cands[1..], q, now, count, token, poll + 1).results
          <= Realtime(cands[1..], q, now, count, slow, poll + 1).results
    ensures Realtime(cands, q, now, count, token, poll).results
         <= Realtime(cands, q, now, count, slow, poll).results
  {
    RealtimeSkips(cands, q, now, count, token, poll);
    RealtimeSkips(cands, q, now, count, slow, poll);
  }

  /** Two tokens that both let the first candidate through keep the
      prefix relation of what follows. */
  lemma RealtimeTakesBoth(cands: seq<IndexedFile>, q: SearchQuery, now: Ticks, count: int, token: Token, slow: Token, poll: nat)
    requires |cands| > 0 && PassesFilters(cands[0], q) && count < q.maxResults
    requires !token.RequestedAt(poll) && !token.RequestedAt(poll + 1)
    requires !slow.RequestedAt(poll) && !slow.RequestedAt(poll + 1)
    requires Realtime(cands[1..], q, now, count + 1, token, poll + 2).results
          <= Realtime(cands[1..], q, now, count + 1, slow, poll + 2).results
    ensures Realtime(cands, q, now, count, token, poll).results
         <= Realtime(cands, q, now, count, slow, poll).results
  {
    RealtimeTakes(cands, q, now, count, token, poll);
    RealtimeTakes(cands, q, now, count, slow, poll);
    PrefixCons(IndexResult(cands[0], q, now),
               Realtime(cands[1..], q, now, count + 1, token, poll + 2).results,
               Realtime(cands[1..], q, now, count + 1, slow, poll + 2).results);
  }

  lemma PrefixCons<T>(x: T, a: seq<T>, b: seq<T>)
    requires a <= b
    ensures [x] + a <= [x] + b
  {
    assert ([x] + b)[..|a| + 1] == [x] + a;
  }

  /** A candidate that fails the filters costs one poll and no callback. */
  lemma RealtimeSkips(cands: seq<IndexedFile>, q: SearchQuery, now: Ticks, count: int, token: Token, poll: nat)
    requires |cands| > 0 && !PassesFilters(cands[0], q) && !token.RequestedAt(poll)
    ensures Realtime(cands, q, now, count, token, poll).results
         == Realtime(cands[1..], q, now, count, token, poll + 1).results
  {
  }

  /** A passing candidate met by cancellation or the cap ends the search. */
  lemma RealtimeStops(cands: seq<IndexedFile>, q: SearchQuery, now: Ticks, count: int, token: Token, poll: nat)
    requires |cands| > 0 && PassesFilters(cands[0], q) && !token.RequestedAt(poll)
    requires token.RequestedAt(poll + 1) || count >= q.maxResults
    ensures Realtime(cands, q, now, count, token, poll).results == []
  {
  }

  /** A candidate that passes, polled before cancellation and under the
      cap, is the first callback. */
  lemma RealtimeTakes(cands: seq<IndexedFile>, q: SearchQuery, now: Ticks, count: int, token: Token, poll: nat)
    requires |cands| > 0 && PassesFilters(cands[0], q) && count < q.maxResults
    requires !token.RequestedAt(poll) && !token.RequestedAt(poll + 1)
    ensures Realtime(cands, q, now, count, token, poll).results
         == [IndexResult(cands[0], q, now)] + Realtime(cands[1..], q, now, count + 1, token, poll + 2).results
  {
  }

  /** `SearchRealtimeAsync`: the callbacks, in order. */
  function SearchRealtime(e: Engine, ix: Indexer.Index, q: SearchQuery, now: Ticks, token: Token, poll: nat): (r: SearchOutcome)
    ensures |r.results| <= (if q.maxResults <= 0 then 0 else q.maxResults)
    ensures ix.totalFiles <= 0 ==> r.results == []
    ensures r.engine == StartSearch(e)
  {
    if ix.totalFiles > 0 then
      var c := Realtime(Candidates(ix, q), q, now, 0, token, poll);
      SearchOutcome(StartSearch(e), c.results, c.polls)
    else SearchOutcome(StartSearch(e), [], poll)
  }
}

=== FILE: Sorting.dfy ===
/** Ordering a sequence by a comparison, as `List.Sort(Comparison)` and
    `OrderBy(...).ThenBy(...)` do. `le(a, b)` means the comparison of `a`
    with `b` is not positive. */
module Sorting {

  /** `le` is total and transitive: a comparison a sort can rely on. */
  ghost predicate TotalPreorder<T(!new)>(le: (T, T) -> bool) {
    && (forall a, b :: le(a, b) || le(b, a))
    && (forall a, b, c :: le(a, b) && le(b, c) ==> le(a, c))
  }

  /** Every element is `le` every later element. */
  predicate Sorted<T>(s: seq<T>, le: (T, T) -> bool) {
    forall i, j | 0 <= i < j < |s| :: le(s[i], s[j])
  }

  /** Puts `x` in front of the first element it is `le`, so that it stays
      ahead of the elements it ties with. */
  function Insert<T>(x: T, s: seq<T>, le: (T, T) -> bool): (r: seq<T>)
    ensures multiset(r) == multiset(s) + multiset{x}
    ensures |r| == |s| + 1
  {
    if s == [] then [x]
    else if le(x, s[0]) then [x] + s
    else
      assert s == [s[0]] + s[1..];
      [s[0]] + Insert(x, s[1..], le)
  }

  lemma {:induction false} InsertSorted<T(!new)>(x: T, s: seq<T>, le: (T, T) -> bool)
    requires TotalPreorder(le) && Sorted(s, le)
    ensures Sorted(Insert(x, s, le), le)
  {
    if s != [] && !le(x, s[0]) {
      InsertSorted(x, s[1..], le);
      InsertBounded(s[0], x, s[1..], le);
      ConsSorted(s[0], Insert(x, s[1..], le), le);
    }
  }

  /** A lower bound of `x` and of every element of `s` bounds the
      insertion too. */
  lemma {:induction false} InsertBounded<T>(b: T, x: T, s: seq<T>, le: (T, T) -> bool)
    requires le(b, x) && forall k | 0 <= k < |s| :: le(b, s[k])
    ensures forall k | 0 <= k < |Insert(x, s, le)| :: le(b, Insert(x, s, le)[k])
  {
    if s != [] && !le(x, s[0]) {
      InsertBounded(b, x, s[1..], le);
    }
  }

  /** A sorted sequence stays sorted behind an element `le` all of it. */
  lemma ConsSorted<T>(a: T, s: seq<T>, le: (T, T) -> bool)
    requires Sorted(s, le) && forall k | 0 <= k < |s| :: le(a, s[k])
    ensures Sorted([a] + s, le)
  {
    var r := [a] + s;
    forall i, j | 0 <= i < j < |r|
      ensures le(r[i], r[j])
    {
      if i > 0 {
        assert r[i] == s[i - 1] && r[j] == s[j - 1];
      }
    }
  }

  /** The stable insertion sort: a permutation of `xs` that is sorted, in
      which elements that tie keep their original order. */
  function SortBy<T>(xs: seq<T>, le: (T, T) -> bool): (r: seq<T>)
    ensures multiset(r) == multiset(xs)
    ensures |r| == |xs|
  {
    if xs == [] then []
    else
      assert xs == [xs[0]] + xs[1..];
      Insert(xs[0], SortBy(xs[1..], le), le)
  }

  /** Under a total preorder the sort's result is sorted. */
  lemma {:induction false} SortBySorted<T(!new)>(xs: seq<T>, le: (T, T) -> bool)
    requires TotalPreorder(le)
    ensures Sorted(SortBy(xs, le), le)
  {
    if xs != [] {
      SortBySorted(xs[1..], le);
      InsertSorted(xs[0], SortBy(xs[1..], le), le);
    }
  }

  /** The elements of `xs` that satisfy `keep`, in order. */
  function Filter<T>(xs: seq<T>, keep: T -> bool): (r: seq<T>)
    ensures |r| <= |xs|
    ensures forall k | 0 <= k < |r| :: keep(r[k])
    ensures forall x | x in r :: x in xs
    ensures forall x | x in xs && keep(x) :: x in r
  {
    if xs == [] then []
    else if keep(xs[0]) then [xs[0]] + Filter(xs[1..], keep)
    else Filter(xs[1..], keep)
  }

  /** Filtering keeps exactly the kept elements, with their multiplicities. */
  lemma {:induction false} FilterMultiset<T>(xs: seq<T>, keep: T -> bool)
    ensures forall x :: multiset(Filter(xs, keep))[x] == if keep(x) then multiset(xs)[x] else 0
  {
    if xs != [] {
      FilterMultiset(xs[1..], keep);
      assert xs == [xs[0]] + xs[1..];
    }
  }
}

=== FILE: StringLemmas.dfy ===
/** Facts about the string helpers that the rest of the model relies on:
    what `Trim()` keeps, and what `Split` loses. */
module StringLemmas {
  import opened Strings

  /** How many leading characters `Trim()` drops. */
  function TrimmedLead(s: string): nat {
    |s| - |TrimStartWs(s)|
  }

  /** `Trim()` keeps one slice of its input and drops only white space
      around it. */
  lemma TrimIsSlice(s: string)
    ensures TrimmedLead(s) + |Trim(s)| <= |s|
    ensures Trim(s) == s[TrimmedLead(s)..TrimmedLead(s) + |Trim(s)|]
    ensures forall i | 0 <= i < TrimmedLead(s) :: IsWhiteSpace(s[i])
    ensures forall i | TrimmedLead(s) + |Trim(s)| <= i < |s| :: IsWhiteSpace(s[i])
  {
    TrimSlice(s);
    TrimTail(s);
  }

  lemma TrimSlice(s: string)
    ensures TrimmedLead(s) + |Trim(s)| <= |s|
    ensures Trim(s) == s[TrimmedLead(s)..TrimmedLead(s) + |Trim(s)|]
  {
    var u := TrimStartWs(s);
    var r := TrimEndWs(u);
    var a := |s| - |u|;
    assert r == Trim(s) && a == TrimmedLead(s);
    SliceOfSuffix(s, a, |r|);
  }

  lemma SliceOfSuffix(s: string, a: nat, n: nat)
    requires a + n <= |s|
    ensures s[a..][..n] == s[a..a + n]
  {
  }

  lemma TrimTail(s: string)
    ensures forall i | TrimmedLead(s) + |Trim(s)| <= i < |s| :: IsWhiteSpace(s[i])
  {
    var a := TrimmedLead(s);
    var u := TrimStartWs(s);
    var r := TrimEndWs(u);
    assert u == s[a..];
    forall i | a + |r| <= i < |s|
      ensures IsWhiteSpace(s[i])
    {
      assert s[i] == u[i - a];
    }
  }

  lemma {:induction false} RemoveCharAbsent(s: string, c: char)
    requires c !in s
    ensures RemoveChar(s, c) == s
    decreases |s|
  {
    if |s| > 0 {
      RemoveCharAbsent(s[1..], c);
      assert [s[0]] + s[1..] == s;
    }
  }

  lemma {:induction false} RemoveCharAppend(a: string, b: string, c: char)
    ensures RemoveChar(a + b, c) == RemoveChar(a, c) + RemoveChar(b, c)
    decreases |a|
  {
    if |a| == 0 {
      assert a + b == b;
    } else {
      RemoveCharAppend(a[1..], b, c);
      assert (a + b)[0] == a[0] && (a + b)[1..] == a[1..] + b;
      if a[0] != c {
        assert RemoveChar(a + b, c) == [a[0]] + RemoveChar(a[1..] + b, c);
      }
    }
  }

  /** The parts laid end to end, with no separator. */
  function Concat(parts: seq<string>): string {
    if |parts| == 0 then "" else parts[0] + Concat(parts[1..])
  }

  /** `SplitAll` at a separator: the text before it, then the parts of
      the text after it. */
  lemma SplitAllStep(s: string, sep: char)
    requires IndexOfChar(s, sep) >= 0
    ensures var i := IndexOfChar(s, sep);
      && s == s[..i] + [sep] + s[i + 1..]
      && sep !in s[..i]
      && SplitAll(s, sep) == [s[..i]] + SplitAll(s[i + 1..], sep)
  {
    var i := IndexOfChar(s, sep);
    CutAround(s, i);
    BeforeFirst(s, sep);
  }

  lemma CutAround(s: string, i: nat)
    requires i < |s|
    ensures s == s[..i] + [s[i]] + s[i + 1..]
  {
  }

  lemma BeforeFirst(s: string, sep: char)
    requires IndexOfChar(s, sep) >= 0
    ensures sep !in s[..IndexOfChar(s, sep)]
  {
    var i := IndexOfChar(s, sep);
    assert forall j | 0 <= j < i :: s[..i][j] == s[j];
  }

  /** `SplitAll` without a separator: the string itself. */
  lemma SplitAllNone(s: string, sep: char)
    requires IndexOfChar(s, sep) < 0
    ensures sep !in s && SplitAll(s, sep) == [s]
  {
  }

  lemma JoinCons(a: string, rest: seq<string>, sep: string)
    requires rest != []
    ensures Join([a] + rest, sep) == a + sep + Join(rest, sep)
  {
    assert ([a] + rest)[1..] == rest;
  }

  /** Splitting loses nothing: joining the parts with the separator gives
      back the string. */
  lemma {:induction false} SplitAllJoin(s: string, sep: char)
    ensures Join(SplitAll(s, sep), [sep]) == s
    decreases |s|
  {
    var i := IndexOfChar(s, sep);
    if i >= 0 {
      var a, b := s[..i], s[i + 1..];
      SplitAllStep(s, sep);
      SplitAllJoin(b, sep);
      JoinCons(a, SplitAll(b, sep), [sep]);
    }
  }

  /** Removing a separator that follows separator-free text. */
  lemma {:induction false} RemoveCharAfter(a: string, sep: char, b: string)
    requires sep !in a
    ensures RemoveChar(a + [sep] + b, sep) == a + RemoveChar(b, sep)
    decreases |a|
  {
    var s := a + [sep] + b;
    if |a| == 0 {
      assert s[1..] == b;
    } else {
      RemoveCharAfter(a[1..], sep, b);
      assert s[0] == a[0] && s[1..] == a[1..] + [sep] + b;
      assert a == [a[0]] + a[1..];
    }
  }

  lemma ConcatCons(a: string, rest: seq<string>)
    ensures Concat([a] + rest) == a + Concat(rest)
  {
    assert ([a] + rest)[1..] == rest;
  }

  /** The parts are the string with every separator taken out. */
  lemma {:induction false} SplitAllConcat(s: string, sep: char)
    ensures Concat(SplitAll(s, sep)) == RemoveChar(s, sep)
    decreases |s|
  {
    if IndexOfChar(s, sep) < 0 {
      SplitAllNone(s, sep);
      RemoveCharAbsent(s, sep);
      ConcatCons(s, []);
    } else {
      var i := IndexOfChar(s, sep);
      var a, b := s[..i], s[i + 1..];
      SplitAllStep(s, sep);
      SplitAllConcat(b, sep);
      calc {
        Concat(SplitAll(s, sep));
        Concat([a] + SplitAll(b, sep));
        { ConcatCons(a, SplitAll(b, sep)); }
        a + Concat(SplitAll(b, sep));
        a + RemoveChar(b, sep);
        { RemoveCharAfter(a, sep, b); }
        RemoveChar(a + [sep] + b, sep);
      }
    }
  }

  /** Dropping empty parts does not change their concatenation. */
  lemma {:induction false} ConcatNonEmpty(ss: seq<string>)
    ensures Concat(NonEmpty(ss)) == Concat(ss)
    decreases |ss|
  {
    if |ss| > 0 {
      ConcatNonEmpty(ss[1..]);
      ConcatAppend(if ss[0] == [] then [] else [ss[0]], NonEmpty(ss[1..]));
    }
  }

  lemma {:induction false} ConcatAppend(a: seq<string>, b: seq<string>)
    ensures Concat(a + b) == Concat(a) + Concat(b)
    decreases |a|
  {
    if |a| == 0 {
      assert a + b == b;
    } else {
      ConcatAppend(a[1..], b);
      assert (a + b)[1..] == a[1..] + b;
    }
  }

  /** With empty entries removed, the parts are still the string with its
      separators taken out, and none of them is empty. */
  lemma SplitConcat(s: string, sep: char)
    ensures Concat(Split(s, sep)) == RemoveChar(s, sep)
  {
    ConcatNonEmpty(SplitAll(s, sep));
    SplitAllConcat(s, sep);
  }
}

=== FILE: Strings.dfy ===
/** Small value types shared by every module of the model. */
module Common {

  /** The model's stand-in for a nullable reference. */
  datatype Option<+T> = None | Some(value: T)

  /** A C# `int`. */
  type int32 = x: int | -0x8000_0000 <= x < 0x8000_0000

  /** A C# `uint`. */
  type uint32 = x: int | 0 <= x < 0x1_0000_0000

  /** A C# `byte`. */
  type byte = x: int | 0 <= x < 0x100

  const MaxInt32: int := 0x7FFF_FFFF

  /** A .NET `DateTime`, as a count of 100-nanosecond ticks. */
  type Ticks = int

  const TicksPerSecond: int := 10_000_000
  const TicksPerMinute: int := 60 * TicksPerSecond
  const TicksPerDay: int := 24 * 60 * TicksPerMinute

  /** Wrap-around of a signed 32-bit `int` in an `unchecked` context. */
  function Wrap32(x: int): (r: int)
    ensures -0x8000_0000 <= r < 0x8000_0000
    ensures (r - x) % 0x1_0000_0000 == 0
  {
    (x + 0x8000_0000) % 0x1_0000_0000 - 0x8000_0000
  }

  /** A cooperative cancellation token. Cancellation is sticky: once the
      `cancelAfter`-th poll has been reached, every later poll sees it. */
  datatype Token = Token(cancelAfter: Option<nat>)
  {
    predicate RequestedAt(poll: nat) {
      cancelAfter.Some? && cancelAfter.value <= poll
    }
  }

  const NeverCancelled: Token := Token(None)
}

/** The string primitives of the .NET base library used by the explorer.
    Case mapping covers ASCII letters only. */
module Strings {
  import opened Common

  function LowerChar(c: char): char {
    if 'A' <= c <= 'Z' then (c as int + 32) as char else c
  }

  function UpperChar(c: char): char {
    if 'a' <= c <= 'z' then (c as int - 32) as char else c
  }

  /** `ToLowerInvariant`. */
  function Lower(s: string): string {
    seq(|s|, i requires 0 <= i < |s| => LowerChar(s[i]))
  }

  /** `ToUpperInvariant`. */
  function Upper(s: string): string {
    seq(|s|, i requires 0 <= i < |s| => UpperChar(s[i]))
  }

  /** `StringComparison.OrdinalIgnoreCase` equality. */
  predicate EqualsIgnoreCase(a: string, b: string) {
    Lower(a) == Lower(b)
  }

  /** The sign of `string.CompareOrdinal`: characters compared by their
      numeric value left to right, a proper prefix first. .NET compares
      UTF-16 code units; the two orders agree on text within the Basic
      Multilingual Plane. */
  function CompareOrdinal(a: string, b: string): (r: int)
    ensures -1 <= r <= 1
    ensures r == 0 <==> a == b
    decreases |a|
  {
    if a == [] then (if b == [] then 0 else -1)
    else if b == [] then 1
    else if a[0] < b[0] then -1
    else if a[0] > b[0] then 1
    else
      var r := CompareOrdinal(a[1..], b[1..]);
      assert a == [a[0]] + a[1..] && b == [b[0]] + b[1..];
      r
  }

  /** Swapping the arguments negates the comparison. */
  lemma {:induction false} CompareOrdinalSwap(a: string, b: string)
    ensures CompareOrdinal(b, a) == -CompareOrdinal(a, b)
    decreases |a|
  {
    if a != [] && b != [] && a[0] == b[0] {
      CompareOrdinalSwap(a[1..], b[1..]);
    }
  }

  lemma {:induction false} CompareOrdinalTransitive(a: string, b: string, c: string)
    requires CompareOrdinal(a, b) <= 0 && CompareOrdinal(b, c) <= 0
    ensures CompareOrdinal(a, c) <= 0
    decreases |a|
  {
    if a != [] && b != [] && c != [] && a[0] == b[0] && b[0] == c[0] {
      CompareOrdinalTransitive(a[1..], b[1..], c[1..]);
    }
  }

  /** The sign of `string.Compare(a, b, StringComparison.OrdinalIgnoreCase)`,
      which compares the upper-cased strings. */
  function CompareIgnoreCase(a: string, b: string): int {
    CompareOrdinal(Upper(a), Upper(b))
  }

  lemma LowerIdempotent(s: string)
    ensures Lower(Lower(s)) == Lower(s)
  {
  }

  lemma LowerPrefix(s: string, k: nat)
    requires k <= |s|
    ensures Lower(s[..k]) == Lower(s)[..k]
  {
  }

  lemma LowerAppend(a: string, b: string)
    ensures Lower(a + b) == Lower(a) + Lower(b)
  {
  }

  /** `char.IsWhiteSpace`: the Unicode space separators, the line and
      paragraph separators, U+0009..U+000D, U+0085 and U+00A0. */
  predicate IsWhiteSpace(c: char) {
    || c == ' '
    || ('\t' <= c <= '\r')
    || c == '\U{0085}'
    || c == '\U{00A0}'
    || c == '\U{1680}'
    || ('\U{2000}' <= c <= '\U{200A}')
    || c == '\U{2028}'
    || c == '\U{2029}'
    || c == '\U{202F}'
    || c == '\U{205F}'
    || c == '\U{3000}'
  }

  /** `string.IsNullOrWhiteSpace` for a non-null string. */
  predicate IsBlank(s: string) {
    forall i | 0 <= i < |s| :: IsWhiteSpace(s[i])
  }

  /** `TrimStart()` with no arguments. */
  function TrimStartWs(s: string): (r: string)
    ensures |r| <= |s|
    ensures r == s[|s| - |r|..]
    ensures |r| > 0 ==> !IsWhiteSpace(r[0])
    ensures forall i | 0 <= i < |s| - |r| :: IsWhiteSpace(s[i])
  {
    if |s| > 0 && IsWhiteSpace(s[0]) then TrimStartWs(s[1..]) else s
  }

  /** `TrimEnd()` with no arguments. */
  function TrimEndWs(s: string): (r: string)
    ensures |r| <= |s|
    ensures r == s[..|r|]
    ensures |r| > 0 ==> !IsWhiteSpace(r[|r| - 1])
    ensures forall i | |r| <= i < |s| :: IsWhiteSpace(s[i])
  {
    if |s| > 0 && IsWhiteSpace(s[|s| - 1]) then TrimEndWs(s[..|s| - 1]) else s
  }

  /** `Trim()`. */
  function Trim(s: string): (r: string)
    ensures |r| <= |s|
    ensures forall x | x in r :: x in s
    ensures r != [] ==> !IsWhiteSpace(r[0]) && !IsWhiteSpace(r[|r| - 1])
  {
    TrimEndWs(TrimStartWs(s))
  }

  /** `TrimEnd(chars)`. */
  function TrimEnd(s: string, cs: set<char>): (r: string)
    ensures |r| <= |s| && r == s[..|r|]
    ensures |r| > 0 ==> r[|r| - 1] !in cs
    ensures forall i | |r| <= i < |s| :: s[i] in cs
  {
    if |s| > 0 && s[|s| - 1] in cs then TrimEnd(s[..|s| - 1], cs) else s
  }

  /** `TrimEnd(chars)` leaves a string that does not end in `cs` alone. */
  lemma TrimEndStable(s: string, cs: set<char>)
    requires |s| == 0 || s[|s| - 1] !in cs
    ensures TrimEnd(s, cs) == s
  {
  }

  /** `TrimStart(chars)`. */
  function TrimStart(s: string, cs: set<char>): (r: string)
    ensures |r| <= |s| && r == s[|s| - |r|..]
    ensures |r| > 0 ==> r[0] !in cs
    ensures forall i | 0 <= i < |s| - |r| :: s[i] in cs
  {
    if |s| > 0 && s[0] in cs then TrimStart(s[1..], cs) else s
  }

  /** `t` occurs in `s` at position `i`. */
  predicate OccursAt(s: string, t: string, i: int) {
    0 <= i && i + |t| <= |s| && s[i..i + |t|] == t
  }

  /** Ordinal `IndexOf(t, k)`: the first occurrence of `t` at or after `k`. */
  function IndexOfFrom(s: string, t: string, k: nat): (r: Option<nat>)
    ensures r.Some? ==> k <= r.value && OccursAt(s, t, r.value)
    ensures r.Some? ==> forall j | k <= j < r.value :: !OccursAt(s, t, j)
    ensures r.None? ==> forall j | k <= j :: !OccursAt(s, t, j)
    decreases |s| - k
  {
    if k + |t| > |s| then None
    else if s[k..k + |t|] == t then Some(k)
    else IndexOfFrom(s, t, k + 1)
  }

  /** Ordinal `Contains`. */
  predicate Contains(s: string, t: string) {
    IndexOfFrom(s, t, 0).Some?
  }

  lemma ContainsIff(s: string, t: string)
    ensures Contains(s, t) <==> exists i :: OccursAt(s, t, i)
  {
    var r := IndexOfFrom(s, t, 0);
    if r.Some? {
      assert OccursAt(s, t, r.value);
    }
  }

  lemma ContainsWitness(s: string, t: string, i: int)
    requires OccursAt(s, t, i)
    ensures Contains(s, t)
  {
    ContainsIff(s, t);
  }

  /** `IndexOf(t, StringComparison.OrdinalIgnoreCase) >= 0`. */
  predicate ContainsIgnoreCase(s: string, t: string) {
    Contains(Lower(s), Lower(t))
  }

  /** Ordinal `StartsWith`. */
  predicate StartsWith(s: string, t: string) {
    t <= s
  }

  /** `IndexOfAny(chars) >= 0`. */
  predicate HasAny(s: string, cs: seq<char>) {
    exists i | 0 <= i < |s| :: s[i] in cs
  }

  /** `LastIndexOf(c)`. */
  function LastIndexOfChar(s: string, c: char): (r: int)
    ensures -1 <= r < |s|
    ensures r >= 0 ==> s[r] == c
    ensures forall j | r < j < |s| :: s[j] != c
  {
    if |s| == 0 then -1
    else if s[|s| - 1] == c then |s| - 1
    else LastIndexOfChar(s[..|s| - 1], c)
  }

  /** `IndexOf(c)`. */
  function IndexOfChar(s: string, c: char): (r: int)
    ensures -1 <= r < |s|
    ensures r >= 0 ==> s[r] == c
    ensures forall j | 0 <= j < |s| && (r < 0 || j < r) :: s[j] != c
  {
    if |s| == 0 then -1
    else if s[0] == c then 0
    else var k := IndexOfChar(s[1..], c); if k < 0 then -1 else k + 1
  }

  /** `Split(new[] { sep }, StringSplitOptions.None)`. */
  function SplitAll(s: string, sep: char): (parts: seq<string>)
    ensures |parts| > 0
    ensures forall p | p in parts :: sep !in p
    decreases |s|
  {
    var i := IndexOfChar(s, sep);
    if i < 0 then [s] else [s[..i]] + SplitAll(s[i + 1..], sep)
  }

  /** Keeps the non-empty strings, in order. */
  function NonEmpty(ss: seq<string>): (r: seq<string>)
    ensures forall p | p in r :: p != [] && p in ss
    ensures forall p | p in ss && p != [] :: p in r
  {
    if |ss| == 0 then []
    else (if ss[0] == [] then [] else [ss[0]]) + NonEmpty(ss[1..])
  }

  /** `Split(new[] { sep }, StringSplitOptions.RemoveEmptyEntries)`. */
  function Split(s: string, sep: char): (parts: seq<string>)
    ensures forall p | p in parts :: p != [] && sep !in p
  {
    NonEmpty(SplitAll(s, sep))
  }

  /** `string.Join(sep, parts)`. */
  function Join(parts: seq<string>, sep: string): string {
    if |parts| == 0 then ""
    else if |parts| == 1 then parts[0]
    else parts[0] + sep + Join(parts[1..], sep)
  }

  /** Reference definition of left-to-right, non-overlapping replacement:
      ordinary `string.Replace(oldValue, newValue)` for non-empty `oldValue`
      when `ignoreCase` is false. */
  function ReplaceRef(s: string, pat: string, repl: string, ignoreCase: bool): string
    requires pat != []
    decreases |s|
  {
    if |s| < |pat| then s
    else if MatchesAt(s, pat, 0, ignoreCase) then repl + ReplaceRef(s[|pat|..], pat, repl, ignoreCase)
    else [s[0]] + ReplaceRef(s[1..], pat, repl, ignoreCase)
  }

  /** How many replacements `ReplaceRef` performs. */
  function ReplaceCount(s: string, pat: string, ignoreCase: bool): nat
    requires pat != []
    decreases |s|
  {
    if |s| < |pat| then 0
    else if MatchesAt(s, pat, 0, ignoreCase) then 1 + ReplaceCount(s[|pat|..], pat, ignoreCase)
    else ReplaceCount(s[1..], pat, ignoreCase)
  }

  /** `pat` occurs at `i`, under ordinal or ordinal-ignore-case comparison
      (see `SameTextIff`). */
  predicate MatchesAt(s: string, pat: string, i: int, ignoreCase: bool) {
    0 <= i && i + |pat| <= |s| && SameText(s[i..i + |pat|], pat, ignoreCase)
  }

  /** Character-by-character equality, ignoring ASCII case when asked. */
  predicate SameText(a: string, b: string, ignoreCase: bool)
    decreases |a|
  {
    |a| == |b| &&
    (a == [] ||
     ((if ignoreCase then LowerChar(a[0]) == LowerChar(b[0]) else a[0] == b[0])
      && SameText(a[1..], b[1..], ignoreCase)))
  }

  /** `SameText` is ordinal equality, or `OrdinalIgnoreCase` equality. */
  lemma {:induction false} SameTextIff(a: string, b: string, ignoreCase: bool)
    ensures SameText(a, b, ignoreCase) <==> if ignoreCase then EqualsIgnoreCase(a, b) else a == b
    decreases |a|
  {
    if |a| == |b| && a != [] {
      SameTextIff(a[1..], b[1..], ignoreCase);
      assert a == [a[0]] + a[1..] && b == [b[0]] + b[1..];
      LowerAppend([a[0]], a[1..]);
      LowerAppend([b[0]], b[1..]);
      if Lower(a) == Lower(b) {
        assert Lower(a)[0] == Lower(b)[0];
        assert Lower(a)[1..] == Lower(a[1..]);
        assert Lower(b)[1..] == Lower(b[1..]);
      }
    }
  }

  /** Ordinal string replacement, `string.Replace(oldValue, newValue)`. */
  function Replace(s: string, pat: string, repl: string): string
    requires pat != []
  {
    ReplaceRef(s, pat, repl, false)
  }

  lemma {:induction false} ReplaceLength(s: string, pat: string, repl: string, ignoreCase: bool)
    requires pat != []
    ensures |ReplaceRef(s, pat, repl, ignoreCase)|
         == |s| + ReplaceCount(s, pat, ignoreCase) * (|repl| - |pat|)
    decreases |s|
  {
    var d := |repl| - |pat|;
    if |s| < |pat| {
    } else if MatchesAt(s, pat, 0, ignoreCase) {
      var rest := s[|pat|..];
      var k := ReplaceCount(rest, pat, ignoreCase);
      ReplaceLength(rest, pat, repl, ignoreCase);
      assert ReplaceRef(s, pat, repl, ignoreCase) == repl + ReplaceRef(rest, pat, repl, ignoreCase);
      assert ReplaceCount(s, pat, ignoreCase) == 1 + k;
      MulDistributes(k, d);
    } else {
      var rest := s[1..];
      ReplaceLength(rest, pat, repl, ignoreCase);
      assert ReplaceRef(s, pat, repl, ignoreCase) == [s[0]] + ReplaceRef(rest, pat, repl, ignoreCase);
      assert ReplaceCount(s, pat, ignoreCase) == ReplaceCount(rest, pat, ignoreCase);
    }
  }

  lemma MulDistributes(k: int, d: int)
    ensures (1 + k) * d == d + k * d
  {
  }

  lemma {:induction false} ReplaceNoMatch(s: string, pat: string, repl: string, ignoreCase: bool)
    requires pat != []
    requires forall i | 0 <= i :: !MatchesAt(s, pat, i, ignoreCase)
    ensures ReplaceRef(s, pat, repl, ignoreCase) == s
    ensures ReplaceCount(s, pat, ignoreCase) == 0
    decreases |s|
  {
    if |s| < |pat| {
    } else {
      assert !MatchesAt(s, pat, 0, ignoreCase);
      forall i | 0 <= i
        ensures !MatchesAt(s[1..], pat, i, ignoreCase)
      {
        if i + |pat| <= |s| - 1 {
          assert !MatchesAt(s, pat, i + 1, ignoreCase);
          assert s[1..][i..i + |pat|] == s[i + 1..i + 1 + |pat|];
        }
      }
      ReplaceNoMatch(s[1..], pat, repl, ignoreCase);
    }
  }

  lemma {:induction false} ReplaceCountPositive(s: string, pat: string, i: int, ignoreCase: bool)
    requires pat != []
    requires MatchesAt(s, pat, i, ignoreCase)
    ensures ReplaceCount(s, pat, ignoreCase) > 0
    decreases |s|
  {
    if !MatchesAt(s, pat, 0, ignoreCase) {
      assert i > 0;
      assert s[1..][i - 1..i - 1 + |pat|] == s[i..i + |pat|];
      ReplaceCountPositive(s[1..], pat, i - 1, ignoreCase);
    }
  }

  /** Every character kept by `ReplaceRef` comes from `s` or `repl`. */
  lemma {:induction false} ReplaceChars(s: string, pat: string, repl: string, ignoreCase: bool, c: char)
    requires pat != []
    requires c in ReplaceRef(s, pat, repl, ignoreCase)
    ensures c in s || c in repl
    decreases |s|
  {
    if |s| < |pat| {
    } else if MatchesAt(s, pat, 0, ignoreCase) {
      var rest := ReplaceRef(s[|pat|..], pat, repl, ignoreCase);
      if c !in repl {
        assert c in rest;
        ReplaceChars(s[|pat|..], pat, repl, ignoreCase, c);
      }
    } else {
      var rest := ReplaceRef(s[1..], pat, repl, ignoreCase);
      if c != s[0] {
        assert c in rest;
        ReplaceChars(s[1..], pat, repl, ignoreCase, c);
      }
    }
  }

  /** Replacing a one-character string by another maps that character. */
  function MapChar(s: string, c: char, d: char): (r: string)
    ensures |r| == |s|
    ensures forall i | 0 <= i < |s| :: r[i] == (if s[i] == c then d else s[i])
  {
    seq(|s|, i requires 0 <= i < |s| => if s[i] == c then d else s[i])
  }

  /** Removing every occurrence of one character. */
  function RemoveChar(s: string, c: char): (r: string)
    ensures c !in r
    ensures forall x | x in r :: x in s
    ensures |r| <= |s|
  {
    if |s| == 0 then []
    else (if s[0] == c then [] else [s[0]]) + RemoveChar(s[1..], c)
  }

  lemma MatchesOneChar(s: string, c: char)
    requires s != []
    ensures MatchesAt(s, [c], 0, false) <==> s[0] == c
  {
    assert s[0..1] == [s[0]];
    assert SameText([s[0]], [c], false) <==> s[0] == c && SameText([], [], false);
  }

  lemma {:induction false} ReplaceOneChar(s: string, c: char, d: char)
    ensures Replace(s, [c], [d]) == MapChar(s, c, d)
    decreases |s|
  {
    if |s| > 0 {
      ReplaceOneChar(s[1..], c, d);
      MatchesOneChar(s, c);
      assert s[1..] == s[|[c]|..];
    }
  }

  lemma {:induction false} RemoveOneChar(s: string, c: char)
    ensures Replace(s, [c], "") == RemoveChar(s, c)
    decreases |s|
  {
    if |s| > 0 {
      RemoveOneChar(s[1..], c);
      MatchesOneChar(s, c);
    }
  }
}

=== FILE: Tabs.dfy ===
/** TabManager: the tab list with its selected index, and the moves the
    user can make on it. Tab ids (`Guid.NewGuid()`) are a parameter. */
module Tabs {
  import opened Common
  import PathText

  datatype Tab = Tab(id: nat, path: string, title: string)

  /** `_tabs` and `_selectedIndex`; -1 means nothing is selected. */
  datatype TabList = TabList(tabs: seq<Tab>, selected: int)

  /** The selection is a valid position whenever there is a tab, and -1
      when there is none. */
  predicate Valid(m: TabList) {
    if m.tabs == [] then m.selected == -1 else 0 <= m.selected < |m.tabs|
  }

  const Empty: TabList := TabList([], -1)

  lemma EmptyValid()
    ensures Valid(Empty)
  {
  }

  /** `title ?? Path.GetFileName(path)`. */
  function TitleFor(path: string, title: Option<string>): string {
    if title.Some? then title.value else PathText.GetFileName(path)
  }

  /** `SelectTab`: out-of-range or already-selected indices change nothing. */
  function SelectTab(m: TabList, index: int): (r: TabList)
    ensures r.tabs == m.tabs
    ensures 0 <= index < |m.tabs| ==> r.selected == index
    ensures !(0 <= index < |m.tabs|) ==> r == m
    ensures Valid(m) ==> Valid(r)
  {
    if index < 0 || index >= |m.tabs| then m
    else if m.selected == index then m
    else m.(selected := index)
  }

  /** `AddTab`: appends, and selects the new tab when asked to or when it
      is the only one. */
  function AddTab(m: TabList, id: nat, path: string, title: Option<string>, select: bool): (r: TabList)
    ensures r.tabs == m.tabs + [Tab(id, path, TitleFor(path, title))]
    ensures select || m.tabs == [] ==> r.selected == |m.tabs|
    ensures !select && m.tabs != [] ==> r.selected == m.selected
    ensures Valid(m) ==> Valid(r)
  {
    var tabs := m.tabs + [Tab(id, path, TitleFor(path, title))];
    var added := m.(tabs := tabs);
    if select || |tabs| == 1 then SelectTab(added, |tabs| - 1) else added
  }

  /** `UpdateTabPath`: out-of-range indices change nothing; an empty title
      falls back to the path. */
  function UpdateTabPath(m: TabList, index: int, path: string, title: Option<string>): (r: TabList)
    ensures !(0 <= index < |m.tabs|) ==> r == m
    ensures r.selected == m.selected && |r.tabs| == |m.tabs|
    ensures forall k | 0 <= k < |m.tabs| && k != index :: r.tabs[k] == m.tabs[k]
    ensures 0 <= index < |m.tabs| ==>
      && r.tabs[index].id == m.tabs[index].id
      && r.tabs[index].path == path
      && (path != [] ==> r.tabs[index].title != [])
      && (TitleFor(path, title) != [] ==> r.tabs[index].title == TitleFor(path, title))
  {
    if index < 0 || index >= |m.tabs| then m
    else
      var t := TitleFor(path, title);
      var tab := m.tabs[index].(path := path, title := if t == [] then path else t);
      m.(tabs := m.tabs[index := tab])
  }

  /** Where the tab at position `k` ends up once position `index` is removed. */
  function AfterRemoval(k: nat, index: nat): nat
    requires k != index
  {
    if k > index then k - 1 else k
  }

  /** `CloseTab`: a no-op out of range or on the last remaining tab;
      otherwise removes that tab, keeping a different selected tab selected
      and moving the selection off the end when needed. */
  function CloseTab(m: TabList, index: int): (r: TabList)
    requires Valid(m)
    ensures Valid(r)
    ensures !(0 <= index < |m.tabs|) || |m.tabs| <= 1 ==> r == m
    ensures 0 <= index < |m.tabs| && |m.tabs| > 1 ==>
      && r.tabs == m.tabs[..index] + m.tabs[index + 1..]
      && (m.selected != index ==> r.selected == AfterRemoval(m.selected, index))
      && (m.selected == index ==> r.selected == if index == |m.tabs| - 1 then index - 1 else index)
  {
    if index < 0 || index >= |m.tabs| then m
    else if |m.tabs| <= 1 then m
    else
      var tabs := m.tabs[..index] + m.tabs[index + 1..];
      var sel :=
        if m.selected >= |tabs| then |tabs| - 1
        else if m.selected > index then m.selected - 1
        else m.selected;
      TabList(tabs, sel)
  }

  /** Closing keeps every other tab, in order, and a different selected tab
      stays selected. */
  lemma CloseTabKeepsOthers(m: TabList, index: int)
    requires Valid(m) && 0 <= index < |m.tabs| && |m.tabs| > 1
    ensures var r := CloseTab(m, index);
      && |r.tabs| == |m.tabs| - 1
      && (forall k | 0 <= k < |m.tabs| && k != index :: r.tabs[AfterRemoval(k, index)] == m.tabs[k])
      && (m.selected != index ==> r.tabs[r.selected] == m.tabs[m.selected])
  {
  }

  /** `CloseAllTabsExcept`: only the former `index`-th tab remains, selected. */
  function CloseAllTabsExcept(m: TabList, index: int): (r: TabList)
    ensures !(0 <= index < |m.tabs|) ==> r == m
    ensures 0 <= index < |m.tabs| ==> r == TabList([m.tabs[index]], 0)
    ensures Valid(m) ==> Valid(r)
  {
    if index < 0 || index >= |m.tabs| then m
    else TabList([m.tabs[index]], 0)
  }

  /** Where the tab at position `k` ends up when the tab at `from` is
      removed and re-inserted at `to`. */
  function MovedIndex(k: nat, from: nat, to: nat): nat {
    if k == from then to
    else if from < k <= to then k - 1
    else if to <= k < from then k + 1
    else k
  }

  /** Remove the element at `from` and insert it at `to`. */
  function Move<T>(xs: seq<T>, from: nat, to: nat): (r: seq<T>)
    requires from < |xs| && to < |xs|
    ensures |r| == |xs|
  {
    var rest := xs[..from] + xs[from + 1..];
    rest[..to] + [xs[from]] + rest[to..]
  }

  /** Moving relocates each element exactly as `MovedIndex` says. */
  lemma MovePositions<T>(xs: seq<T>, from: nat, to: nat)
    requires from < |xs| && to < |xs|
    ensures forall k | 0 <= k < |xs| :: MovedIndex(k, from, to) < |xs| && Move(xs, from, to)[MovedIndex(k, from, to)] == xs[k]
  {
  }

  /** The drag-reorder step of `OnMouseMove`: the dragged tab moves to the
      hovered position and the selected tab follows its tab. A hover outside
      every tab (-1) or over the dragged tab changes nothing. */
  function DragTo(m: TabList, from: int, to: int): (r: TabList)
    requires Valid(m) && 0 <= from < |m.tabs| && -1 <= to < |m.tabs|
    ensures Valid(r)
    ensures to < 0 || to == from ==> r == m
    ensures 0 <= to && to != from ==>
      && r.tabs == Move(m.tabs, from, to)
      && r.selected == MovedIndex(m.selected, from, to)
  {
    if to < 0 || to == from then m
    else
      var tabs := Move(m.tabs, from, to);
      var sel :=
        if m.selected == from then to
        else if m.selected > from && m.selected <= to then m.selected - 1
        else if m.selected < from && m.selected >= to then m.selected + 1
        else m.selected;
      TabList(tabs, sel)
  }

  /** After a drag the same tab is selected. */
  lemma DragKeepsSelectedTab(m: TabList, from: int, to: int)
    requires Valid(m) && 0 <= from < |m.tabs| && 0 <= to < |m.tabs|
    ensures var r := DragTo(m, from, to);
      r.tabs[r.selected] == m.tabs[m.selected]
  {
    MovePositions(m.tabs, from, to);
  }

  /** `SelectedTab`: null when nothing is selected. */
  function SelectedTab(m: TabList): (r: Option<Tab>)
    ensures r.Some? <==> 0 <= m.selected < |m.tabs|
    ensures Valid(m) ==> (r.Some? <==> m.tabs != [])
  {
    if 0 <= m.selected < |m.tabs| then Some(m.tabs[m.selected]) else None
  }
}
